=== FILE: README.md ===
# CopilotClient chat core, modelled in Dafny

CopilotClient is a desktop chat client for programming help backed by Azure
OpenAI. This project models its core as pure functions over immutable data:

- the per-conversation session engine (`ChatViewModel`): sending a message,
  the typing placeholder, the non-streaming and streaming turns and the
  terminal states they leave, auto-titling, and the summarization check
  that folds old Sent messages into a running summary;
- the prompt builder (`PromptBuilder`, `ModePromptHelper`): the per-mode
  system instruction, the injected summary turn, and the newest-first
  token-budgeted history window;
- the retry policy (`AiRetryPolicy`): which failures are retried, how often,
  and the exponential back-off with jitter;
- the pure parts of the Azure OpenAI transport (`AzureOpenAiChatService`):
  option validation, wire message construction, reply assembly, failure
  messages, per-mode output limits, stream chunk filtering and the
  summarization request;
- the JSON conversation store (`JsonConversationStore`): load with
  normalization of transient states, upsert, delete, and the summary list
  ordered by recency;
- the conversation list (`ConversationManagerViewModel`): the initial
  session, new conversations, and loading stored conversations;
- the Markdown bubble helpers (`MarkdownBubble`): task-list parsing, raw
  span extraction, inline plain text, HTML span consumption and list
  rendering decisions.

Files: `optional.dfy` (Option, Result), `text.dfy` (.NET whitespace and
trimming), `sorting.dfy` (stable sort, the model of LINQ `OrderBy`),
`domain.dfy` (messages, conversations, summaries), `modes.dfy`,
`prompt.dfy`, `retry.dfy`, `transport.dfy`, `session.dfy`, `store.dfy`,
`manager.dfy`, `markdown.dfy`.

Modelling conventions:

- A session is a `ChatSession` value. Its class invariant `Session.Synced`
  says the observable message list and the conversation's list are the same
  sequence, and the two titles agree. Every transition preserves it.
- A message's identity (a C# object reference) is its `clientId`. A fresh
  id is one above every id in the history, so the user message, the typing
  placeholder and the streamed answer of one turn get consecutive ids.
- The remote service, the clock and the random jitter are parameters. A
  turn receives the reply, the stream chunks and how the stream ended. An
  operation receives one `now`. The store works on the file's contents
  (`None` when the file does not exist).
- `DateTime` is an integer timestamp. `Guid` is an integer id.

## Model

| member | source | states |
|---|---|---|
| ModePrompt.GetInstructions | CopilotClient/Services/ModePromptHelper.cs:7-18 | the instruction is one of the five mode texts; it is the general one exactly for General and unnamed modes, and each of the other four exactly for its own mode |
| ModePrompt.NamedModesDistinct | CopilotClient/Services/ModePromptHelper.cs:11-15 | the five named modes get five different instructions |
| PromptBuilder.EstimateTokens | CopilotClient/Services/PromptBuilder.cs:79-86 | zero tokens exactly for empty text; otherwise n tokens with 4(n-1) <= length < 4n, about four characters per token |
| PromptBuilder.EligibleFrom | CopilotClient/Services/PromptBuilder.cs:59-60 | the messages the window may use are history messages that are neither Typing nor Streaming |
| PromptBuilder.BuildTruncatedHistory | CopilotClient/Services/PromptBuilder.cs:50-77 | the result is the longest suffix of the eligible messages, in chronological order, whose cost plus the 500-token overhead stays within 6000 |
| PromptBuilder.StoppedWalkIsWindow | CopilotClient/Services/PromptBuilder.cs:64-68 | stopping at the first message that would overflow the budget yields the longest fitting suffix |
| PromptBuilder.TakeStep | CopilotClient/Services/PromptBuilder.cs:62-71 | taking a message that fits extends the collected suffix by that message, in front |
| PromptBuilder.SkipStep | CopilotClient/Services/PromptBuilder.cs:59-60 | skipping a placeholder leaves the collected suffix as it is |
| PromptBuilder.WindowFromHistory | CopilotClient/Services/PromptBuilder.cs:50-77 | every message of the window comes from the history |
| PromptBuilder.SummaryTurn | CopilotClient/Services/PromptBuilder.cs:29-38 | the injected summary is a Sent System message with the fixed prefix and the summary text, dated at the summary's update time or else the conversation's creation |
| PromptBuilder.Build | CopilotClient/Services/PromptBuilder.cs:15-48 | the request carries the conversation's mode and its instruction; it opens with the summary turn exactly when a non-blank summary exists, followed by the truncated window |
| RetryPolicy.SleepDuration | CopilotClient/Services/AiRetryPolicy.cs:21-27 | the wait before retry n lies between 2^n seconds and 2^n seconds plus 499 ms |
| RetryPolicy.DelaysGrow | CopilotClient/Services/AiRetryPolicy.cs:21-27 | every possible wait before retry n+1 is longer than every possible wait before retry n |
| RetryPolicy.Execute | CopilotClient/Services/AiRetryPolicy.cs:16-33 | at most four calls; every call but the last ended in a handled failure (transient status or task cancellation); fewer than four calls means the last was not handled; each wait is within its back-off bounds |
| RetryPolicy.DelaysIncrease | CopilotClient/Services/AiRetryPolicy.cs:19-27 | the waits of one execution strictly increase |
| RetryPolicy.ClientErrorsAreFatal | CopilotClient/Services/AiRetryPolicy.cs:36-39 | statuses 400, 401, 403 and 404 are never retried |
| ChatTransport.NewChatService | CopilotClient/Services/AzureOpenAiChatService.cs:28-47 | construction succeeds exactly when endpoint, deployment name and API key are all non-blank, and otherwise reports the first blank one in that order |
| ChatTransport.ToWire | CopilotClient/Services/AzureOpenAiChatService.cs:225-242 | content is kept; System and Assistant map to their own kinds and every other role is sent as User |
| ChatTransport.BuildChatMessages | CopilotClient/Services/AzureOpenAiChatService.cs:214-244 | a System instruction turn first exactly when the instruction is not blank, then one wire message per request message in creation-time order |
| ChatTransport.ChronologicalRequestKeepsOrder | CopilotClient/Services/AzureOpenAiChatService.cs:223 | messages already in creation-time order are sent one to one in the same order |
| ChatTransport.BuildFailedMessage | CopilotClient/Services/AzureOpenAiChatService.cs:198-212 | a Failed assistant message whose error text equals its content: the message alone, or message, a blank line, "Details: " and the details |
| ChatTransport.CompleteReply | CopilotClient/Services/AzureOpenAiChatService.cs:70-103 | cancellation is rethrown; non-blank concatenated text becomes a Sent assistant message; blank text a Failed "no valid response" message; any other fault a Failed message with the error details |
| ChatTransport.CallOutcome | CopilotClient/Services/AzureOpenAiChatService.cs:62-68 | the policy's final result surfaces as a completion exactly on success, carrying the call's content parts, as cancellation exactly on task cancellation, and otherwise as a failure carrying the exception's text |
| ChatTransport.ExhaustedTimeoutsLookLikeCancellation | CopilotClient/Services/AzureOpenAiChatService.cs:94-97 | four task cancellations in a row use up the retries and reach the caller as a cancellation, not a failed message |
| ChatTransport.CompletionMaxOutputTokens | CopilotClient/Services/AzureOpenAiChatService.cs:58 | a completion uses the Explain output limit exactly in Explain mode |
| ChatTransport.StreamMaxOutputTokens | CopilotClient/Services/AzureOpenAiChatService.cs:122 | a stream always uses the default output limit |
| ChatTransport.StreamLimitDiffersOnlyForExplain | CopilotClient/Services/AzureOpenAiChatService.cs:58 | stream and completion limits agree exactly outside Explain mode or when the two configured limits coincide |
| ChatTransport.TextsOfAppend | CopilotClient/Services/AzureOpenAiChatService.cs:71-77 | text collection distributes over concatenation of the content parts |
| ChatTransport.StreamMatchesCompletion | CopilotClient/Services/AzureOpenAiChatService.cs:136-146 | the streamed chunks are exactly the non-null text parts one completion holding all updates would concatenate, in order |
| ChatTransport.ToSummaryWire | CopilotClient/Services/AzureOpenAiChatService.cs:161-169 | for summarization, assistants stay assistants and every other role is sent as User; nothing is sent as System |
| ChatTransport.SummarizeRequest | CopilotClient/Services/AzureOpenAiChatService.cs:154-173 | the fixed summarization prompt is the only System turn, followed by the messages in creation-time order |
| ChatTransport.SummaryText | CopilotClient/Services/AzureOpenAiChatService.cs:186-195 | the summary is the concatenated text parts with whitespace, and only whitespace, cut off both ends; it is empty exactly when the parts are all whitespace |
| ChatTransport.Chronological | CopilotClient/Services/AzureOpenAiChatService.cs:223 | `OrderBy(CreatedAt)`: a permutation, sorted by creation time, stable among equal times |
| StableSort.SortBy | CopilotClient/Persistence/JsonConversationStore.cs:66 | a permutation of the input, sorted by the key, keeping the input order among equal keys |
| StableSort.SortedIsUnchanged | CopilotClient/Services/AzureOpenAiChatService.cs:223 | sorting an already sorted sequence changes nothing |
| StableSort.UniqueMinimumFirst | CopilotClient/Persistence/JsonConversationStore.cs:66 | an element whose key is strictly below every other key is sorted first |
| StableSort.InsertSorted | CopilotClient/Persistence/JsonConversationStore.cs:66 | inserting into a sorted sequence keeps it sorted |
| StableSort.InsertWithKey | CopilotClient/Persistence/JsonConversationStore.cs:66 | insertion appends the element to the elements with its key and leaves every other key's elements as they were |
| Text.TrimStart | CopilotClient/Controls/MarkdownBubble.xaml.cs:1016 | the result is a suffix of the input; only whitespace was dropped; it does not start with whitespace |
| Text.TrimEmptyIffAllWhiteSpace | CopilotClient/ViewModels/ChatViewModel.cs:159-161 | trimming leaves nothing exactly when the text is all whitespace |
| Text.Trim | CopilotClient/ViewModels/ChatViewModel.cs:159 | the result is a middle part of the text with only whitespace cut off either end, and it neither starts nor ends with whitespace |
| Domain.StatusPartition | CopilotClient/ViewModels/ChatViewModel.cs:325-331 | the messages with a status and those without it together make up the sequence |
| Domain.WithStatusAppend | CopilotClient/ViewModels/ChatViewModel.cs:328-331 | selecting one status from two runs of messages selects it from each run and keeps the runs in order |
| Domain.WithStatusSingle | CopilotClient/ViewModels/ChatViewModel.cs:330 | a single message is selected exactly when it has the status |
| Domain.WithoutStatusAppend | CopilotClient/ViewModels/ChatViewModel.cs:355-359 | dropping one status from two runs of messages drops it from each run and keeps the runs in order |
| Domain.WithoutStatusSingle | CopilotClient/ViewModels/ChatViewModel.cs:355-359 | a single message survives exactly when it does not have the status |
| Session.Open | CopilotClient/ViewModels/ChatViewModel.cs:136-155 | a new session is synced with its conversation, idle, streaming, unwired, with empty input; the title assignment bumps the conversation's update time |
| Session.SetTitle | CopilotClient/ViewModels/ChatViewModel.cs:79-94 | a different title reaches the conversation and bumps its update time; the same title changes nothing; messages stay |
| Session.SetMode | CopilotClient/ViewModels/ChatViewModel.cs:96-109 | a different mode reaches the conversation and bumps its update time; the same mode changes nothing |
| Session.SetInput | CopilotClient/ViewModels/ChatViewModel.cs:34-48 | only the input changes, and sending becomes possible exactly when the session is idle and the input is not blank |
| Session.RemoveFirst | CopilotClient/ViewModels/ChatViewModel.cs:389-394 | removing an absent id changes nothing; removing a present one drops exactly one message |
| Session.RemoveFirstOccurrence | CopilotClient/ViewModels/ChatViewModel.cs:389-394 | when position k holds the first message with the id, exactly that message is removed and the others keep their order |
| Session.RemoveAppended | CopilotClient/ViewModels/ChatViewModel.cs:389-394 | removing a message just appended with a new id restores the previous list |
| Session.AddMessage | CopilotClient/ViewModels/ChatViewModel.cs:382-387 | the message is appended to both lists, keeping them in sync, and nothing else but the update time changes |
| Session.RemoveMessage | CopilotClient/ViewModels/ChatViewModel.cs:389-394 | the message is removed from both lists, keeping them in sync, and nothing else but the update time changes |
| Session.Mutate | CopilotClient/ViewModels/ChatViewModel.cs:224 | an in-place change to a message object is seen in both lists and bumps no timestamp |
| Session.MutateAppended | CopilotClient/ViewModels/ChatViewModel.cs:224 | changing a message in an extended list is changing it in the prefix and in the new last message |
| Session.NonStreamingTurn | CopilotClient/ViewModels/ChatViewModel.cs:207-239 | a reply marks the user message Sent, removes the placeholder and appends the reply; an exception turns the placeholder into a Failed message with the exception text; cancellation only removes the placeholder |
| Session.LaterChunksAppend | CopilotClient/ViewModels/ChatViewModel.cs:264-286 | chunks after the first only grow the streaming message, which ends up holding all of them in order |
| Session.StreamedContent | CopilotClient/ViewModels/ChatViewModel.cs:264-286 | after a non-empty stream the placeholder is gone and one Streaming message holds the concatenation of all chunks |
| Session.StreamingTurn | CopilotClient/ViewModels/ChatViewModel.cs:242-311 | every combination of chunks seen and stream end: completed with chunks marks answer and user message Sent; completed without chunks fails the placeholder with the no-content text; an exception fails the current target; cancellation removes only the placeholder |
| Session.EstimateTokens | CopilotClient/ViewModels/ChatViewModel.cs:420-426 | blank text costs nothing; any other text costs what the prompt builder charges |
| Session.EstimatorsDisagreeOnBlankText | CopilotClient/ViewModels/ChatViewModel.cs:420-426 | the two estimators differ exactly on non-empty whitespace-only text |
| Session.ConversationTokensAtMostCost | CopilotClient/ViewModels/ChatViewModel.cs:428-438 | the summarization check never counts more tokens than the prompt builder would charge for the same history |
| Session.Cutoff | CopilotClient/ViewModels/ChatViewModel.cs:325-328 | everything before the ten most recent messages, or nothing when there are fewer than ten |
| Session.MergeSummary | CopilotClient/ViewModels/ChatViewModel.cs:343-351 | a blank previous summary is replaced; otherwise the new text follows after a blank line |
| Session.SummarizeIfNeeded | CopilotClient/ViewModels/ChatViewModel.cs:313-370 | the summarizer is called exactly when over 40 messages or 6000 tokens and some older message is Sent, and receives exactly those; only non-blank text changes the session: the summary grows, its time is set, and the summarized messages leave both lists |
| Session.CompactionRemovesExactlyCandidates | CopilotClient/ViewModels/ChatViewModel.cs:355-360 | the remaining and the summarized messages make up the old history, every summarized one was Sent, and the ten most recent are still last |
| Session.CompactionKeepsOrder | CopilotClient/ViewModels/ChatViewModel.cs:355-360 | the surviving older messages are those of the older part that were not Sent, in their original order, followed by the recent ones |
| Session.CompactionKeepsFront | CopilotClient/ViewModels/ChatViewModel.cs:355-360 | the first older message survives, still in front, exactly when it was not Sent |
| Session.SummarizeTwiceCallsOnce | CopilotClient/ViewModels/ChatViewModel.cs:325-334 | right after a compaction another check does not call the summarizer |
| Session.SummarizeKeepsRecent | CopilotClient/ViewModels/ChatViewModel.cs:325-331 | up to ten most recent messages survive the check unchanged and stay last |
| Session.AutoTitle | CopilotClient/ViewModels/ChatViewModel.cs:173-175 | a text of at most 40 characters is the title; a longer one is cut to its first 40 characters followed by "..." |
| Session.PostUserMessage | CopilotClient/ViewModels/ChatViewModel.cs:159-183 | the input is cleared, the user message is appended with a fresh id, the first message of an untitled conversation names it, and the session turns busy |
| Session.NonStreamingTurnShape | CopilotClient/ViewModels/ChatViewModel.cs:207-239 | a single-call turn keeps every earlier message in place, turns only the user message Sent and only on a reply, and appends the reply, the failed placeholder, or nothing on cancellation |
| Session.StreamingTurnShape | CopilotClient/ViewModels/ChatViewModel.cs:242-311 | a streamed turn keeps every earlier message in place, turns only the user message Sent and only on a completed stream with chunks, and appends nothing only when cancelled before any chunk; otherwise one assistant message with the placeholder's or the streamed message's id, Sent exactly on success |
| Session.RunTurn | CopilotClient/ViewModels/ChatViewModel.cs:184-193 | the turn keeps the session synced and changes only the messages; earlier messages keep their place and only the user message may turn Sent, on success; with streaming on the stream decides what is appended, else the single call's reply or failure |
| Session.StreamingIgnoresReply | CopilotClient/ViewModels/ChatViewModel.cs:184-187 | with streaming on the single call's answer never reaches the session |
| Session.SingleCallIgnoresStream | CopilotClient/ViewModels/ChatViewModel.cs:188-191 | with streaming off no stream reaches the session |
| Session.Turn | CopilotClient/ViewModels/ChatViewModel.cs:166-193 | posting then running the turn keeps the session synced and changes nothing but the messages the turn adds |
| Session.TurnPostsUserMessage | CopilotClient/ViewModels/ChatViewModel.cs:166-193 | after the turn the old history is unchanged, followed by the user message with the next id, its text and time, Sent only on success, and at most one more message |
| Session.TurnThrowsBeforeFirstChunk | CopilotClient/ViewModels/ChatViewModel.cs:304-310 | a streamed turn whose stream throws before any chunk adds only the placeholder, failed with the exception text |
| Session.TurnCancelledAfterChunks | CopilotClient/ViewModels/ChatViewModel.cs:300-303 | a streamed turn cancelled after some chunks adds only the partial answer, still Streaming |
| Session.Send | CopilotClient/ViewModels/ChatViewModel.cs:157-205 | blank input changes nothing at all; otherwise the session ends idle with empty input, synced, in the same conversation and mode, titled by the auto-title rule |
| Session.SendPostsUserMessage | CopilotClient/ViewModels/ChatViewModel.cs:157-205 | a non-blank send leaves the trimmed input as a user message with the next id among the last two messages; without compaction the old history stays in front of it and at most one message follows |
| Session.SummaryKeepsPosted | CopilotClient/ViewModels/ChatViewModel.cs:324-360 | a message at most one from the end stays among the last two after the summarization check, and nothing changes without compaction |
| Session.FirstPost | CopilotClient/ViewModels/ChatViewModel.cs:166-176 | the first message of an empty untitled conversation gets the first id, is the only message, and names the conversation |
| Session.FirstTurn | CopilotClient/ViewModels/ChatViewModel.cs:242-311 | a completed stream after that first message leaves the question and the full answer Sent, in order |
| Session.FirstStreamedExchange | CopilotClient/ViewModels/ChatViewModel.cs:157-205 | the first streamed exchange of an empty untitled conversation leaves the question and the full answer Sent, in order, and names the conversation after the question |
| Session.StreamFailsBeforeFirstChunk | CopilotClient/ViewModels/ChatViewModel.cs:293-310 | a stream that throws before any chunk leaves the user message in its initial state, followed by the failed placeholder |
| Session.FailedSendAppends | CopilotClient/ViewModels/ChatViewModel.cs:157-205 | a short send whose stream throws before any chunk appends exactly the unsent user message and the failed placeholder |
| Session.FailedSendStatuses | CopilotClient/ViewModels/ChatViewModel.cs:157-205 | after such a send the history is kept and then come one Sending and one Failed message |
| Session.FirstFailedSend | CopilotClient/ViewModels/ChatViewModel.cs:157-205 | on an empty conversation such a send leaves exactly one Sending and one Failed message |
| Session.SecondFailedSend | CopilotClient/ViewModels/ChatViewModel.cs:157-205 | a second such send leaves four messages alternating Sending and Failed |
| Session.ShortSendKeepsTurn | CopilotClient/ViewModels/ChatViewModel.cs:316-322 | a history of at most ten messages after the turn is not summarized |
| Session.ShortHistoryKept | CopilotClient/ViewModels/ChatViewModel.cs:324-335 | a history of at most ten messages is never summarized and the session is left as it is |
| Session.SummarizeEndsWith | CopilotClient/ViewModels/ChatViewModel.cs:324-360 | whatever ends a history, up to ten messages, still ends it after the check |
| Session.FailedTurnsLeaveUserMessagesSending | CopilotClient/ViewModels/ChatViewModel.cs:288-310 | two sends whose streams fail before any chunk leave two user messages Sending at once |
| Session.SendEndsWithTurn | CopilotClient/ViewModels/ChatViewModel.cs:195-205 | whatever the turn appended (up to ten messages) is still the end of the history after the send |
| Session.CancelledStreamTurn | CopilotClient/ViewModels/ChatViewModel.cs:300-303 | a stream cancelled after some chunks leaves the user message unsent and the partial answer still Streaming |
| Session.CancelledStreamKeepsPartialAnswer | CopilotClient/ViewModels/ChatViewModel.cs:195-205 | after such a send the history ends with that user message and that partial answer |
| ConversationStore.NormalizeMessage | CopilotClient/Persistence/JsonConversationStore.cs:45-48 | Sending, Typing and Streaming become Failed; other messages are unchanged |
| ConversationStore.NormalizeConversation | CopilotClient/Persistence/JsonConversationStore.cs:41-50 | every message is normalized in place and nothing else changes |
| ConversationStore.NormalizeIdempotent | CopilotClient/Persistence/JsonConversationStore.cs:41-50 | normalizing twice is normalizing once |
| ConversationStore.NormalizedIsUnchanged | CopilotClient/Persistence/JsonConversationStore.cs:41-50 | a conversation without transient messages is left as it is |
| ConversationStore.LoadAll | CopilotClient/Persistence/JsonConversationStore.cs:31-53 | a missing file loads nothing; otherwise every stored conversation, in order, normalized |
| ConversationStore.LoadAllIdempotent | CopilotClient/Persistence/JsonConversationStore.cs:31-53 | writing back what was loaded and loading again gives the same list |
| ConversationStore.FirstIndex | CopilotClient/Persistence/JsonConversationStore.cs:87 | the first position holding the id, or none exactly when no conversation has it |
| ConversationStore.LoadConversation | CopilotClient/Persistence/JsonConversationStore.cs:77-81 | none exactly when no stored conversation has the id; otherwise the first stored conversation with that id, normalized |
| ConversationStore.Save | CopilotClient/Persistence/JsonConversationStore.cs:83-97 | the stamped conversation replaces the first one with its id, or is appended when there is none |
| ConversationStore.SaveThenLoad | CopilotClient/Persistence/JsonConversationStore.cs:83-97 | loading a saved conversation gives it back, stamped and normalized |
| ConversationStore.SaveKeepsOthers | CopilotClient/Persistence/JsonConversationStore.cs:83-97 | saving a conversation does not change what any other id loads |
| ConversationStore.WithoutIdMembers | CopilotClient/Persistence/JsonConversationStore.cs:102 | exactly the conversations with another id remain |
| ConversationStore.WithoutIdFirst | CopilotClient/Persistence/JsonConversationStore.cs:99-104 | after removing one id, every other id is found exactly when it was found before, and at the same conversation |
| ConversationStore.WithoutIdAppend | CopilotClient/Persistence/JsonConversationStore.cs:102 | removing an id from two runs of conversations removes it from each run and keeps the runs in order |
| ConversationStore.WithoutIdSingle | CopilotClient/Persistence/JsonConversationStore.cs:102 | a single conversation is removed exactly when it has the id |
| ConversationStore.WithoutIdAbsent | CopilotClient/Persistence/JsonConversationStore.cs:102 | when no conversation has the id, nothing is removed |
| ConversationStore.Delete | CopilotClient/Persistence/JsonConversationStore.cs:99-104 | the file is rewritten holding exactly the loaded conversations with another id, no more than before, and all of them unchanged when none had the id |
| ConversationStore.DeleteSplits | CopilotClient/Persistence/JsonConversationStore.cs:99-104 | deleting from a list read as two runs deletes from each run and keeps them in order |
| ConversationStore.DeleteThenLoad | CopilotClient/Persistence/JsonConversationStore.cs:99-104 | a deleted id loads nothing afterwards, and every other id loads as before |
| ConversationStore.ToSummary | CopilotClient/Persistence/JsonConversationStore.cs:67-73 | a summary copies id, title, mode and update time |
| ConversationStore.GetSummaries | CopilotClient/Persistence/JsonConversationStore.cs:61-75 | one summary per stored conversation, most recently updated first, ties in file order |
| ConversationStore.RowsSortBy | CopilotClient/Persistence/JsonConversationStore.cs:65-74 | listing the conversations sorted by recency gives the same rows as sorting the listed rows by their own update time |
| ConversationStore.RowsInsert | CopilotClient/Persistence/JsonConversationStore.cs:65-74 | listing commutes with inserting one conversation by recency |
| ConversationStore.SavedLatestComesFirst | CopilotClient/Persistence/JsonConversationStore.cs:61-97 | a conversation saved after every stored update is listed first |
| ConversationStore.EverySummaryLoads | CopilotClient/Persistence/JsonConversationStore.cs:61-81 | every listed summary's id loads a conversation |
| ConversationManager.WirePersistence | CopilotClient/ViewModels/ConversationManagerViewModel.cs:69-74 | with a store the session is wired to it; without one it is left as it was |
| ConversationManager.FreshSession | CopilotClient/ViewModels/ConversationManagerViewModel.cs:48-67 | a new session is synced, empty, titled with the default title, idle |
| ConversationManager.Init | CopilotClient/ViewModels/ConversationManagerViewModel.cs:34-46 | the manager starts with one new session, which is selected |
| ConversationManager.NewConversation | CopilotClient/ViewModels/ConversationManagerViewModel.cs:56-67 | one new session is appended and selected; earlier sessions are untouched |
| ConversationManager.Loaded | CopilotClient/ViewModels/ConversationManagerViewModel.cs:92-99 | the loaded conversations follow the summaries' order, skipping ids that load nothing |
| ConversationManager.LoadedSingle | CopilotClient/ViewModels/ConversationManagerViewModel.cs:92-99 | one summary gives its conversation, or nothing when it does not load |
| ConversationManager.LoadedAppend | CopilotClient/ViewModels/ConversationManagerViewModel.cs:92-99 | loading two runs of summaries loads each run on its own and keeps them in order |
| ConversationManager.LoadConversations | CopilotClient/ViewModels/ConversationManagerViewModel.cs:76-106 | without a store or with no summaries nothing changes; otherwise the list becomes one wired session per loadable summary, in order, and a missing selection falls to the first |
| ConversationManager.LoadKeepsDanglingSelection | CopilotClient/ViewModels/ConversationManagerViewModel.cs:105 | after construction a non-empty load keeps the initial session selected although it is no longer listed |
| ConversationManager.StoreLoadsEverySummary | CopilotClient/ViewModels/ConversationManagerViewModel.cs:83-103 | with the JSON store's answers, every summary becomes a session, in the summaries' order |
| MarkdownHelpers.IndexOf | CopilotClient/Controls/MarkdownBubble.xaml.cs:1024 | the first position of the character, or none exactly when it does not occur |
| MarkdownHelpers.TaskOfLine | CopilotClient/Controls/MarkdownBubble.xaml.cs:1024-1042 | a line is a task exactly when its first '[' opens "[x]", "[X]" or "[ ]"; the check mark decides the state and the caption is the rest after the box, left-trimmed |
| MarkdownHelpers.ParseTaskFromRaw | CopilotClient/Controls/MarkdownBubble.xaml.cs:1011-1043 | blank raw text is no task; otherwise the left-trimmed line is parsed as a task line; a caption never starts with whitespace |
| MarkdownHelpers.TaskRoundTrip | CopilotClient/Controls/MarkdownBubble.xaml.cs:1011-1043 | a marker, a box, a space and a caption parse back to that box's state and that caption |
| MarkdownHelpers.ParseAfterMarker | CopilotClient/Controls/MarkdownBubble.xaml.cs:1011-1043 | after a marker free of '[', the three characters from the first '[' alone decide the parse: a box gives its state and the rest as caption, anything else no task |
| MarkdownHelpers.FirstBracketOnly | CopilotClient/Controls/MarkdownBubble.xaml.cs:1024-1035 | when the first '[' does not open a box, the text is no task, whatever follows |
| MarkdownHelpers.ExtractRaw | CopilotClient/Controls/MarkdownBubble.xaml.cs:997-1007 | no text or a span failing the guard gives ""; a guarded span ending at the text's length makes the substring throw; otherwise the span's inclusive range |
| MarkdownHelpers.ExtractWithinText | CopilotClient/Controls/MarkdownBubble.xaml.cs:997-1007 | a span inside the text never throws; it yields its inclusive range, or "" for a one-character span |
| MarkdownHelpers.ExtractGuardMismatch | CopilotClient/Controls/MarkdownBubble.xaml.cs:997-1007 | a span ending at the text's length passes the guard but throws, and a one-character span yields "" |
| MarkdownHelpers.NodeText | CopilotClient/Controls/MarkdownBubble.xaml.cs:810-838 | a node has no text exactly when it is an HTML tag or an unknown leaf; a literal gives its content, inline code its code, a line break a newline, and a container its children's text |
| MarkdownHelpers.InlineToPlainText | CopilotClient/Controls/MarkdownBubble.xaml.cs:810-812 | no node gives no text; a node gives its own text |
| MarkdownHelpers.ChildrenTextAppend | CopilotClient/Controls/MarkdownBubble.xaml.cs:816-823 | the text of consecutive siblings is the concatenation of their texts |
| MarkdownHelpers.NestingIsTransparent | CopilotClient/Controls/MarkdownBubble.xaml.cs:816-823 | wrapping siblings in a container does not change the plain text |
| MarkdownHelpers.TagsAreSilent | CopilotClient/Controls/MarkdownBubble.xaml.cs:820 | an HTML tag among siblings contributes nothing |
| MarkdownHelpers.TryConsumeHtmlSpan | CopilotClient/Controls/MarkdownBubble.xaml.cs:969-993 | found exactly when a later sibling is the closing tag (ignoring ASCII case); then the text is that of the siblings before the first close and the rest starts after it; otherwise nothing follows and the text is all siblings' text |
| MarkdownHelpers.NatToStringRoundTrip | CopilotClient/Controls/MarkdownBubble.xaml.cs:332 | the decimal digits of the ordered bullet read back as its index |
| MarkdownHelpers.RenderBlock | CopilotClient/Controls/MarkdownBubble.xaml.cs:352-400 | no rendering exactly when extraction throws; a task paragraph shows one checkbox holding the parse's checked state and caption, any other paragraph itself, a nested list its panel, a code block its panel, and other blocks nothing |
| MarkdownHelpers.RenderItem | CopilotClient/Controls/MarkdownBubble.xaml.cs:352-401 | an item's content has at most one element per block, and rendering fails exactly when some block's extraction throws; the content, block by block in order, is stated by RenderItemSingle and RenderItemAppend |
| MarkdownHelpers.RenderItemSingle | CopilotClient/Controls/MarkdownBubble.xaml.cs:352-400 | an item of one block shows exactly what that block renders to |
| MarkdownHelpers.RenderItemCons | CopilotClient/Controls/MarkdownBubble.xaml.cs:352-400 | an item shows its first block's content followed by the rest's, and fails when either does |
| MarkdownHelpers.RenderItemAppend | CopilotClient/Controls/MarkdownBubble.xaml.cs:352-400 | two runs of blocks render to the first run's content followed by the second's, in block order, and fail when either does |
| MarkdownHelpers.TaskParagraphRenders | CopilotClient/Controls/MarkdownBubble.xaml.cs:356-373 | a paragraph reading marker, box, space, caption renders to one checkbox in the box's state showing that caption |
| MarkdownHelpers.CheckBoxIffTask | CopilotClient/Controls/MarkdownBubble.xaml.cs:361-377 | an item shows a checkbox exactly when one of its paragraphs is a task |
| MarkdownHelpers.ListFrom | CopilotClient/Controls/MarkdownBubble.xaml.cs:321-408 | one view per item with its rendered content; the bullet is hidden for items holding a task, else "N. " or "• " |
| MarkdownHelpers.CreateList | CopilotClient/Controls/MarkdownBubble.xaml.cs:311-411 | rendering fails exactly when some item fails; otherwise one view per item, numbered from 1 |
| MarkdownHelpers.OrderedBullets | CopilotClient/Controls/MarkdownBubble.xaml.cs:319-407 | with spans inside the text the list renders, and item i of an ordered list shows "" if it holds a task, else the digits of i+1 followed by ". " |
| MarkdownHelpers.NoItemFails | CopilotClient/Controls/MarkdownBubble.xaml.cs:352-400 | with every paragraph span inside the text no item fails to render |
| MarkdownHelpers.OrderedItemBullet | CopilotClient/Controls/MarkdownBubble.xaml.cs:321-408 | one item of a rendered ordered list shows no bullet exactly when it holds a task, else its position from 1 and ". " |
| MarkdownHelpers.OrderedBulletReadsBack | CopilotClient/Controls/MarkdownBubble.xaml.cs:332 | an ordered bullet is hidden exactly for content with a checkbox and otherwise reads back as its number followed by ". " |

## Left out

- File and network I/O, `async`/`await` and UI threading: the store works on the file's contents as a value, and the model endpoint's answers are parameters of each turn.
- JSON serialization itself (property-name case folding, indentation): the file's contents are modelled as the list of conversations it decodes to.
- The fire-and-forget `PersistRequested` callback and when it fires: `wired` records only whether a session's requests reach a store.
- Temperatures are floats and are not modelled; only the output-token limits are.
- The `Uri` and credential objects built by the transport constructor: construction is modelled up to validating the three options.
- Polly's cancellation token handling, `onRetry` logging and `Random.Shared`: the jitter of each wait is a parameter in [0, 500).
- RetryPolicy.Execute: does not model which exception type a task cancellation is, beyond treating every one as retried.
- Strings are sequences of UTF-16 code units treated as `char`; `char.IsWhiteSpace` is modelled by its fixed set of code points.
- MarkdownHelpers.EqualsIgnoreCase: compares with ASCII case folding only, where the source uses ordinal case-insensitive comparison over all of Unicode.
- Session.ConversationTokens: does not model 32-bit overflow of the summed estimate, which needs histories of hundreds of millions of characters.
- MarkdownHelpers.CreateList: does not model 32-bit overflow of the item index.
- Null titles, null contents and null message lists: the model's strings and lists are never null; a missing summary is `None`.
- Message and conversation fields the core never reads are not modelled.
- `MockChatService` and the app shell (`App`, `MainWindow`, `ChatView`, converters, selectors, behaviours) are not part of this model.
- Drawing: brushes, fonts, margins, syntax-highlighted code runs, headings, tables, quotes, images and the nested-list and code-block panels are not modelled. A list's nested lists and code blocks are represented by what they contribute to the item, not by their contents.
- MarkdownHelpers.RenderBlock: a nested list always renders to one panel, so an extraction failure inside a nested list's paragraphs, which `CreateList(nested)` lets propagate, is dropped; only the item's own paragraphs can make it fail.
- `Save` stores the caller's own object, so later in-place changes by the caller would show through until the next load; the model stores a copy.
- `Guid.NewGuid()`: ids are computed as one more than every id in the history, which gives the same distinctness the core relies on.
- Session.Send: the initial status of the user message is a parameter, because `ChatMessage.CreateNewUserMessage` is not part of this model; the lemmas about concrete turns take it to be Sending.
- `IsEditingTitle`, `BeginEditTitle` and `CommitEditTitle` only toggle an editing flag for the UI and are not modelled.
- `UseStreaming` and `SendEnabled` property-change notifications are not modelled; the flags themselves are.
- The summary turn's own `Guid` is not modelled beyond being distinct from every history message.
- The unused `MaxMessages` constant of the prompt builder has no effect and is not modelled.
- Timestamps are one abstract clock: the title and mode setters stamp local time (`DateTime.Now`) while the placeholder and streamed messages, adding and removing a message, and the summary stamp UTC (`DateTime.UtcNow`); the model does not distinguish the two.

## Behaviour of the code worth knowing

- The code marks the user message Sent only when a reply or a completed stream arrives, so failed turns leave user messages in their initial state, and a conversation can hold several transient messages at once (`Session.FailedTurnsLeaveUserMessagesSending`).
- A stream cancelled after some chunks removes only the typing placeholder, so the partial answer stays in Streaming state until the next load normalizes it to Failed (`Session.CancelledStreamKeepsPartialAnswer`).
- Loading stored conversations replaces the list but keeps an existing selection, so the initial blank session stays selected without being listed (`ConversationManager.LoadKeepsDanglingSelection`).
- Markdig's `SourceSpan.End` is inclusive, while a comment in `ExtractRaw` treats it as exclusive. The guard `End <= Length` therefore admits a span ending at the text's length, for which `Substring` throws; the guard `Start < End` drops one-character spans. Block spans come from parsing the same text, so they end inside it and the first case does not arise in practice (`MarkdownHelpers.ExtractWithinText`, `MarkdownHelpers.ExtractGuardMismatch`). A task needs at least three characters, so the second case never hides a task.
- Emphasis and link nodes are containers in Markdig, so `InlineToPlainText` handles them in its container branch; its separate emphasis case is never reached and is not modelled.
- The prompt builder's estimator charges one token for whitespace-only text, while the summarization check charges none (`Session.EstimatorsDisagreeOnBlankText`).

=== FILE: domain.dfy ===
/** The records the chat client keeps per conversation: messages with a
    lifecycle status, conversations with a running summary, and the
    lightweight summary row a conversation list shows. */
module Domain {
  import opened Optional

  /** Who authored a message. C# enums are open, so a value outside the
      three named roles is kept as `UnnamedRole`. */
  datatype ChatRole = User | Assistant | System | UnnamedRole(code: int)

  /** The message lifecycle. `Sending`, `Typing` and `Streaming` mean an
      operation is in flight; `Sent` and `Failed` are terminal. */
  datatype MessageStatus = Sending | Typing | Streaming | Sent | Failed

  /** The operating mode of a conversation; `UnnamedMode` is any other enum value. */
  datatype ConversationMode = General | Explain | Refactor | BugHunt | Optimize | UnnamedMode(code: int)

  /** Guids are modelled as naturals, timestamps as integer clock ticks. */
  type Id = nat
  type Timestamp = int

  datatype Message = Message(
    clientId: Id,
    role: ChatRole,
    content: string,
    createdAt: Timestamp,
    status: MessageStatus,
    errorMessage: Option<string>)

  datatype Conversation = Conversation(
    id: Id,
    title: string,
    messages: seq<Message>,
    createdAt: Timestamp,
    lastUpdatedAt: Timestamp,
    mode: ConversationMode,
    summary: Option<string>,
    summaryUpdatedAt: Option<Timestamp>)

  /** The list-view row for a stored conversation. */
  datatype ConversationSummary = ConversationSummary(
    id: Id,
    title: string,
    mode: ConversationMode,
    lastUpdatedAt: Timestamp)

  /** The title a conversation starts with. */
  const DefaultTitle := "New conversation"

  /** A new, empty conversation (`new Conversation()`), created at `now`. */
  function EmptyConversation(id: Id, now: Timestamp): (c: Conversation)
    ensures c.id == id && c.messages == [] && c.title == DefaultTitle
    ensures c.createdAt == now && c.lastUpdatedAt == now
    ensures c.summary.None? && c.summaryUpdatedAt.None?
  {
    Conversation(id, DefaultTitle, [], now, now, General, None, None)
  }

  predicate HasId(msgs: seq<Message>, id: Id) {
    exists i :: 0 <= i < |msgs| && msgs[i].clientId == id
  }

  /** No message in `msgs` has an id above `id`. */
  predicate IdsAtMost(msgs: seq<Message>, id: Id) {
    forall i :: 0 <= i < |msgs| ==> msgs[i].clientId <= id
  }

  /** An id larger than every client id in `msgs`: the model's stand-in for
      `Guid.NewGuid()`, which never collides with an existing message. */
  function FreshId(msgs: seq<Message>): (r: Id)
    ensures forall i :: 0 <= i < |msgs| ==> msgs[i].clientId < r
  {
    if msgs == [] then 0
    else
      var rest := FreshId(msgs[1..]);
      if msgs[0].clientId < rest then rest else msgs[0].clientId + 1
  }

  /** Messages with status `st`, in order. */
  function WithStatus(msgs: seq<Message>, st: MessageStatus): (r: seq<Message>)
    ensures |r| <= |msgs|
    ensures forall i :: 0 <= i < |r| ==> r[i].status == st
  {
    if msgs == [] then []
    else (if msgs[0].status == st then [msgs[0]] else []) + WithStatus(msgs[1..], st)
  }

  /** Messages whose status is not `st`, in order. */
  function WithoutStatus(msgs: seq<Message>, st: MessageStatus): (r: seq<Message>)
    ensures |r| <= |msgs|
    ensures forall i :: 0 <= i < |r| ==> r[i].status != st
  {
    if msgs == [] then []
    else (if msgs[0].status != st then [msgs[0]] else []) + WithoutStatus(msgs[1..], st)
  }

  /** Filtering by status keeps exactly the messages with that status, in order. */
  lemma {:induction false} WithStatusAppend(a: seq<Message>, b: seq<Message>, st: MessageStatus)
    ensures WithStatus(a + b, st) == WithStatus(a, st) + WithStatus(b, st)
  {
    if a != [] {
      assert (a + b)[0] == a[0];
      assert (a + b)[1..] == a[1..] + b;
      WithStatusAppend(a[1..], b, st);
      var head := if a[0].status == st then [a[0]] else [];
      assert WithStatus(a + b, st) == head + (WithStatus(a[1..], st) + WithStatus(b, st));
      assert WithStatus(a, st) == head + WithStatus(a[1..], st);
    } else {
      assert a + b == b;
    }
  }

  lemma WithStatusSingle(x: Message, st: MessageStatus)
    ensures WithStatus([x], st) == if x.status == st then [x] else []
  {
    assert [x][1..] == [];
  }

  /** Filtering out a status keeps exactly the other messages, in order. */
  lemma {:induction false} WithoutStatusAppend(a: seq<Message>, b: seq<Message>, st: MessageStatus)
    ensures WithoutStatus(a + b, st) == WithoutStatus(a, st) + WithoutStatus(b, st)
  {
    if a != [] {
      assert (a + b)[0] == a[0];
      assert (a + b)[1..] == a[1..] + b;
      WithoutStatusAppend(a[1..], b, st);
      var head := if a[0].status != st then [a[0]] else [];
      assert WithoutStatus(a + b, st) == head + (WithoutStatus(a[1..], st) + WithoutStatus(b, st));
      assert WithoutStatus(a, st) == head + WithoutStatus(a[1..], st);
    } else {
      assert a + b == b;
    }
  }

  lemma WithoutStatusSingle(x: Message, st: MessageStatus)
    ensures WithoutStatus([x], st) == if x.status != st then [x] else []
  {
    assert [x][1..] == [];
  }

  lemma PartitionStep(x: Message, rest: seq<Message>, w: seq<Message>, wo: seq<Message>)
    requires multiset(w) + multiset(wo) == multiset(rest)
    ensures multiset([x] + w) + multiset(wo) == multiset([x] + rest)
    ensures multiset(w) + multiset([x] + wo) == multiset([x] + rest)
  {
  }

  /** Splitting by status loses nothing and invents nothing. */
  lemma {:induction false} StatusPartition(msgs: seq<Message>, st: MessageStatus)
    ensures multiset(WithStatus(msgs, st)) + multiset(WithoutStatus(msgs, st)) == multiset(msgs)
    ensures |WithStatus(msgs, st)| + |WithoutStatus(msgs, st)| == |msgs|
  {
    if msgs != [] {
      var x, rest := msgs[0], msgs[1..];
      StatusPartition(rest, st);
      assert msgs == [x] + rest;
      var w, wo := WithStatus(rest, st), WithoutStatus(rest, st);
      if x.status == st {
        assert WithStatus(msgs, st) == [x] + w && WithoutStatus(msgs, st) == wo;
      } else {
        assert WithStatus(msgs, st) == w && WithoutStatus(msgs, st) == [x] + wo;
      }
      PartitionStep(x, rest, w, wo);
    }
  }
}

=== FILE: manager.dfy ===
/** The list of open conversation sessions and the one selected for display.
    View-model identity is modelled by handles: every session the manager
    creates gets the next unused handle, so a handle names one object. */
module ConversationManager {
  import opened Optional
  import opened Domain
  import opened Session
  import ConversationStore

  datatype Entry = Entry(handle: nat, session: ChatSession)

  /** `entries` is the observable collection, in order; `selected` is the
      selected view model, which need not be in the collection. */
  datatype Manager = Manager(entries: seq<Entry>, selected: Option<nat>, hasStore: bool, nextHandle: nat)

  /** Handles increase along the list and are all below the next one. */
  predicate Valid(m: Manager) {
    && (forall i, j :: 0 <= i < j < |m.entries| ==> m.entries[i].handle < m.entries[j].handle)
    && (forall i :: 0 <= i < |m.entries| ==> m.entries[i].handle < m.nextHandle)
    && (m.selected.Some? ==> m.selected.value < m.nextHandle)
  }

  /** `h` is the handle of a session in the list. */
  predicate Lists(m: Manager, h: nat) {
    exists i :: 0 <= i < |m.entries| && m.entries[i].handle == h
  }

  /** Hooks the session's persistence requests to the store when there is
      one; without a store the session is left as it was. */
  function WirePersistence(s: ChatSession, hasStore: bool): (r: ChatSession)
    ensures r.wired == (s.wired || hasStore)
    ensures r == s.(wired := r.wired)
  {
    if hasStore then s.(wired := true) else s
  }

  /** A session over a new, empty conversation with the given fresh id. */
  function FreshSession(id: Id, hasStore: bool, now: Timestamp): (s: ChatSession)
    ensures Synced(s) && s.view == [] && s.title == DefaultTitle
    ensures s.conv.id == id && s.wired == hasStore && !s.busy
  {
    WirePersistence(Open(EmptyConversation(id, now), now), hasStore)
  }

  /** Construction: exactly one session, over a new conversation, selected. */
  function Init(hasStore: bool, id: Id, now: Timestamp): (m: Manager)
    ensures Valid(m) && m.hasStore == hasStore
    ensures |m.entries| == 1 && m.selected == Some(m.entries[0].handle)
    ensures m.entries[0].session == FreshSession(id, hasStore, now)
  {
    Manager([Entry(0, FreshSession(id, hasStore, now))], Some(0), hasStore, 1)
  }

  /** `NewConversation`: one new session appended at the end and selected;
      the earlier entries are untouched. */
  function NewConversation(m: Manager, id: Id, now: Timestamp): (r: Manager)
    requires Valid(m)
    ensures Valid(r) && r.hasStore == m.hasStore
    ensures |r.entries| == |m.entries| + 1 && r.entries[..|m.entries|] == m.entries
    ensures r.entries[|m.entries|].session == FreshSession(id, m.hasStore, now)
    ensures r.selected == Some(r.entries[|m.entries|].handle) && !Lists(m, r.selected.value)
  {
    var e := Entry(m.nextHandle, FreshSession(id, m.hasStore, now));
    Manager(m.entries + [e], Some(m.nextHandle), m.hasStore, m.nextHandle + 1)
  }

  /** The selection setter: any handle, or none. */
  function Select(m: Manager, h: Option<nat>): (r: Manager)
    requires Valid(m) && (h.Some? ==> h.value < m.nextHandle)
    ensures Valid(r) && r.selected == h && r.entries == m.entries
  {
    m.(selected := h)
  }

  /** The conversations the summaries load to, in summary order; an id
      whose load yields nothing is skipped. */
  function Loaded(summaries: seq<ConversationSummary>, load: Id -> Option<Conversation>): (r: seq<Conversation>)
    ensures |r| <= |summaries|
    ensures forall i :: 0 <= i < |r| ==> exists j :: 0 <= j < |summaries| && load(summaries[j].id) == Some(r[i])
    ensures (forall j :: 0 <= j < |summaries| ==> load(summaries[j].id).Some?) ==>
      |r| == |summaries| && forall i :: 0 <= i < |r| ==> Some(r[i]) == load(summaries[i].id)
  {
    if summaries == [] then []
    else
      var rest := Loaded(summaries[1..], load);
      match load(summaries[0].id)
      case None => rest
      case Some(c) => [c] + rest
  }

  /** A single summary yields its conversation, or nothing when it does not load. */
  lemma LoadedSingle(x: ConversationSummary, load: Id -> Option<Conversation>)
    ensures Loaded([x], load) == match load(x.id) case None => [] case Some(c) => [c]
  {
    assert [x][1..] == [];
  }

  /** Loading two runs of summaries loads each run on its own, in order. */
  lemma {:induction false} LoadedAppend(a: seq<ConversationSummary>, b: seq<ConversationSummary>,
                                        load: Id -> Option<Conversation>)
    ensures Loaded(a + b, load) == Loaded(a, load) + Loaded(b, load)
  {
    if a == [] {
      assert a + b == b;
    } else {
      assert (a + b)[0] == a[0];
      assert (a + b)[1..] == a[1..] + b;
      LoadedAppend(a[1..], b, load);
    }
  }

  /** One wired session per conversation, with consecutive fresh handles. */
  function OpenAll(convs: seq<Conversation>, hasStore: bool, next: nat, now: Timestamp): (r: seq<Entry>)
    ensures |r| == |convs|
    ensures forall i :: 0 <= i < |r| ==> r[i].handle == next + i
    ensures forall i :: 0 <= i < |r| ==> r[i].session == WirePersistence(Open(convs[i], now), hasStore)
  {
    seq(|convs|, i requires 0 <= i < |convs| => Entry(next + i, WirePersistence(Open(convs[i], now), hasStore)))
  }

  /** `LoadConversationsAsync` with the store's answers as parameters.
      Without a store, or with no summaries, nothing changes. Otherwise the
      list is replaced by one session per loadable summary, in order, and
      the selection is kept when there is one, else it falls to the first
      session (or stays empty). */
  function LoadConversations(m: Manager, summaries: seq<ConversationSummary>,
                             load: Id -> Option<Conversation>, now: Timestamp): (r: Manager)
    requires Valid(m)
    ensures Valid(r) && r.hasStore == m.hasStore
    ensures !m.hasStore || summaries == [] ==> r == m
    ensures m.hasStore && summaries != [] ==>
      && |r.entries| == |Loaded(summaries, load)|
      && (forall i :: 0 <= i < |r.entries| ==>
            r.entries[i].session.conv == Loaded(summaries, load)[i].(lastUpdatedAt := now)
            && r.entries[i].session.wired && !Lists(m, r.entries[i].handle))
      && r.selected == (if m.selected.Some? then m.selected
                        else if r.entries == [] then None else Some(r.entries[0].handle))
  {
    if !m.hasStore || summaries == [] then m
    else
      var entries := OpenAll(Loaded(summaries, load), true, m.nextHandle, now);
      var selected := if m.selected.Some? then m.selected
                      else if entries == [] then None else Some(entries[0].handle);
      Manager(entries, selected, true, m.nextHandle + |entries|)
  }

  /** Right after construction with a store, a non-empty load leaves the
      first, blank session selected although it is no longer in the list. */
  lemma LoadKeepsDanglingSelection(hasStore: bool, id: Id, now: Timestamp, summaries: seq<ConversationSummary>,
                                   load: Id -> Option<Conversation>, later: Timestamp)
    requires hasStore && summaries != []
    ensures var m := Init(hasStore, id, now);
      var r := LoadConversations(m, summaries, load, later);
      r.selected == m.selected && r.selected.Some? && !Lists(r, r.selected.value)
  {
  }

  /** With the JSON store's own answers, no summary is skipped: the list
      holds one session per stored conversation, in the summaries' order. */
  lemma {:induction false} StoreLoadsEverySummary(m: Manager, f: ConversationStore.StoreFile, now: Timestamp)
    requires Valid(m) && m.hasStore && ConversationStore.LoadAll(f) != []
    ensures var summaries := ConversationStore.GetSummaries(f);
      var r := LoadConversations(m, summaries, (id: Id) => ConversationStore.LoadConversation(f, id), now);
      && |r.entries| == |summaries| == |ConversationStore.LoadAll(f)|
      && forall i :: 0 <= i < |r.entries| ==> r.entries[i].session.conv.id == summaries[i].id
  {
    var summaries := ConversationStore.GetSummaries(f);
    var load := (id: Id) => ConversationStore.LoadConversation(f, id);
    ConversationStore.EverySummaryLoads(f);
    assert forall j :: 0 <= j < |summaries| ==> load(summaries[j].id).Some?;
    var loaded := Loaded(summaries, load);
    assert |loaded| == |summaries|;
    forall i | 0 <= i < |loaded|
      ensures loaded[i].id == summaries[i].id
    {
      assert Some(loaded[i]) == ConversationStore.LoadConversation(f, summaries[i].id);
    }
    assert summaries != [];
  }
}

=== FILE: markdown.dfy ===
/** The text-level helpers of the Markdown bubble: recognising task-list
    items, extracting a block's source text from its span, flattening
    inline nodes to plain text, consuming an HTML span up to its closing
    tag, and the bullets and contents of list items. Parsed nodes are a
    small datatype standing for Markdig's syntax tree. */
module MarkdownHelpers {
  import opened Optional
  import opened Text

  // ---------------------------------------------------------------------
  // Task items
  // ---------------------------------------------------------------------

  /** The result triple of `ParseTaskFromRaw`. */
  datatype TaskParse = TaskParse(isTask: bool, isChecked: bool, caption: string)

  const NotTask := TaskParse(false, false, "")

  /** `IndexOf(c)`: the first position of `c`, if any. */
  function IndexOf(s: string, c: char): (r: Option<nat>)
    ensures r.None? <==> c !in s
    ensures r.Some? ==> r.value < |s| && s[r.value] == c && c !in s[..r.value]
  {
    if s == [] then None
    else if s[0] == c then Some(0)
    else
      match IndexOf(s[1..], c)
      case None => None
      case Some(i) =>
        assert s[..i + 1] == [s[0]] + s[1..][..i];
        Some(i + 1)
  }

  /** The marks a task box may hold. */
  predicate IsBoxMark(c: char) {
    c == 'x' || c == 'X' || c == ' '
  }

  predicate IsCheckMark(c: char) {
    c == 'x' || c == 'X'
  }

  /** The first `[` of `line` opens a box: a mark, then `]`. */
  predicate OpensBox(line: string) {
    var b := IndexOf(line, '[');
    b.Some? && b.value + 2 < |line| && IsBoxMark(line[b.value + 1]) && line[b.value + 2] == ']'
  }

  /** The position of the first `[` of a line that opens a box. */
  function BoxAt(line: string): (b: nat)
    requires OpensBox(line)
    ensures b + 2 < |line| && line[b] == '[' && '[' !in line[..b]
  {
    IndexOf(line, '[').value
  }

  /** The parse of a left-trimmed, non-blank line. */
  function TaskOfLine(line: string): (r: TaskParse)
    ensures !r.isTask ==> r == NotTask
    ensures r.isTask <==> OpensBox(line)
    ensures r.isTask ==> (r.isChecked <==> IsCheckMark(line[BoxAt(line) + 1]))
    ensures r.isTask ==> r.caption == TrimStart(line[BoxAt(line) + 3..])
  {
    match IndexOf(line, '[')
    case None => NotTask
    case Some(b) =>
      if b + 2 >= |line| then NotTask
      else
        var c1, c2 := line[b + 1], line[b + 2];
        if c2 != ']' || !IsBoxMark(c1) then NotTask
        else TaskParse(true, IsCheckMark(c1), TrimStart(line[b + 3..]))
  }

  /** `ParseTaskFromRaw`: a blank text is not a task; otherwise only the
      first `[` of the left-trimmed text is examined, and it makes a task
      exactly when a box mark and `]` follow it. A checked box holds `x` or
      `X`; the caption is what follows `]`, left-trimmed. Every non-task is
      reported as (false, false, ""). */
  function ParseTaskFromRaw(raw: string): (r: TaskParse)
    ensures !r.isTask ==> r == NotTask
    ensures r.isTask <==> !AllWhiteSpace(raw) && OpensBox(TrimStart(raw))
    ensures r.isTask ==> r == TaskOfLine(TrimStart(raw))
    ensures r.caption == [] || !IsWhiteSpace(r.caption[0])
  {
    if AllWhiteSpace(raw) then NotTask
    else TaskOfLine(TrimStart(raw))
  }

  lemma FirstBracketAfter(marker: string, rest: string)
    requires '[' !in marker && rest != [] && rest[0] == '['
    ensures IndexOf(marker + rest, '[') == Some(|marker|)
  {
    var s := marker + rest;
    assert s[|marker|] == '[';
    var r := IndexOf(s, '[');
  }

  lemma TrimStartKeeps(s: string)
    requires s != [] && !IsWhiteSpace(s[0])
    ensures TrimStart(s) == s && !AllWhiteSpace(s)
  {
  }

  /** A trimmed line whose first `[` (at `b`) opens a box, and its parse. */
  lemma ParseLine(raw: string, b: nat)
    requires TrimStart(raw) == raw && !AllWhiteSpace(raw)
    requires IndexOf(raw, '[') == Some(b) && OpensBox(raw)
    ensures ParseTaskFromRaw(raw) == TaskParse(true, IsCheckMark(raw[b + 1]), TrimStart(raw[b + 3..]))
  {
    assert BoxAt(raw) == b;
    var r := TaskOfLine(raw);
    assert r.isTask && r.isChecked == IsCheckMark(raw[b + 1]) && r.caption == TrimStart(raw[b + 3..]);
    assert ParseTaskFromRaw(raw) == r;
  }

  lemma TrimStartSpace(caption: string)
    requires caption == [] || !IsWhiteSpace(caption[0])
    ensures TrimStart([' '] + caption) == caption
  {
    assert ([' '] + caption)[1..] == caption;
  }

  /** After a bullet marker free of `[` that does not start with white
      space, a line parses by the three characters from its first `[`
      alone: a box makes a task whose caption is the rest, left-trimmed;
      anything else is not a task, whatever follows. */
  lemma {:induction false} ParseAfterMarker(marker: string, c1: char, c2: char, rest: string)
    requires '[' !in marker && (marker == [] || !IsWhiteSpace(marker[0]))
    ensures ParseTaskFromRaw(marker + ['[', c1, c2] + rest) ==
      if IsBoxMark(c1) && c2 == ']' then TaskParse(true, IsCheckMark(c1), TrimStart(rest)) else NotTask
  {
    var tail := ['[', c1, c2] + rest;
    var raw := marker + tail;
    assert marker + ['[', c1, c2] + rest == raw;
    assert raw[0] == if marker == [] then '[' else marker[0];
    TrimStartKeeps(raw);
    FirstBracketAfter(marker, tail);
    assert raw[|marker| + 1] == c1 && raw[|marker| + 2] == c2;
    if IsBoxMark(c1) && c2 == ']' {
      assert raw[|marker| + 3..] == rest;
      ParseLine(raw, |marker|);
    }
  }

  lemma BoxThenSpace(marker: string, mark: char, caption: string)
    ensures marker + ['[', mark, ']', ' '] + caption == marker + ['[', mark, ']'] + ([' '] + caption)
  {
  }

  /** Writing a task item and parsing it back: after a bullet marker, a box
      with mark `mark` and a space, the caption comes back, and so does the
      mark's state. */
  lemma {:induction false} TaskRoundTrip(marker: string, mark: char, caption: string)
    requires '[' !in marker && (marker == [] || !IsWhiteSpace(marker[0]))
    requires IsBoxMark(mark) && (caption == [] || !IsWhiteSpace(caption[0]))
    ensures ParseTaskFromRaw(marker + ['[', mark, ']', ' '] + caption) == TaskParse(true, IsCheckMark(mark), caption)
  {
    BoxThenSpace(marker, mark, caption);
    TrimStartSpace(caption);
    ParseAfterMarker(marker, mark, ']', [' '] + caption);
  }

  /** Only the first `[` counts: when it does not open a box (a link label,
      say), a box later on the line is not seen. */
  lemma {:induction false} FirstBracketOnly(marker: string, c1: char, c2: char, rest: string)
    requires '[' !in marker && (marker == [] || !IsWhiteSpace(marker[0]))
    requires !IsBoxMark(c1) || c2 != ']'
    ensures !ParseTaskFromRaw(marker + ['[', c1, c2] + rest).isTask
  {
    ParseAfterMarker(marker, c1, c2, rest);
  }

  // ---------------------------------------------------------------------
  // Block source text
  // ---------------------------------------------------------------------

  /** A Markdig source span: `start` and `end` are both inclusive, so the
      span covers `end - start + 1` characters. */
  datatype SourceSpan = SourceSpan(start: int, end: int)

  function SpanLength(span: SourceSpan): int {
    span.end - span.start + 1
  }

  /** The span covers characters of `text` only, as the span of a block
      parsed from `text` does. */
  predicate WithinText(span: SourceSpan, text: string) {
    0 <= span.start <= span.end < |text|
  }

  /** The guard `ExtractRaw` applies before taking the substring. */
  predicate ExtractGuard(span: SourceSpan, text: string) {
    span.start >= 0 && span.end <= |text| && span.start < span.end
  }

  /** `ExtractRaw`: no text gives "", a span that fails the guard gives "",
      and otherwise `Substring(start, length)`, which raises (`None`) when
      the range leaves the text. It raises exactly for a span ending one
      past the text; otherwise a guarded span yields its own characters. */
  function ExtractRaw(text: Option<string>, span: SourceSpan): (r: Option<string>)
    ensures text.None? ==> r == Some("")
    ensures text.Some? && !ExtractGuard(span, text.value) ==> r == Some("")
    ensures r.None? <==> text.Some? && ExtractGuard(span, text.value) && span.end == |text.value|
    ensures text.Some? && ExtractGuard(span, text.value) && r.Some? ==>
      |r.value| == SpanLength(span) && r.value == text.value[span.start..span.end + 1]
  {
    match text
    case None => Some("")
    case Some(t) =>
      if ExtractGuard(span, t) then
        if span.start + SpanLength(span) <= |t| then Some(t[span.start..span.start + SpanLength(span)])
        else None
      else Some("")
  }

  /** For spans inside the text the substring is always in range, and a
      span of two or more characters yields exactly its characters. */
  lemma ExtractWithinText(text: string, span: SourceSpan)
    requires WithinText(span, text)
    ensures ExtractRaw(Some(text), span).Some?
    ensures span.start < span.end ==> ExtractRaw(Some(text), span) == Some(text[span.start..span.end + 1])
    ensures span.start == span.end ==> ExtractRaw(Some(text), span) == Some("")
  {
  }

  /** The guard is written for an exclusive end: it admits a span ending
      one past the text, where `Substring` raises, and it rejects a
      one-character span, whose text is then lost. */
  lemma ExtractGuardMismatch()
    ensures ExtractRaw(Some("ab"), SourceSpan(0, 2)).None?
    ensures ExtractRaw(Some("ab"), SourceSpan(1, 1)) == Some("")
  {
  }

  // ---------------------------------------------------------------------
  // Inline plain text
  // ---------------------------------------------------------------------

  /** Inline nodes. `Container` covers every container inline, emphasis and
      links included; `HtmlTag` and `OtherLeaf` are leaves with no text. */
  datatype Inline =
    | Literal(content: string)
    | Code(code: string)
    | LineBreak
    | HtmlTag(tag: string)
    | Container(children: seq<Inline>)
    | OtherLeaf

  /** `InlineToPlainText` on a node: exactly the text-less leaves give
      null; a container gives the text of its children in order. */
  function NodeText(n: Inline): (r: Option<string>)
    ensures r.None? <==> n.HtmlTag? || n.OtherLeaf?
    ensures n.Container? ==> r == Some(ChildrenText(n.children))
    ensures n.Literal? ==> r == Some(n.content)
    ensures n.Code? ==> r == Some(n.code)
    ensures n.LineBreak? ==> r == Some("\n")
  {
    match n
    case Container(children) => Some(ChildrenText(children))
    case Literal(s) => Some(s)
    case Code(s) => Some(s)
    case LineBreak => Some("\n")
    case HtmlTag(_) => None
    case OtherLeaf => None
  }

  /** `InlineToPlainText`, which also accepts a missing node. */
  function InlineToPlainText(node: Option<Inline>): (r: Option<string>)
    ensures node.None? ==> r.None?
    ensures node.Some? ==> r == NodeText(node.value)
  {
    match node
    case None => None
    case Some(n) => NodeText(n)
  }

  /** The text of a run of siblings, a null text contributing nothing
      (`StringBuilder.Append(null)`). */
  function ChildrenText(nodes: seq<Inline>): string
  {
    if nodes == [] then []
    else NodeText(nodes[0]).GetOr([]) + ChildrenText(nodes[1..])
  }

  /** The text of consecutive runs is the concatenation of their texts. */
  lemma {:induction false} ChildrenTextAppend(a: seq<Inline>, b: seq<Inline>)
    ensures ChildrenText(a + b) == ChildrenText(a) + ChildrenText(b)
  {
    if a == [] {
      assert a + b == b;
    } else {
      assert (a + b)[1..] == a[1..] + b;
      ChildrenTextAppend(a[1..], b);
    }
  }

  /** A run of one node has that node's text. */
  lemma ChildrenTextSingle(n: Inline)
    ensures ChildrenText([n]) == NodeText(n).GetOr([])
  {
    assert [n][1..] == [];
  }

  /** Nesting does not change text: emphasis or a link has the text its
      children would have laid out flat in its place. */
  lemma {:induction false} NestingIsTransparent(a: seq<Inline>, inner: seq<Inline>, b: seq<Inline>)
    ensures ChildrenText(a + [Container(inner)] + b) == ChildrenText(a + inner + b)
  {
    ChildrenTextSingle(Container(inner));
    calc {
      ChildrenText(a + [Container(inner)] + b);
      { ChildrenTextAppend(a + [Container(inner)], b); }
      ChildrenText(a + [Container(inner)]) + ChildrenText(b);
      { ChildrenTextAppend(a, [Container(inner)]); }
      ChildrenText(a) + ChildrenText(inner) + ChildrenText(b);
      { ChildrenTextAppend(a, inner); }
      ChildrenText(a + inner) + ChildrenText(b);
      { ChildrenTextAppend(a + inner, b); }
      ChildrenText(a + inner + b);
    }
  }

  /** Tags carry no text: dropping one from a run keeps its text. */
  lemma {:induction false} TagsAreSilent(a: seq<Inline>, tag: string, b: seq<Inline>)
    ensures ChildrenText(a + [HtmlTag(tag)] + b) == ChildrenText(a + b)
  {
    ChildrenTextSingle(HtmlTag(tag));
    calc {
      ChildrenText(a + [HtmlTag(tag)] + b);
      { ChildrenTextAppend(a + [HtmlTag(tag)], b); }
      ChildrenText(a + [HtmlTag(tag)]) + ChildrenText(b);
      { ChildrenTextAppend(a, [HtmlTag(tag)]); }
      ChildrenText(a) + ChildrenText(b);
      { ChildrenTextAppend(a, b); }
      ChildrenText(a + b);
    }
  }

  // ---------------------------------------------------------------------
  // HTML spans
  // ---------------------------------------------------------------------

  /** ASCII case folding, as ordinal case-insensitive comparison does for
      ASCII tag names. */
  function Lower(c: char): char {
    if 'A' <= c <= 'Z' then (c as int + 32) as char else c
  }

  predicate EqualsIgnoreCase(a: string, b: string) {
    |a| == |b| && forall i :: 0 <= i < |a| ==> Lower(a[i]) == Lower(b[i])
  }

  /** The node closes the span. */
  predicate Closes(node: Inline, closingTag: string) {
    node.HtmlTag? && EqualsIgnoreCase(node.tag, closingTag)
  }

  /** The node at `k` is the first that closes the span. */
  predicate FirstClose(siblings: seq<Inline>, closingTag: string, k: int) {
    && 0 <= k < |siblings|
    && Closes(siblings[k], closingTag)
    && (forall j :: 0 <= j < k ==> !Closes(siblings[j], closingTag))
  }

  /** `TryConsumeHtmlSpan`, over the siblings that follow the opening tag:
      found exactly when one of them is an HTML tag equal to `closingTag`
      ignoring case. Then the inner text is the text of the siblings
      before the first such tag and `afterClose` is the sibling after it
      (none when it is last). Otherwise `afterClose` stays none and the
      inner text has collected every sibling. */
  method TryConsumeHtmlSpan(siblings: seq<Inline>, closingTag: string)
      returns (found: bool, innerText: string, afterClose: Option<Inline>)
    ensures found <==> exists k :: 0 <= k < |siblings| && Closes(siblings[k], closingTag)
    ensures found ==> exists k :: (
      && FirstClose(siblings, closingTag, k)
      && innerText == ChildrenText(siblings[..k])
      && afterClose == (if k + 1 < |siblings| then Some(siblings[k + 1]) else None))
    ensures !found ==> afterClose.None? && innerText == ChildrenText(siblings)
  {
    innerText := "";
    afterClose := None;
    var i := 0;
    while i < |siblings|
      invariant 0 <= i <= |siblings|
      invariant forall j :: 0 <= j < i ==> !Closes(siblings[j], closingTag)
      invariant innerText == ChildrenText(siblings[..i])
    {
      var scan := siblings[i];
      if Closes(scan, closingTag) {
        afterClose := if i + 1 < |siblings| then Some(siblings[i + 1]) else None;
        found := true;
        assert FirstClose(siblings, closingTag, i);
        return;
      }
      ChildrenTextAppend(siblings[..i], [scan]);
      assert siblings[..i + 1] == siblings[..i] + [scan];
      assert [scan][1..] == [];
      innerText := innerText + InlineToPlainText(Some(scan)).GetOr("");
      i := i + 1;
    }
    assert siblings[..i] == siblings;
    found := false;
  }

  // ---------------------------------------------------------------------
  // Lists
  // ---------------------------------------------------------------------

  /** Decimal digits of `n`, as string interpolation formats a number. */
  function NatToString(n: nat): (s: string)
    ensures |s| >= 1 && forall i :: 0 <= i < |s| ==> '0' <= s[i] <= '9'
    ensures |s| > 1 ==> s[0] != '0'
  {
    if n < 10 then [('0' as int + n) as char]
    else NatToString(n / 10) + [('0' as int + n % 10) as char]
  }

  /** The value a digit string denotes. */
  function DigitsValue(s: string): nat
    requires forall i :: 0 <= i < |s| ==> '0' <= s[i] <= '9'
  {
    if s == [] then 0 else 10 * DigitsValue(s[..|s| - 1]) + (s[|s| - 1] as int - '0' as int)
  }

  /** Reading the digits back gives the number. */
  lemma {:induction false} NatToStringRoundTrip(n: nat)
    ensures DigitsValue(NatToString(n)) == n
  {
    if n >= 10 {
      NatToStringRoundTrip(n / 10);
      var s := NatToString(n);
      assert s[..|s| - 1] == NatToString(n / 10);
    }
  }

  /** Blocks a list item can hold; a paragraph is known by its span. */
  datatype ItemBlock = Paragraph(span: SourceSpan) | NestedList | FencedCode | OtherBlock

  /** What a list item's content shows for each of its blocks. */
  datatype Rendered = CheckBox(isChecked: bool, caption: string) | Para(span: SourceSpan) | NestedPanel | CodePanel

  const UnorderedBullet := "• "

  /** The block is a paragraph whose source text parses as a task. */
  predicate IsTaskBlock(text: Option<string>, block: ItemBlock) {
    && block.Paragraph?
    && ExtractRaw(text, block.span).Some?
    && ParseTaskFromRaw(ExtractRaw(text, block.span).value).isTask
  }

  /** Extracting the source text of the block raises. */
  predicate ExtractionFails(text: Option<string>, block: ItemBlock) {
    block.Paragraph? && ExtractRaw(text, block.span).None?
  }

  predicate HasCheckBox(content: seq<Rendered>) {
    exists k :: 0 <= k < |content| && content[k].CheckBox?
  }

  /** What one block of an item renders to, or nothing for blocks the item
      does not show; `None` when extracting its text raises. */
  function RenderBlock(text: Option<string>, block: ItemBlock): (r: Option<seq<Rendered>>)
    ensures r.None? <==> ExtractionFails(text, block)
    ensures r.Some? ==> |r.value| <= 1
    ensures r.Some? ==> (HasCheckBox(r.value) <==> IsTaskBlock(text, block))
    ensures IsTaskBlock(text, block) ==>
      var t := ParseTaskFromRaw(ExtractRaw(text, block.span).value);
      r == Some([CheckBox(t.isChecked, t.caption)])
    ensures block.Paragraph? && !ExtractionFails(text, block) && !IsTaskBlock(text, block) ==> r == Some([Para(block.span)])
    ensures block.NestedList? ==> r == Some([NestedPanel])
    ensures block.FencedCode? ==> r == Some([CodePanel])
    ensures block.OtherBlock? ==> r == Some([])
  {
    match block
    case Paragraph(span) =>
      (match ExtractRaw(text, span)
       case None => None
       case Some(raw) =>
         var t := ParseTaskFromRaw(raw);
         assert IsTaskBlock(text, block) <==> t.isTask;
         if t.isTask then
           var shown := [CheckBox(t.isChecked, t.caption)];
           assert shown[0].CheckBox?;
           Some(shown)
         else
           assert !HasCheckBox([Para(span)]);
           Some([Para(span)]))
    case NestedList => Some([NestedPanel])
    case FencedCode => Some([CodePanel])
    case OtherBlock => Some([])
  }

  lemma HasCheckBoxAppend(head: seq<Rendered>, rest: seq<Rendered>)
    ensures HasCheckBox(head + rest) <==> HasCheckBox(head) || HasCheckBox(rest)
  {
    var all := head + rest;
    if HasCheckBox(rest) {
      var k :| 0 <= k < |rest| && rest[k].CheckBox?;
      assert all[|head| + k] == rest[k];
    }
    if HasCheckBox(head) {
      var k :| 0 <= k < |head| && head[k].CheckBox?;
      assert all[k] == head[k];
    }
    if HasCheckBox(all) {
      var k :| 0 <= k < |all| && all[k].CheckBox?;
      if k < |head| { assert all[k] == head[k]; } else { assert all[k] == rest[k - |head|]; }
    }
  }

  predicate SomeTask(text: Option<string>, item: seq<ItemBlock>) {
    exists k :: 0 <= k < |item| && IsTaskBlock(text, item[k])
  }

  predicate SomeFailure(text: Option<string>, item: seq<ItemBlock>) {
    exists k :: 0 <= k < |item| && ExtractionFails(text, item[k])
  }

  lemma SplitTasks(text: Option<string>, item: seq<ItemBlock>)
    requires item != []
    ensures SomeTask(text, item) <==> IsTaskBlock(text, item[0]) || SomeTask(text, item[1..])
  {
    assert forall k :: 0 <= k < |item[1..]| ==> item[1..][k] == item[k + 1];
    if SomeTask(text, item) {
      var k :| 0 <= k < |item| && IsTaskBlock(text, item[k]);
      if k > 0 { assert item[1..][k - 1] == item[k]; }
    }
  }

  lemma SplitFailures(text: Option<string>, item: seq<ItemBlock>)
    requires item != []
    ensures SomeFailure(text, item) <==> ExtractionFails(text, item[0]) || SomeFailure(text, item[1..])
  {
    assert forall k :: 0 <= k < |item[1..]| ==> item[1..][k] == item[k + 1];
    if SomeFailure(text, item) {
      var k :| 0 <= k < |item| && ExtractionFails(text, item[k]);
      if k > 0 { assert item[1..][k - 1] == item[k]; }
    }
  }

  /** The content of one list item: its blocks rendered in order, or
      `None` when extracting the text of one of its paragraphs raises. */
  function RenderItem(text: Option<string>, item: seq<ItemBlock>): (r: Option<seq<Rendered>>)
    ensures r.None? <==> SomeFailure(text, item)
    ensures r.Some? ==> |r.value| <= |item|
  {
    if item == [] then Some([])
    else
      SplitFailures(text, item);
      match RenderBlock(text, item[0])
      case None => None
      case Some(head) =>
        match RenderItem(text, item[1..])
        case None => None
        case Some(rest) => Some(head + rest)
  }

  /** An item of one block shows what that block renders to. */
  lemma RenderItemSingle(text: Option<string>, x: ItemBlock)
    ensures RenderItem(text, [x]) == RenderBlock(text, x)
  {
    assert [x] + [] == [x];
    RenderItemCons(text, x, []);
    assert RenderItem(text, []) == Some([]);
    if RenderBlock(text, x).Some? {
      var v := RenderBlock(text, x).value;
      assert v + [] == v;
    }
  }

  /** An item renders as its first block followed by the rest. */
  lemma RenderItemCons(text: Option<string>, x: ItemBlock, rest: seq<ItemBlock>)
    ensures RenderItem(text, [x] + rest) ==
      if RenderBlock(text, x).Some? && RenderItem(text, rest).Some?
      then Some(RenderBlock(text, x).value + RenderItem(text, rest).value)
      else None
  {
    assert ([x] + rest)[0] == x;
    assert ([x] + rest)[1..] == rest;
  }

  /** An item's blocks render in order: two runs of blocks render to the
      first run's content followed by the second's, and fail when either
      does. */
  lemma {:induction false} RenderItemAppend(text: Option<string>, a: seq<ItemBlock>, b: seq<ItemBlock>)
    ensures RenderItem(text, a + b) ==
      if RenderItem(text, a).Some? && RenderItem(text, b).Some?
      then Some(RenderItem(text, a).value + RenderItem(text, b).value)
      else None
  {
    if a == [] {
      assert a + b == b;
      assert RenderItem(text, a) == Some([]);
      if RenderItem(text, b).Some? {
        var v := RenderItem(text, b).value;
        assert [] + v == v;
      }
    } else {
      assert a == [a[0]] + a[1..];
      assert a + b == [a[0]] + (a[1..] + b);
      RenderItemAppend(text, a[1..], b);
      RenderItemCons(text, a[0], a[1..]);
      RenderItemCons(text, a[0], a[1..] + b);
      if RenderBlock(text, a[0]).Some? && RenderItem(text, a[1..]).Some? && RenderItem(text, b).Some? {
        var head, mid, rest := RenderBlock(text, a[0]).value, RenderItem(text, a[1..]).value, RenderItem(text, b).value;
        assert head + (mid + rest) == (head + mid) + rest;
      }
    }
  }

  /** A paragraph whose text is a marker, a box, a space and a caption
      renders to a check box in that box's state showing that caption. */
  lemma TaskParagraphRenders(text: Option<string>, span: SourceSpan, marker: string, mark: char, caption: string)
    requires '[' !in marker && (marker == [] || !IsWhiteSpace(marker[0]))
    requires IsBoxMark(mark) && (caption == [] || !IsWhiteSpace(caption[0]))
    requires ExtractRaw(text, span) == Some(marker + ['[', mark, ']', ' '] + caption)
    ensures RenderItem(text, [Paragraph(span)]) == Some([CheckBox(IsCheckMark(mark), caption)])
  {
    TaskRoundTrip(marker, mark, caption);
    RenderItemSingle(text, Paragraph(span));
  }

  /** A check box appears in an item's content exactly when some paragraph
      of the item is a task. */
  lemma {:induction false} CheckBoxIffTask(text: Option<string>, item: seq<ItemBlock>)
    requires RenderItem(text, item).Some?
    ensures HasCheckBox(RenderItem(text, item).value) <==> SomeTask(text, item)
  {
    if item != [] {
      SplitTasks(text, item);
      var head := RenderBlock(text, item[0]).value;
      var rest := RenderItem(text, item[1..]).value;
      CheckBoxIffTask(text, item[1..]);
      HasCheckBoxAppend(head, rest);
    }
  }

  /** One rendered list item: its bullet and its content. */
  datatype ItemView = ItemView(bullet: string, content: seq<Rendered>)

  /** The bullet of an item numbered `index` with the given content. */
  function Bullet(content: seq<Rendered>, ordered: bool, index: nat): string {
    if HasCheckBox(content) then "" else if ordered then NatToString(index) + ". " else UnorderedBullet
  }

  /** Some item of the list holds a paragraph whose extraction raises. */
  predicate AnyItemFails(text: Option<string>, items: seq<seq<ItemBlock>>) {
    exists i :: 0 <= i < |items| && SomeFailure(text, items[i])
  }

  lemma SplitItems(text: Option<string>, items: seq<seq<ItemBlock>>)
    requires items != []
    ensures AnyItemFails(text, items) <==> SomeFailure(text, items[0]) || AnyItemFails(text, items[1..])
  {
    assert forall i :: 0 <= i < |items[1..]| ==> items[1..][i] == items[i + 1];
    if AnyItemFails(text, items) {
      var i :| 0 <= i < |items| && SomeFailure(text, items[i]);
      if i > 0 { assert items[1..][i - 1] == items[i]; }
    }
  }

  /** `CreateList` over the items of a list, numbering from `index`: a task
      item shows no bullet, an ordered list "index. ", an unordered one a
      dot, and the counter advances over every item; `None` when extracting
      any paragraph raises. */
  function ListFrom(text: Option<string>, items: seq<seq<ItemBlock>>, ordered: bool, index: nat): (r: Option<seq<ItemView>>)
    ensures r.None? <==> AnyItemFails(text, items)
    ensures r.Some? ==> |r.value| == |items|
    ensures r.Some? ==> forall i :: 0 <= i < |items| ==> (
      && Some(r.value[i].content) == RenderItem(text, items[i])
      && r.value[i].bullet == Bullet(r.value[i].content, ordered, index + i))
    decreases |items|
  {
    if items == [] then Some([])
    else
      SplitItems(text, items);
      match RenderItem(text, items[0])
      case None => None
      case Some(content) =>
        match ListFrom(text, items[1..], ordered, index + 1)
        case None => None
        case Some(rest) =>
          assert forall i :: 0 < i < |items| ==> items[i] == items[1..][i - 1];
          Some([ItemView(Bullet(content, ordered, index), content)] + rest)
  }

  /** `CreateList`: the counter starts at 1. */
  function CreateList(text: Option<string>, items: seq<seq<ItemBlock>>, ordered: bool): (r: Option<seq<ItemView>>)
    ensures r.None? <==> AnyItemFails(text, items)
    ensures r.Some? ==> |r.value| == |items|
  {
    ListFrom(text, items, ordered, 1)
  }

  /** For paragraphs whose spans lie inside the text, no item's
      extraction raises. */
  lemma NoItemFails(text: string, items: seq<seq<ItemBlock>>)
    requires forall i, k :: 0 <= i < |items| && 0 <= k < |items[i]| && items[i][k].Paragraph? ==>
      WithinText(items[i][k].span, text)
    ensures !AnyItemFails(Some(text), items)
  {
    forall i | 0 <= i < |items|
      ensures !SomeFailure(Some(text), items[i])
    {
      forall k | 0 <= k < |items[i]| && items[i][k].Paragraph?
        ensures ExtractRaw(Some(text), items[i][k].span).Some?
      {
        ExtractWithinText(text, items[i][k].span);
      }
    }
  }

  /** An ordered bullet is hidden exactly for content with a check box, and
      otherwise reads back as its number followed by ". ". */
  lemma OrderedBulletReadsBack(content: seq<Rendered>, n: nat)
    ensures var b := Bullet(content, true, n);
      && (b == "" <==> HasCheckBox(content))
      && (b != "" ==> |b| >= 3 && b[|b| - 2..] == ". " && DigitsValue(b[..|b| - 2]) == n)
  {
    if !HasCheckBox(content) {
      NatToStringRoundTrip(n);
      var b := Bullet(content, true, n);
      assert b == NatToString(n) + ". ";
      assert b[..|b| - 2] == NatToString(n);
    }
  }

  /** The bullet of one item of an ordered list that renders. */
  lemma OrderedItemBullet(text: Option<string>, items: seq<seq<ItemBlock>>, i: nat)
    requires CreateList(text, items, true).Some? && i < |items|
    ensures var b := CreateList(text, items, true).value[i].bullet;
      && (b == "" <==> SomeTask(text, items[i]))
      && (b != "" ==> |b| >= 3 && b[|b| - 2..] == ". " && DigitsValue(b[..|b| - 2]) == i + 1)
  {
    var r := ListFrom(text, items, true, 1).value;
    assert Some(r[i].content) == RenderItem(text, items[i]);
    CheckBoxIffTask(text, items[i]);
    OrderedBulletReadsBack(r[i].content, i + 1);
  }

  /** For paragraphs whose spans lie inside the text, listing never raises;
      the bullet of an item is hidden exactly when one of its paragraphs is
      a task, and otherwise an ordered list's bullet reads back as the
      item's position from 1. */
  lemma {:induction false} OrderedBullets(text: string, items: seq<seq<ItemBlock>>)
    requires forall i, k :: 0 <= i < |items| && 0 <= k < |items[i]| && items[i][k].Paragraph? ==>
      WithinText(items[i][k].span, text)
    ensures CreateList(Some(text), items, true).Some?
    ensures forall i :: 0 <= i < |items| ==> (
      var b := CreateList(Some(text), items, true).value[i].bullet;
      && (b == "" <==> SomeTask(Some(text), items[i]))
      && (b != "" ==> |b| >= 3 && b[|b| - 2..] == ". " && DigitsValue(b[..|b| - 2]) == i + 1))
  {
    NoItemFails(text, items);
    forall i | 0 <= i < |items|
      ensures var b := CreateList(Some(text), items, true).value[i].bullet;
        && (b == "" <==> SomeTask(Some(text), items[i]))
        && (b != "" ==> |b| >= 3 && b[|b| - 2..] == ". " && DigitsValue(b[..|b| - 2]) == i + 1)
    {
      OrderedItemBullet(Some(text), items, i);
    }
  }
}

=== FILE: modes.dfy ===
/** The fixed instruction string each conversation mode sends as its system turn. */
module ModePrompt {
  import opened Domain

  const GeneralInstruction := "Answer as a general-purpose assistant."
  const ExplainInstruction := "Explain code and concepts in detail, as if mentoring a developer."
  const RefactorInstruction := "Refactor the code for readability, maintainability, and best practices."
  const BugHuntInstruction := "Focus on finding bugs and potential issues in the code."
  const OptimizeInstruction := "Optimize the code for performance and efficiency."

  /** The five instruction strings the client can send. */
  function Instructions(): set<string> {
    {GeneralInstruction, ExplainInstruction, RefactorInstruction, BugHuntInstruction, OptimizeInstruction}
  }

  /** One of the five named modes (not an out-of-range enum value). */
  predicate IsNamed(mode: ConversationMode) {
    !mode.UnnamedMode?
  }

  /** The instruction for `mode`; any unnamed enum value falls back to the
      General text, so every mode has an instruction. */
  function GetInstructions(mode: ConversationMode): (r: string)
    ensures r in Instructions()
    ensures r == GeneralInstruction <==> (mode == General || mode.UnnamedMode?)
    ensures r == ExplainInstruction <==> mode == Explain
    ensures r == RefactorInstruction <==> mode == Refactor
    ensures r == BugHuntInstruction <==> mode == BugHunt
    ensures r == OptimizeInstruction <==> mode == Optimize
  {
    match mode
    case General => GeneralInstruction
    case Explain => ExplainInstruction
    case Refactor => RefactorInstruction
    case BugHunt => BugHuntInstruction
    case Optimize => OptimizeInstruction
    case UnnamedMode(_) => GeneralInstruction
  }

  /** Distinct named modes never share an instruction, so the mode can be
      read back from the system turn. */
  lemma NamedModesDistinct(a: ConversationMode, b: ConversationMode)
    requires IsNamed(a) && IsNamed(b) && a != b
    ensures GetInstructions(a) != GetInstructions(b)
  {
  }
}

=== FILE: optional.dfy ===
/** Nullable values and fallible results, used wherever the chat client
    works with a nullable reference or an operation that can fail. */
module Optional {

  /** A value that may be absent (a C# `null`). */
  datatype Option<+T> = None | Some(value: T) {

    /** The value, or `default` when absent (the `??` operator). */
    function GetOr(default: T): T {
      match this
      case Some(v) => v
      case None => default
    }
  }

  /** The outcome of an operation that either produces a value or reports an error. */
  datatype Result<+T, +E> = Ok(value: T) | Err(error: E)
}

=== FILE: prompt.dfy ===
/** Turns a conversation into the bounded request sent to the model: the
    mode's instruction, an optional synthetic summary turn, and the newest
    messages that fit a fixed approximate token budget. */
module PromptBuilder {
  import opened Optional
  import opened Text
  import opened Domain
  import ModePrompt

  /** Budget for the whole prompt, and the part of it reserved up front for
      the instruction and summary. */
  const MaxPromptTokens := 6000
  const SystemOverheadTokens := 500

  const SummaryPrefix := "Summary of earlier conversation (for context only, do not repeat verbatim): "

  /** The request handed to the chat transport. */
  datatype ServiceConversation = ServiceConversation(
    mode: ConversationMode,
    systemInstruction: string,
    messages: seq<Message>)

  /** Rough token count: nothing for an empty text, otherwise one token per
      started block of four characters (`length / 4 + 1`). White space is
      charged like any other character. */
  function EstimateTokens(text: string): (n: nat)
    ensures n == 0 <==> text == []
    ensures text != [] ==> 4 * (n - 1) <= |text| < 4 * n
  {
    if text == [] then 0 else |text| / 4 + 1
  }

  /** Typing and streaming placeholders are never sent back to the model. */
  predicate IsPlaceholder(m: Message) {
    m.status == Typing || m.status == Streaming
  }

  /** The messages the window may use: every non-placeholder, in order
      (`Sending` and `Failed` messages included). */
  function Eligible(msgs: seq<Message>): (r: seq<Message>)
    ensures |r| <= |msgs|
  {
    if msgs == [] then []
    else
      var last := msgs[|msgs| - 1];
      Eligible(msgs[..|msgs| - 1]) + (if IsPlaceholder(last) then [] else [last])
  }

  /** Eligible messages are non-placeholders taken from `msgs`. */
  lemma {:induction false} EligibleFrom(msgs: seq<Message>)
    ensures forall i :: 0 <= i < |Eligible(msgs)| ==> !IsPlaceholder(Eligible(msgs)[i]) && Eligible(msgs)[i] in msgs
  {
    if msgs != [] {
      var init := msgs[..|msgs| - 1];
      EligibleFrom(init);
      assert forall m :: m in init ==> m in msgs;
    }
  }

  lemma EligibleStep(msgs: seq<Message>, i: nat)
    requires i < |msgs|
    ensures Eligible(msgs[..i + 1]) == Eligible(msgs[..i]) + (if IsPlaceholder(msgs[i]) then [] else [msgs[i]])
  {
    assert msgs[..i + 1][..i] == msgs[..i];
  }

  /** Estimated tokens of a run of messages. */
  function Cost(msgs: seq<Message>): nat {
    if msgs == [] then 0 else EstimateTokens(msgs[0].content) + Cost(msgs[1..])
  }

  /** A window fits when it and the reserved overhead stay within budget. */
  predicate Fits(window: seq<Message>) {
    SystemOverheadTokens + Cost(window) <= MaxPromptTokens
  }

  /** `window` is the longest suffix of the eligible messages that fits:
      exactly what a newest-to-oldest walk that stops at the first
      overflowing message collects. */
  predicate IsWindow(msgs: seq<Message>, window: seq<Message>) {
    var e := Eligible(msgs);
    && |window| <= |e|
    && window == e[|e| - |window|..]
    && Fits(window)
    && (|window| < |e| ==> !Fits(e[|e| - |window| - 1..]))
  }

  /** The walk has reached position `i` with `window` collected: the
      eligible messages are those before `i` followed by the window. */
  predicate Walked(msgs: seq<Message>, i: nat, window: seq<Message>) {
    i <= |msgs| && Eligible(msgs) == Eligible(msgs[..i]) + window && Fits(window)
  }

  /** The walk stopped at position `i`, whose message would overflow. */
  predicate Stopped(msgs: seq<Message>, i: nat, window: seq<Message>) {
    && i < |msgs| && !IsPlaceholder(msgs[i])
    && Eligible(msgs) == Eligible(msgs[..i]) + [msgs[i]] + window
    && Fits(window) && !Fits([msgs[i]] + window)
  }

  lemma SkipStep(msgs: seq<Message>, i: nat, window: seq<Message>)
    requires 0 < i && Walked(msgs, i, window) && IsPlaceholder(msgs[i - 1])
    ensures Walked(msgs, i - 1, window)
  {
    EligibleStep(msgs, i - 1);
    assert msgs[..i - 1 + 1] == msgs[..i];
  }

  lemma TakeStep(msgs: seq<Message>, i: nat, window: seq<Message>)
    requires 0 < i && Walked(msgs, i, window) && !IsPlaceholder(msgs[i - 1])
    requires Fits([msgs[i - 1]] + window)
    ensures Walked(msgs, i - 1, [msgs[i - 1]] + window)
  {
    EligibleStep(msgs, i - 1);
    assert msgs[..i - 1 + 1] == msgs[..i];
    assert Eligible(msgs[..i - 1]) + [msgs[i - 1]] + window == Eligible(msgs[..i - 1]) + ([msgs[i - 1]] + window);
  }

  lemma StopStep(msgs: seq<Message>, i: nat, window: seq<Message>)
    requires 0 < i && Walked(msgs, i, window) && !IsPlaceholder(msgs[i - 1])
    requires !Fits([msgs[i - 1]] + window)
    ensures Stopped(msgs, i - 1, window)
  {
    EligibleStep(msgs, i - 1);
    assert msgs[..i - 1 + 1] == msgs[..i];
  }

  /** Walks the history newest to oldest, skipping placeholders, and stops
      at the first message whose tokens would overflow the budget. Each kept
      message is put in front of the earlier ones, which yields the
      chronological order the source restores by reversing at the end. */
  method BuildTruncatedHistory(msgs: seq<Message>) returns (window: seq<Message>)
    ensures IsWindow(msgs, window)
  {
    window := [];
    var used := SystemOverheadTokens;
    var i := |msgs|;
    var done := false;
    assert msgs[..i] == msgs;
    while i > 0 && !done
      invariant 0 <= i <= |msgs|
      invariant used == SystemOverheadTokens + Cost(window)
      invariant !done ==> Walked(msgs, i, window)
      invariant done ==> Stopped(msgs, i, window)
      decreases i, !done
    {
      var msg := msgs[i - 1];
      if IsPlaceholder(msg) {
        SkipStep(msgs, i, window);
        i := i - 1;
      } else {
        CostCons(msg, window);
        var msgTokens := EstimateTokens(msg.content);
        if used + msgTokens > MaxPromptTokens {
          StopStep(msgs, i, window);
          done := true;
        } else {
          TakeStep(msgs, i, window);
          used := used + msgTokens;
          window := [msg] + window;
        }
        i := i - 1;
      }
    }
    if done {
      StoppedWalkIsWindow(msgs, Eligible(msgs[..i]), msgs[i], window);
    } else {
      assert msgs[..i] == [];
    }
  }

  lemma CostCons(m: Message, window: seq<Message>)
    ensures Cost([m] + window) == EstimateTokens(m.content) + Cost(window)
  {
    assert ([m] + window)[1..] == window;
  }

  /** A walk that stopped at `m` has collected the longest fitting suffix. */
  lemma StoppedWalkIsWindow(msgs: seq<Message>, older: seq<Message>, m: Message, window: seq<Message>)
    requires Eligible(msgs) == older + [m] + window
    requires Fits(window) && !Fits([m] + window)
    ensures IsWindow(msgs, window)
  {
    var e := Eligible(msgs);
    assert e[|e| - |window| - 1..] == [m] + window;
  }

  /** Every message of a window comes from the history. */
  lemma WindowFromHistory(msgs: seq<Message>, window: seq<Message>)
    requires IsWindow(msgs, window)
    ensures forall i :: 0 <= i < |window| ==> window[i] in msgs
  {
    var e := Eligible(msgs);
    EligibleFrom(msgs);
    forall i | 0 <= i < |window|
      ensures window[i] in msgs
    {
      assert window[i] == e[|e| - |window| + i];
    }
  }

  /** The conversation carries a summary worth injecting. */
  predicate HasSummary(conv: Conversation) {
    !Blank(conv.summary)
  }

  /** The synthetic System turn that carries the running summary, dated at
      the summary's last update or else at the conversation's creation. */
  function SummaryTurn(conv: Conversation): (m: Message)
    ensures m.role == System && m.status == Sent
    ensures m.createdAt == (if conv.summaryUpdatedAt.Some? then conv.summaryUpdatedAt.value else conv.createdAt)
    ensures m.content == SummaryPrefix + conv.summary.GetOr([])
    ensures !(m in conv.messages)
  {
    Message(FreshId(conv.messages), System, SummaryPrefix + conv.summary.GetOr([]),
            conv.summaryUpdatedAt.GetOr(conv.createdAt), Sent, None)
  }

  /** The request for `conv`: its mode, that mode's instruction, the summary
      turn iff there is a non-blank summary, then the token window. The
      summary turn is not charged to the budget, and no message-count cap
      applies. */
  method Build(conv: Conversation) returns (req: ServiceConversation)
    ensures req.mode == conv.mode
    ensures req.systemInstruction == ModePrompt.GetInstructions(conv.mode)
    ensures (|req.messages| > 0 && req.messages[0] == SummaryTurn(conv)) <==> HasSummary(conv)
    ensures HasSummary(conv) ==> |req.messages| > 0 && IsWindow(conv.messages, req.messages[1..])
    ensures !HasSummary(conv) ==> IsWindow(conv.messages, req.messages)
  {
    var instruction := ModePrompt.GetInstructions(conv.mode);
    var recent := BuildTruncatedHistory(conv.messages);
    var forModel: seq<Message>;
    if HasSummary(conv) {
      forModel := [SummaryTurn(conv)] + recent;
      assert forModel[1..] == recent;
    } else {
      forModel := recent;
      if |recent| > 0 {
        WindowFromHistory(conv.messages, recent);
        assert recent[0] in conv.messages;
      }
    }
    req := ServiceConversation(conv.mode, instruction, forModel);
  }
}

=== FILE: retry.dfy ===
/** The resilience policy wrapped around every call to the model endpoint:
    which failures are retried, how many times, and how long to wait. */
module RetryPolicy {

  /** What one call to the endpoint ends with. */
  datatype AttemptResult =
    | Succeeded
    | RequestFailed(status: int)   // a failure carrying an HTTP status
    | TaskCanceled                 // a task cancellation, whatever caused it
    | OtherFault                   // any other exception

  const RetryCount := 3
  const MaxJitterMs := 500

  /** Request timeout, rate limiting and every 5xx status are transient. */
  predicate IsTransient(status: int) {
    status == 408 || status == 429 || (500 <= status < 600)
  }

  /** The exceptions the policy retries: transient request failures and
      every task cancellation (the cause is not inspected). */
  predicate Handled(a: AttemptResult) {
    (a.RequestFailed? && IsTransient(a.status)) || a.TaskCanceled?
  }

  function Pow2(n: nat): (r: nat)
    ensures r >= 1
  {
    if n == 0 then 1 else 2 * Pow2(n - 1)
  }

  /** Milliseconds slept before retry `attempt` (1-based): `2^attempt`
      seconds plus a jitter drawn from [0, 500). */
  function SleepDuration(attempt: nat, jitter: int): (ms: int)
    requires 1 <= attempt && 0 <= jitter < MaxJitterMs
    ensures Pow2(attempt) * 1000 <= ms <= Pow2(attempt) * 1000 + 499
  {
    Pow2(attempt) * 1000 + jitter
  }

  /** Every possible wait before retry n+1 is longer than every possible
      wait before retry n, whatever the jitters. */
  lemma DelaysGrow(n: nat, j1: int, j2: int)
    requires 1 <= n && 0 <= j1 < MaxJitterMs && 0 <= j2 < MaxJitterMs
    ensures SleepDuration(n, j1) < SleepDuration(n + 1, j2)
  {
  }

  /** The course of one policy-wrapped call: how many calls were made, the
      waits between them, and the result that ended it. */
  datatype Execution = Execution(calls: nat, delays: seq<int>, final: AttemptResult)

  /** Runs the call with `results[k]` as the outcome of call k, retrying a
      handled failure until three retries have been spent; `jitters[k]` is
      the random part of the k-th wait. */
  function Execute(results: seq<AttemptResult>, jitters: seq<int>): (e: Execution)
    requires |results| == RetryCount + 1 && |jitters| == RetryCount
    requires forall k :: 0 <= k < |jitters| ==> 0 <= jitters[k] < MaxJitterMs
    ensures 1 <= e.calls <= RetryCount + 1
    ensures e.final == results[e.calls - 1]
    ensures e.calls <= RetryCount ==> !Handled(e.final)
    ensures forall k :: 0 <= k < e.calls - 1 ==> Handled(results[k])
    ensures |e.delays| == e.calls - 1
    ensures forall k :: 0 <= k < |e.delays| ==>
      Pow2(k + 1) * 1000 <= e.delays[k] <= Pow2(k + 1) * 1000 + 499
  {
    Run(results, jitters, 0, [])
  }

  /** The loop of `Execute` from call `k` on, with the waits so far. */
  function Run(results: seq<AttemptResult>, jitters: seq<int>, k: nat, delays: seq<int>): (e: Execution)
    requires |results| == RetryCount + 1 && |jitters| == RetryCount && k <= RetryCount
    requires forall i :: 0 <= i < |jitters| ==> 0 <= jitters[i] < MaxJitterMs
    requires |delays| == k
    requires forall i :: 0 <= i < k ==> Handled(results[i])
    requires forall i :: 0 <= i < k ==> Pow2(i + 1) * 1000 <= delays[i] <= Pow2(i + 1) * 1000 + 499
    ensures k + 1 <= e.calls <= RetryCount + 1
    ensures e.final == results[e.calls - 1]
    ensures e.calls <= RetryCount ==> !Handled(e.final)
    ensures forall i :: 0 <= i < e.calls - 1 ==> Handled(results[i])
    ensures |e.delays| == e.calls - 1 && e.delays[..k] == delays
    ensures forall i :: 0 <= i < |e.delays| ==>
      Pow2(i + 1) * 1000 <= e.delays[i] <= Pow2(i + 1) * 1000 + 499
    decreases RetryCount - k
  {
    if k == RetryCount || !Handled(results[k]) then
      Execution(k + 1, delays, results[k])
    else
      Run(results, jitters, k + 1, delays + [SleepDuration(k + 1, jitters[k])])
  }

  /** The waits of one execution strictly increase. */
  lemma {:induction false} DelaysIncrease(results: seq<AttemptResult>, jitters: seq<int>)
    requires |results| == RetryCount + 1 && |jitters| == RetryCount
    requires forall k :: 0 <= k < |jitters| ==> 0 <= jitters[k] < MaxJitterMs
    ensures var d := Execute(results, jitters).delays;
      forall i, j :: 0 <= i < j < |d| ==> d[i] < d[j]
  {
    var d := Execute(results, jitters).delays;
    forall i, j | 0 <= i < j < |d|
      ensures d[i] < d[j]
    {
      PowMonotone(i + 2, j + 1);
    }
  }

  lemma {:induction false} PowMonotone(a: nat, b: nat)
    requires a <= b
    ensures Pow2(a) <= Pow2(b)
    decreases b
  {
    if a < b {
      PowMonotone(a, b - 1);
    }
  }

  /** Bad request, unauthorized, forbidden and not found are never retried. */
  lemma ClientErrorsAreFatal(status: int)
    requires status in {400, 401, 403, 404}
    ensures !Handled(RequestFailed(status))
  {
  }
}

=== FILE: session.dfy ===
/** One conversation's session engine: the observable message list, the
    title, the busy flag, and the transitions a turn goes through (user
    message, typing placeholder, reply or stream, terminal state, then
    compaction by summarization). The remote service's answers are passed
    in as outcomes. */
module Session {
  import opened Optional
  import opened Text
  import opened Domain
  import PromptBuilder

  const SummarizeThresholdMessages := 40
  const SummarizeThresholdTokens := 6000
  const KeepRecentMessages := 10
  const TitleLength := 40
  const NoContentError := "The model did not return any content."
  /** `Environment.NewLine` on the client's platform. */
  const NewLine := "\r\n"

  /** The view model of one conversation. `view` is the observable message
      collection the UI renders; `title` is the view model's own copy of the
      title; `wired` records whether persistence requests reach a store. */
  datatype ChatSession = ChatSession(
    conv: Conversation,
    view: seq<Message>,
    title: string,
    input: string,
    busy: bool,
    useStreaming: bool,
    wired: bool)

  /** The class invariant: the observable list and the conversation's list
      are the same sequence, and so are the two titles. */
  predicate Synced(s: ChatSession) {
    s.view == s.conv.messages && s.title == s.conv.title
  }

  /** Only the message lists and the last-updated time may differ. */
  predicate SameExceptMessages(s: ChatSession, r: ChatSession) {
    && r.title == s.title && r.input == s.input && r.busy == s.busy
    && r.useStreaming == s.useStreaming && r.wired == s.wired
    && r.conv == s.conv.(messages := r.conv.messages, lastUpdatedAt := r.conv.lastUpdatedAt)
  }

  /** Construction over an existing conversation. Assigning the title runs
      the title setter against a view model whose title is still unset, so
      the conversation's last-updated time is bumped; nothing is persisted
      yet because no store is wired. */
  function Open(conv: Conversation, now: Timestamp): (s: ChatSession)
    ensures Synced(s)
    ensures s.conv == conv.(lastUpdatedAt := now)
    ensures !s.busy && s.useStreaming && !s.wired && s.input == []
  {
    ChatSession(conv.(lastUpdatedAt := now), conv.messages, conv.title, [], false, true, false)
  }

  /** The title setter: a different title is copied into the conversation
      and bumps its last-updated time; the same title changes nothing. */
  function SetTitle(s: ChatSession, t: string, now: Timestamp): (r: ChatSession)
    ensures r.title == t && (Synced(s) ==> Synced(r))
    ensures r.view == s.view && r.conv.messages == s.conv.messages
    ensures s.title == t ==> r == s
    ensures s.title != t ==> r.conv.title == t && r.conv.lastUpdatedAt == now
  {
    if s.title != t then s.(title := t, conv := s.conv.(title := t, lastUpdatedAt := now)) else s
  }

  /** The mode setter, with the same change test and timestamp bump. */
  function SetMode(s: ChatSession, mode: ConversationMode, now: Timestamp): (r: ChatSession)
    ensures r.conv.mode == mode && r.view == s.view && r.conv.messages == s.conv.messages
    ensures s.conv.mode == mode ==> r == s
    ensures s.conv.mode != mode ==> r.conv.lastUpdatedAt == now
    ensures Synced(s) ==> Synced(r)
  {
    if s.conv.mode != mode then s.(conv := s.conv.(mode := mode, lastUpdatedAt := now)) else s
  }

  /** Sending is offered when not busy and the input is not blank. */
  predicate CanSend(s: ChatSession) {
    !s.busy && !AllWhiteSpace(s.input)
  }

  /** `List.Remove` of a message: the first occurrence goes, the rest keeps its order. */
  function RemoveFirst(msgs: seq<Message>, id: Id): (r: seq<Message>)
    ensures !HasId(msgs, id) ==> r == msgs
    ensures HasId(msgs, id) ==> |r| == |msgs| - 1
  {
    if msgs == [] then []
    else if msgs[0].clientId == id then msgs[1..]
    else
      assert HasId(msgs, id) ==> HasId(msgs[1..], id);
      assert HasId(msgs[1..], id) ==> HasId(msgs, id) by {
        if HasId(msgs[1..], id) {
          var i :| 0 <= i < |msgs[1..]| && msgs[1..][i].clientId == id;
          assert msgs[i + 1].clientId == id;
        }
      }
      [msgs[0]] + RemoveFirst(msgs[1..], id)
  }

  /** Proof step: a leading message without the id is kept in front. */
  lemma RemoveFirstSkips(msgs: seq<Message>, id: Id)
    requires msgs != [] && msgs[0].clientId != id
    ensures RemoveFirst(msgs, id) == [msgs[0]] + RemoveFirst(msgs[1..], id)
  {
  }

  /** The message removed is the first one with the id: when `k` is the
      first position holding it, exactly that message goes and the rest
      closes up behind it. */
  lemma {:induction false} RemoveFirstOccurrence(msgs: seq<Message>, id: Id, k: nat)
    requires k < |msgs| && msgs[k].clientId == id
    requires forall j :: 0 <= j < k ==> msgs[j].clientId != id
    ensures RemoveFirst(msgs, id) == msgs[..k] + msgs[k + 1..]
  {
    if k == 0 {
      assert msgs[..0] + msgs[1..] == msgs[1..];
    } else {
      var x, rest := msgs[0], msgs[1..];
      assert x.clientId != id;
      forall j | 0 <= j < k - 1 ensures rest[j].clientId != id {
        assert rest[j] == msgs[j + 1];
      }
      RemoveFirstOccurrence(rest, id, k - 1);
      calc {
        RemoveFirst(msgs, id);
        { RemoveFirstSkips(msgs, id); }
        [x] + RemoveFirst(rest, id);
        [x] + (rest[..k - 1] + rest[k..]);
        { assert msgs[..k] == [x] + rest[..k - 1] && msgs[k + 1..] == rest[k..]; }
        msgs[..k] + msgs[k + 1..];
      }
    }
  }

  lemma {:induction false} RemoveAppended(base: seq<Message>, m: Message)
    requires !HasId(base, m.clientId)
    ensures RemoveFirst(base + [m], m.clientId) == base
  {
    if base != [] {
      assert (base + [m])[1..] == base[1..] + [m];
      assert forall i :: 0 <= i < |base[1..]| ==> base[1..][i] == base[i + 1];
      RemoveAppended(base[1..], m);
    }
  }

  /** AddMessage: appended to the observable list and the conversation. */
  function AddMessage(s: ChatSession, m: Message, now: Timestamp): (r: ChatSession)
    ensures r.view == s.view + [m] && r.conv.messages == s.conv.messages + [m]
    ensures r.conv.lastUpdatedAt == now
    ensures Synced(s) ==> Synced(r)
    ensures SameExceptMessages(s, r)
  {
    s.(view := s.view + [m], conv := s.conv.(messages := s.conv.messages + [m], lastUpdatedAt := now))
  }

  /** RemoveMessage: removed from both lists; the time is bumped even when absent. */
  function RemoveMessage(s: ChatSession, id: Id, now: Timestamp): (r: ChatSession)
    ensures r.view == RemoveFirst(s.view, id) && r.conv.messages == RemoveFirst(s.conv.messages, id)
    ensures r.conv.lastUpdatedAt == now
    ensures Synced(s) ==> Synced(r)
    ensures SameExceptMessages(s, r)
  {
    s.(view := RemoveFirst(s.view, id), conv := s.conv.(messages := RemoveFirst(s.conv.messages, id), lastUpdatedAt := now))
  }

  /** An in-place change to a message object, seen through both lists. */
  datatype Mutation = MarkSent | MarkFailed(error: string) | AppendChunk(chunk: string)

  function Apply(m: Message, mu: Mutation): Message {
    match mu
    case MarkSent => m.(status := Sent)
    case MarkFailed(e) => FailedWith(m, e)
    case AppendChunk(c) => m.(content := m.content + c)
  }

  function MutateAll(msgs: seq<Message>, id: Id, mu: Mutation): (r: seq<Message>)
    ensures |r| == |msgs|
  {
    seq(|msgs|, i requires 0 <= i < |msgs| => if msgs[i].clientId == id then Apply(msgs[i], mu) else msgs[i])
  }

  lemma MutateAbsent(msgs: seq<Message>, id: Id, mu: Mutation)
    requires !HasId(msgs, id)
    ensures MutateAll(msgs, id, mu) == msgs
  {
  }

  lemma MutateAppended(base: seq<Message>, m: Message, id: Id, mu: Mutation)
    ensures MutateAll(base + [m], id, mu) == MutateAll(base, id, mu) + [if m.clientId == id then Apply(m, mu) else m]
  {
  }

  /** Mutating a message object changes it in place in both lists; no
      timestamp is bumped. */
  function Mutate(s: ChatSession, id: Id, mu: Mutation): (r: ChatSession)
    ensures r.view == MutateAll(s.view, id, mu) && r.conv.messages == MutateAll(s.conv.messages, id, mu)
    ensures r.conv.lastUpdatedAt == s.conv.lastUpdatedAt
    ensures Synced(s) ==> Synced(r)
    ensures SameExceptMessages(s, r)
  {
    s.(view := MutateAll(s.view, id, mu), conv := s.conv.(messages := MutateAll(s.conv.messages, id, mu)))
  }

  /** The assistant placeholder shown while waiting. */
  function TypingPlaceholder(id: Id, now: Timestamp): Message {
    Message(id, Assistant, [], now, Typing, None)
  }

  /** A message object after `MarkFailed(e)`. */
  function FailedWith(m: Message, e: string): Message {
    m.(status := Failed, errorMessage := Some(e), content := e)
  }

  /** What a non-streaming call ends with. */
  datatype ReplyOutcome = Replied(message: Message) | ReplyThrew(error: string) | ReplyCancelled

  /** The non-streaming turn, after the user message is in place: on a
      reply the user message becomes Sent, the placeholder goes and the
      reply is appended whatever its status; on an exception the placeholder
      itself becomes Failed with the exception text; on cancellation only
      the placeholder goes. */
  function NonStreamingTurn(s: ChatSession, userId: Id, typingId: Id, reply: ReplyOutcome, now: Timestamp): (r: ChatSession)
    requires !HasId(s.conv.messages, typingId) && userId != typingId
    ensures Synced(s) ==> Synced(r)
    ensures SameExceptMessages(s, r)
    ensures reply.Replied? ==>
      r.conv.messages == MutateAll(s.conv.messages, userId, MarkSent) + [reply.message]
    ensures reply.ReplyThrew? ==>
      r.conv.messages == s.conv.messages + [FailedWith(TypingPlaceholder(typingId, now), reply.error)]
    ensures reply.ReplyCancelled? ==> r.conv.messages == s.conv.messages
  {
    var typing := TypingPlaceholder(typingId, now);
    var s1 := AddMessage(s, typing, now);
    MutateAppended(s.conv.messages, typing, userId, MarkSent);
    RemoveAppended(s.conv.messages, typing);
    match reply
    case Replied(m) =>
      var s2 := Mutate(s1, userId, MarkSent);
      assert !HasId(MutateAll(s.conv.messages, userId, MarkSent), typingId);
      RemoveAppended(MutateAll(s.conv.messages, userId, MarkSent), typing);
      AddMessage(RemoveMessage(s2, typingId, now), m, now)
    case ReplyCancelled =>
      RemoveMessage(s1, typingId, now)
    case ReplyThrew(e) =>
      MutateAppended(s.conv.messages, typing, typingId, MarkFailed(e));
      MutateAbsent(s.conv.messages, typingId, MarkFailed(e));
      Mutate(s1, typingId, MarkFailed(e))
  }

  /** How a stream ends after its chunks. */
  datatype StreamEnd = StreamCompleted | StreamThrew(error: string) | StreamCancelled

  /** The chunks a stream delivered, and how it ended. */
  datatype StreamOutcome = StreamOutcome(chunks: seq<string>, end: StreamEnd)

  /** The message the first chunk creates. */
  function StreamingMessage(id: Id, content: string, now: Timestamp): Message {
    Message(id, Assistant, content, now, Streaming, None)
  }

  /** Consumes chunks: the first removes the placeholder and appends a
      Streaming message holding it; each later one is appended to that
      message's content in place. */
  function ApplyChunks(s: ChatSession, typingId: Id, assistantId: Id, chunks: seq<string>, first: bool, now: Timestamp): (r: ChatSession)
    ensures SameExceptMessages(s, r)
    decreases |chunks|
  {
    if chunks == [] then s
    else if first then
      var s' := AddMessage(RemoveMessage(s, typingId, now), StreamingMessage(assistantId, chunks[0], now), now);
      ApplyChunks(s', typingId, assistantId, chunks[1..], false, now)
    else
      ApplyChunks(Mutate(s, assistantId, AppendChunk(chunks[0])), typingId, assistantId, chunks[1..], false, now)
  }

  /** Later chunks only grow the streaming message, which ends up holding
      its first content followed by every later chunk. */
  lemma {:induction false} LaterChunksAppend(s: ChatSession, typingId: Id, assistantId: Id, base: seq<Message>,
                                             c: string, chunks: seq<string>, now: Timestamp)
    requires Synced(s) && !HasId(base, assistantId)
    requires s.conv.messages == base + [StreamingMessage(assistantId, c, now)]
    ensures var r := ApplyChunks(s, typingId, assistantId, chunks, false, now);
      Synced(r) && r.conv.messages == base + [StreamingMessage(assistantId, c + Concat(chunks), now)]
    decreases |chunks|
  {
    if chunks != [] {
      var m := StreamingMessage(assistantId, c, now);
      MutateAppended(base, m, assistantId, AppendChunk(chunks[0]));
      MutateAbsent(base, assistantId, AppendChunk(chunks[0]));
      var s' := Mutate(s, assistantId, AppendChunk(chunks[0]));
      LaterChunksAppend(s', typingId, assistantId, base, c + chunks[0], chunks[1..], now);
      assert c + chunks[0] + Concat(chunks[1..]) == c + Concat(chunks);
    } else {
      assert c + Concat(chunks) == c;
    }
  }

  /** After a non-empty stream the placeholder is gone and a single
      Streaming message holds the concatenation of all chunks. */
  lemma StreamedContent(s: ChatSession, typingId: Id, assistantId: Id, chunks: seq<string>, now: Timestamp)
    requires Synced(s) && chunks != []
    requires !HasId(s.conv.messages, typingId) && !HasId(s.conv.messages, assistantId)
    ensures var s1 := AddMessage(s, TypingPlaceholder(typingId, now), now);
      var r := ApplyChunks(s1, typingId, assistantId, chunks, true, now);
      Synced(r) && r.conv.messages == s.conv.messages + [StreamingMessage(assistantId, Concat(chunks), now)]
  {
    var s1 := AddMessage(s, TypingPlaceholder(typingId, now), now);
    RemoveAppended(s.conv.messages, TypingPlaceholder(typingId, now));
    var s' := AddMessage(RemoveMessage(s1, typingId, now), StreamingMessage(assistantId, chunks[0], now), now);
    LaterChunksAppend(s', typingId, assistantId, s.conv.messages, chunks[0], chunks[1..], now);
  }

  /** The streaming turn, after the user message is in place. A completed
      stream with chunks marks the assistant and user messages Sent; with no
      chunk the placeholder fails with the no-content text and the user
      message is left alone. An exception fails the current target (the
      streaming message once one exists, else the placeholder) with its
      text. Cancellation removes only the placeholder, so a partly streamed
      message stays behind in Streaming state. */
  function StreamingTurn(s: ChatSession, userId: Id, typingId: Id, assistantId: Id, outcome: StreamOutcome, now: Timestamp): (r: ChatSession)
    requires Synced(s)
    requires !HasId(s.conv.messages, typingId) && !HasId(s.conv.messages, assistantId)
    requires userId != typingId && userId != assistantId && typingId != assistantId
    ensures Synced(r) && SameExceptMessages(s, r)
    ensures var base, text := s.conv.messages, Concat(outcome.chunks);
      match outcome.end
      case StreamCompleted =>
        if outcome.chunks != [] then
          r.conv.messages == MutateAll(base, userId, MarkSent) + [StreamingMessage(assistantId, text, now).(status := Sent)]
        else
          r.conv.messages == base + [FailedWith(TypingPlaceholder(typingId, now), NoContentError)]
      case StreamThrew(e) =>
        if outcome.chunks != [] then
          r.conv.messages == base + [FailedWith(StreamingMessage(assistantId, text, now), e)]
        else
          r.conv.messages == base + [FailedWith(TypingPlaceholder(typingId, now), e)]
      case StreamCancelled =>
        if outcome.chunks != [] then
          r.conv.messages == base + [StreamingMessage(assistantId, text, now)]
        else
          r.conv.messages == base
  {
    var base := s.conv.messages;
    var typing := TypingPlaceholder(typingId, now);
    var s1 := AddMessage(s, typing, now);
    var s2 := ApplyChunks(s1, typingId, assistantId, outcome.chunks, true, now);
    var got := outcome.chunks != [];
    if got then
      StreamedContent(s, typingId, assistantId, outcome.chunks, now);
      var streamed := StreamingMessage(assistantId, Concat(outcome.chunks), now);
      MutateAppended(base, streamed, assistantId, MarkSent);
      MutateAbsent(base, assistantId, MarkSent);
      MutateAppended(base, streamed.(status := Sent), userId, MarkSent);
      assert !HasId(base + [streamed], typingId);
      match outcome.end
      case StreamCompleted => Mutate(Mutate(s2, assistantId, MarkSent), userId, MarkSent)
      case StreamThrew(e) =>
        MutateAppended(base, streamed, assistantId, MarkFailed(e));
        MutateAbsent(base, assistantId, MarkFailed(e));
        Mutate(s2, assistantId, MarkFailed(e))
      case StreamCancelled => RemoveMessage(s2, typingId, now)
    else
      MutateAppended(base, typing, typingId, MarkFailed(NoContentError));
      MutateAbsent(base, typingId, MarkFailed(NoContentError));
      RemoveAppended(base, typing);
      match outcome.end
      case StreamCompleted => Mutate(s2, typingId, MarkFailed(NoContentError))
      case StreamThrew(e) =>
        MutateAppended(base, typing, typingId, MarkFailed(e));
        MutateAbsent(base, typingId, MarkFailed(e));
        Mutate(s2, typingId, MarkFailed(e))
      case StreamCancelled => RemoveMessage(s2, typingId, now)
  }

  /** The summarization check's estimate: blank text costs nothing, any
      other text `length / 4 + 1`, as in the prompt builder. */
  function EstimateTokens(content: string): (n: nat)
    ensures AllWhiteSpace(content) ==> n == 0
    ensures !AllWhiteSpace(content) ==> n == PromptBuilder.EstimateTokens(content)
  {
    if AllWhiteSpace(content) then 0 else |content| / 4 + 1
  }

  /** The two estimators disagree exactly on non-empty blank text, which the
      prompt builder charges and the summarization check does not. */
  lemma EstimatorsDisagreeOnBlankText(content: string)
    ensures EstimateTokens(content) != PromptBuilder.EstimateTokens(content)
      <==> content != [] && AllWhiteSpace(content)
  {
  }

  function ConversationTokens(msgs: seq<Message>): nat {
    if msgs == [] then 0 else EstimateTokens(msgs[0].content) + ConversationTokens(msgs[1..])
  }

  /** The summarization check never sees more tokens than the prompt builder would charge. */
  lemma {:induction false} ConversationTokensAtMostCost(msgs: seq<Message>)
    ensures ConversationTokens(msgs) <= PromptBuilder.Cost(msgs)
  {
    if msgs != [] {
      ConversationTokensAtMostCost(msgs[1..]);
    }
  }

  /** Summarization is due over 40 messages or over 6000 estimated tokens. */
  predicate NeedsSummary(msgs: seq<Message>) {
    |msgs| > SummarizeThresholdMessages || ConversationTokens(msgs) > SummarizeThresholdTokens
  }

  /** Everything before the 10 most recent messages. */
  function Cutoff(n: nat): (c: nat)
    ensures c <= n
    ensures n >= KeepRecentMessages ==> n - c == KeepRecentMessages
    ensures n < KeepRecentMessages ==> c == 0
  {
    if n > KeepRecentMessages then n - KeepRecentMessages else 0
  }

  /** The messages handed to the summarizer: the Sent ones before the cutoff. */
  function Candidates(msgs: seq<Message>): seq<Message> {
    WithStatus(msgs[..Cutoff(|msgs|)], Sent)
  }

  /** The history after folding the candidates into the summary: the
      candidates are removed, the rest keeps its order. */
  function Compacted(msgs: seq<Message>): seq<Message> {
    var cut := Cutoff(|msgs|);
    WithoutStatus(msgs[..cut], Sent) + msgs[cut..]
  }

  /** The new running summary: the text alone if there was none worth
      keeping, else appended after a blank line. */
  function MergeSummary(previous: Option<string>, text: string): (r: string)
    ensures Blank(previous) ==> r == text
    ensures !Blank(previous) ==> r == previous.value + NewLine + NewLine + text
  {
    if Blank(previous) then text else previous.value + NewLine + NewLine + text
  }

  /** What the summarization call ends with (it is made only when there are candidates). */
  datatype SummaryOutcome = Summarized(text: string) | SummaryFailed

  /** The session after the check, and the messages sent to the summarizer, if any. */
  datatype SummaryStep = SummaryStep(session: ChatSession, request: Option<seq<Message>>)

  /** Compaction applied: only when the summarizer returned non-blank text. */
  predicate Compacts(s: ChatSession, outcome: SummaryOutcome) {
    && NeedsSummary(s.conv.messages) && Candidates(s.conv.messages) != []
    && outcome.Summarized? && !AllWhiteSpace(outcome.text)
  }

  /** The summarization check run after every turn. It calls the summarizer
      iff summarization is due and some candidate exists; a blank result or
      a failure leaves the session untouched; otherwise the summary grows,
      its time is set, and exactly the candidates leave both lists. */
  function SummarizeIfNeeded(s: ChatSession, outcome: SummaryOutcome, now: Timestamp): (r: SummaryStep)
    ensures r.request.Some? <==> NeedsSummary(s.conv.messages) && Candidates(s.conv.messages) != []
    ensures r.request.Some? ==> r.request.value == Candidates(s.conv.messages)
    ensures !Compacts(s, outcome) ==> r.session == s
    ensures Synced(s) ==> Synced(r.session)
    ensures r.session == s.(conv := r.session.conv, view := r.session.view)
    ensures r.session.conv.id == s.conv.id && r.session.conv.mode == s.conv.mode
    ensures Compacts(s, outcome) ==>
      && r.session.conv.summary == Some(MergeSummary(s.conv.summary, outcome.text))
      && r.session.conv.summaryUpdatedAt == Some(now)
      && r.session.conv.messages == Compacted(s.conv.messages)
      && r.session.conv.lastUpdatedAt == s.conv.lastUpdatedAt
      && r.session.conv.title == s.conv.title
  {
    var msgs := s.conv.messages;
    if !NeedsSummary(msgs) then SummaryStep(s, None)
    else
      var cands := Candidates(msgs);
      if cands == [] then SummaryStep(s, None)
      else if Compacts(s, outcome) then
        var conv' := s.conv.(summary := Some(MergeSummary(s.conv.summary, outcome.text)),
                             summaryUpdatedAt := Some(now),
                             messages := Compacted(msgs));
        SummaryStep(s.(conv := conv', view := Compacted(s.view)), Some(cands))
      else SummaryStep(s, Some(cands))
  }

  /** Compaction removes exactly the candidates: together they make up the
      old history, every candidate was Sent, and the 10 most recent messages
      are still the last ones. */
  lemma {:induction false} CompactionRemovesExactlyCandidates(msgs: seq<Message>)
    ensures multiset(Compacted(msgs)) + multiset(Candidates(msgs)) == multiset(msgs)
    ensures |Compacted(msgs)| + |Candidates(msgs)| == |msgs|
    ensures forall i :: 0 <= i < |Candidates(msgs)| ==> Candidates(msgs)[i].status == Sent
    ensures var keep := |msgs| - Cutoff(|msgs|);
      Compacted(msgs)[|Compacted(msgs)| - keep..] == msgs[Cutoff(|msgs|)..]
  {
    var cut := Cutoff(|msgs|);
    StatusPartition(msgs[..cut], Sent);
    assert msgs == msgs[..cut] + msgs[cut..];
  }

  lemma {:induction false} NoneLeftWithStatus(msgs: seq<Message>, st: MessageStatus)
    requires forall i :: 0 <= i < |msgs| ==> msgs[i].status != st
    ensures WithStatus(msgs, st) == []
  {
    if msgs != [] {
      NoneLeftWithStatus(msgs[1..], st);
    }
  }

  /** The older messages that survive keep their order: compacting a history
      whose older part is `a + b` keeps the non-Sent messages of `a`, then
      those of `b`, then the recent ones. */
  lemma CompactionKeepsOrder(msgs: seq<Message>, a: seq<Message>, b: seq<Message>)
    requires msgs[..Cutoff(|msgs|)] == a + b
    ensures Compacted(msgs) == WithoutStatus(a, Sent) + WithoutStatus(b, Sent) + msgs[Cutoff(|msgs|)..]
  {
    WithoutStatusAppend(a, b, Sent);
  }

  /** One message more at the front of the older part: it survives compaction,
      in front of the others, exactly when it is not Sent. */
  lemma CompactionKeepsFront(msgs: seq<Message>, x: Message, b: seq<Message>)
    requires msgs[..Cutoff(|msgs|)] == [x] + b
    ensures x.status != Sent ==>
      Compacted(msgs) == [x] + WithoutStatus(b, Sent) + msgs[Cutoff(|msgs|)..]
    ensures x.status == Sent ==>
      Compacted(msgs) == WithoutStatus(b, Sent) + msgs[Cutoff(|msgs|)..]
  {
    CompactionKeepsOrder(msgs, [x], b);
    WithoutStatusSingle(x, Sent);
  }

  /** Checking again right after a compaction calls the summarizer no more:
      the only messages left before the cutoff are not Sent. */
  lemma SummarizeTwiceCallsOnce(s: ChatSession, outcome: SummaryOutcome, now: Timestamp,
                                outcome2: SummaryOutcome, now2: Timestamp)
    requires Compacts(s, outcome)
    ensures SummarizeIfNeeded(SummarizeIfNeeded(s, outcome, now).session, outcome2, now2).request.None?
  {
    var msgs := s.conv.messages;
    var cut := Cutoff(|msgs|);
    var kept := WithoutStatus(msgs[..cut], Sent);
    var after := Compacted(msgs);
    assert after[..Cutoff(|after|)] == kept;
    NoneLeftWithStatus(kept, Sent);
  }

  /** The automatic title: the message itself up to 40 characters, else its
      first 40 characters followed by "...". */
  function AutoTitle(content: string): (t: string)
    ensures |t| <= TitleLength + 3
    ensures |content| <= TitleLength ==> t == content
    ensures |content| > TitleLength ==> |t| == TitleLength + 3 && t[..TitleLength] == content[..TitleLength] && t[TitleLength..] == "..."
  {
    if |content| > TitleLength then content[..TitleLength] + "..." else content
  }

  /** The auto-title applies to the first message of a conversation whose
      title is blank or still the default. */
  predicate TakesAutoTitle(s: ChatSession) {
    s.view == [] && (AllWhiteSpace(s.title) || s.title == DefaultTitle)
  }

  /** The input box setter. */
  function SetInput(s: ChatSession, text: string): (r: ChatSession)
    ensures r.input == text && r == s.(input := r.input)
    ensures CanSend(r) <==> !s.busy && !AllWhiteSpace(text)
  {
    s.(input := text)
  }

  /** What the chat service answers to this turn, for each kind of call. */
  datatype Transport = Transport(reply: ReplyOutcome, stream: StreamOutcome)

  /** A message a turn left alone, or the user message it marked Sent. */
  predicate KeptOrSent(before: Message, after: Message, userId: Id) {
    after == before || (before.clientId == userId && after == before.(status := Sent))
  }

  /** A turn keeps every earlier message in its place (only the user
      message may turn Sent) and appends at most one message. */
  predicate KeepsHistory(before: seq<Message>, after: seq<Message>, userId: Id) {
    && |before| <= |after| <= |before| + 1
    && forall i :: 0 <= i < |before| ==> KeptOrSent(before[i], after[i], userId)
  }

  /** Whether the call the turn makes succeeds: a reply, or a completed
      stream that delivered some chunk. */
  predicate TurnSucceeds(s: ChatSession, transport: Transport) {
    if s.useStreaming then transport.stream.end == StreamCompleted && transport.stream.chunks != []
    else transport.reply.Replied?
  }

  lemma MarkSentKeeps(msgs: seq<Message>, userId: Id)
    ensures forall i :: 0 <= i < |msgs| ==> KeptOrSent(msgs[i], MutateAll(msgs, userId, MarkSent)[i], userId)
  {
  }

  lemma NonStreamingTurnShape(s: ChatSession, userId: Id, reply: ReplyOutcome, now: Timestamp)
    requires Synced(s) && IdsAtMost(s.conv.messages, userId)
    ensures !HasId(s.conv.messages, userId + 1)
    ensures var before, after := s.conv.messages, NonStreamingTurn(s, userId, userId + 1, reply, now).conv.messages;
      && KeepsHistory(before, after, userId)
      && (!reply.Replied? ==> after[..|before|] == before)
      && (|after| == |before| <==> reply.ReplyCancelled?)
      && (reply.Replied? ==> after[|before|] == reply.message)
      && (reply.ReplyThrew? ==> after[|before|] == FailedWith(TypingPlaceholder(userId + 1, now), reply.error))
  {
    MarkSentKeeps(s.conv.messages, userId);
  }

  lemma StreamingTurnShape(s: ChatSession, userId: Id, outcome: StreamOutcome, now: Timestamp)
    requires Synced(s) && IdsAtMost(s.conv.messages, userId)
    ensures !HasId(s.conv.messages, userId + 1) && !HasId(s.conv.messages, userId + 2)
    ensures var before, after := s.conv.messages, StreamingTurn(s, userId, userId + 1, userId + 2, outcome, now).conv.messages;
      var succeeds := outcome.end == StreamCompleted && outcome.chunks != [];
      && KeepsHistory(before, after, userId)
      && (!succeeds ==> after[..|before|] == before)
      && (|after| == |before| <==> outcome == StreamOutcome([], StreamCancelled))
      && (|after| > |before| ==>
            var added := after[|before|];
            && added.role == Assistant && added.createdAt == now
            && added.clientId == (if outcome.chunks == [] then userId + 1 else userId + 2)
            && (added.status == Sent <==> succeeds))
  {
    MarkSentKeeps(s.conv.messages, userId);
  }

  /** The turn after the user message is in place: the streaming call when
      streaming is on, else the single call. Earlier messages keep their
      place; only on success does the user message turn Sent. The turn
      appends nothing only when the call is cancelled before any chunk;
      otherwise it appends the reply, or an assistant message with the
      placeholder's id (no chunk arrived) or the streamed message's id. */
  function RunTurn(s: ChatSession, userId: Id, transport: Transport, now: Timestamp): (r: ChatSession)
    requires Synced(s) && IdsAtMost(s.conv.messages, userId)
    ensures Synced(r) && SameExceptMessages(s, r)
    ensures KeepsHistory(s.conv.messages, r.conv.messages, userId)
    ensures !TurnSucceeds(s, transport) ==> r.conv.messages[..|s.conv.messages|] == s.conv.messages
    ensures |r.conv.messages| == |s.conv.messages|
      <==> if s.useStreaming then transport.stream == StreamOutcome([], StreamCancelled) else transport.reply.ReplyCancelled?
    ensures !s.useStreaming && transport.reply.Replied? ==> r.conv.messages[|s.conv.messages|] == transport.reply.message
    ensures !s.useStreaming && transport.reply.ReplyThrew? ==>
      r.conv.messages[|s.conv.messages|] == FailedWith(TypingPlaceholder(userId + 1, now), transport.reply.error)
    ensures s.useStreaming && |r.conv.messages| > |s.conv.messages| ==>
      var added := r.conv.messages[|s.conv.messages|];
      && added.role == Assistant && added.createdAt == now
      && added.clientId == (if transport.stream.chunks == [] then userId + 1 else userId + 2)
      && (added.status == Sent <==> TurnSucceeds(s, transport))
  {
    if s.useStreaming then
      StreamingTurnShape(s, userId, transport.stream, now);
      StreamingTurn(s, userId, userId + 1, userId + 2, transport.stream, now)
    else
      NonStreamingTurnShape(s, userId, transport.reply, now);
      NonStreamingTurn(s, userId, userId + 1, transport.reply, now)
  }

  /** The synchronous part of `Send` for a non-blank trimmed text: the
      input is cleared, the user message is appended with the next id, the
      auto-title rule runs, and the session turns busy. */
  function PostUserMessage(s: ChatSession, text: string, userStatus: MessageStatus, now: Timestamp): (r: ChatSession)
    requires Synced(s)
    ensures Synced(r) && r.busy && r.input == []
    ensures r.useStreaming == s.useStreaming && r.wired == s.wired
    ensures r.conv.id == s.conv.id && r.conv.mode == s.conv.mode
    ensures r.conv.messages == s.conv.messages + [Message(FreshId(s.conv.messages), User, text, now, userStatus, None)]
    ensures IdsAtMost(r.conv.messages, FreshId(s.conv.messages))
    ensures r.title == (if TakesAutoTitle(s) then AutoTitle(text) else s.title)
  {
    var s1 := SetInput(s, []);
    var s2 := AddMessage(s1, Message(FreshId(s1.conv.messages), User, text, now, userStatus, None), now);
    var s3 := if |s2.view| == 1 && (AllWhiteSpace(s2.title) || s2.title == DefaultTitle)
              then SetTitle(s2, AutoTitle(text), now) else s2;
    s3.(busy := true)
  }

  /** The user message posted, then the turn it starts. */
  function Turn(s: ChatSession, text: string, userStatus: MessageStatus, transport: Transport, now: Timestamp): (r: ChatSession)
    requires Synced(s)
    ensures Synced(r) && SameExceptMessages(PostUserMessage(s, text, userStatus, now), r)
  {
    RunTurn(PostUserMessage(s, text, userStatus, now), FreshId(s.conv.messages), transport, now)
  }

  /** The turn keeps the history before the posted user message, which
      stays next with its id, role, text and time (turning Sent only on
      success), followed by at most one message. */
  lemma TurnPostsUserMessage(s: ChatSession, text: string, userStatus: MessageStatus, transport: Transport, now: Timestamp)
    requires Synced(s)
    ensures var n, id, t := |s.conv.messages|, FreshId(s.conv.messages), Turn(s, text, userStatus, transport, now).conv.messages;
      && n < |t| <= n + 2 && t[..n] == s.conv.messages
      && KeptOrSent(Message(id, User, text, now, userStatus, None), t[n], id)
  {
    var n, id := |s.conv.messages|, FreshId(s.conv.messages);
    var posted := PostUserMessage(s, text, userStatus, now);
    var t := Turn(s, text, userStatus, transport, now).conv.messages;
    assert KeepsHistory(posted.conv.messages, t, id);
    forall i | 0 <= i < n
      ensures t[i] == s.conv.messages[i]
    {
      assert KeptOrSent(posted.conv.messages[i], t[i], id);
      assert posted.conv.messages[i] == s.conv.messages[i];
    }
    assert KeptOrSent(posted.conv.messages[n], t[n], id);
  }

  /** `Send`: blank input does nothing at all. Otherwise the trimmed text is
      posted as a user message with the initial status `userStatus`, the
      turn runs while busy, the summarization check follows, and the
      session ends not busy. */
  function Send(s: ChatSession, userStatus: MessageStatus, transport: Transport,
                summary: SummaryOutcome, now: Timestamp): (r: ChatSession)
    requires Synced(s)
    ensures AllWhiteSpace(s.input) <==> r == s
    ensures Synced(r)
    ensures !AllWhiteSpace(s.input) ==>
      && !r.busy && r.input == [] && r.useStreaming == s.useStreaming && r.wired == s.wired
      && r.conv.id == s.conv.id && r.conv.mode == s.conv.mode
      && r.title == (if TakesAutoTitle(s) then AutoTitle(Trim(s.input)) else s.title)
  {
    TrimEmptyIffAllWhiteSpace(s.input);
    var text := Trim(s.input);
    if text == [] then s
    else
      var step := SummarizeIfNeeded(Turn(s, text, userStatus, transport, now), summary, now);
      step.session.(busy := false)
  }

  /** Proof step: a non-blank send is the posted user message, the turn,
      and the summarization check, in that order. */
  lemma SendSteps(s: ChatSession, userStatus: MessageStatus, transport: Transport,
                  summary: SummaryOutcome, now: Timestamp)
    requires Synced(s) && !AllWhiteSpace(s.input)
    ensures Send(s, userStatus, transport, summary, now)
      == SummarizeIfNeeded(Turn(s, Trim(s.input), userStatus, transport, now), summary, now).session.(busy := false)
  {
    TrimEmptyIffAllWhiteSpace(s.input);
  }

  /** A non-blank send posts the trimmed input as a user message with the
      next id. It stays among the last two messages, whatever the
      summarization check does; when nothing is summarized, the old history
      is kept in front of it and at most one message follows it. */
  lemma SendPostsUserMessage(s: ChatSession, userStatus: MessageStatus, transport: Transport,
                             summary: SummaryOutcome, now: Timestamp)
    requires Synced(s) && !AllWhiteSpace(s.input)
    ensures var m, n, id := Send(s, userStatus, transport, summary, now).conv.messages, |s.conv.messages|, FreshId(s.conv.messages);
      var user := Message(id, User, Trim(s.input), now, userStatus, None);
      && AmongLastTwo(m, user, id)
      && (!Compacts(Turn(s, Trim(s.input), userStatus, transport, now), summary) ==>
            && n < |m| <= n + 2 && m[..n] == s.conv.messages && KeptOrSent(user, m[n], id))
  {
    var turn := Turn(s, Trim(s.input), userStatus, transport, now);
    SendSteps(s, userStatus, transport, summary, now);
    TurnPostsUserMessage(s, Trim(s.input), userStatus, transport, now);
    SummaryKeepsPosted(turn, |s.conv.messages|, Message(FreshId(s.conv.messages), User, Trim(s.input), now, userStatus, None),
                       FreshId(s.conv.messages), summary, now);
  }

  /** The user message of a turn, possibly marked Sent, is one of the last
      two messages. */
  predicate AmongLastTwo(a: seq<Message>, user: Message, id: Id) {
    |a| >= 1 && (KeptOrSent(user, a[|a| - 1], id) || (|a| >= 2 && KeptOrSent(user, a[|a| - 2], id)))
  }

  lemma EndsWithPosted(a: seq<Message>, tail: seq<Message>, user: Message, id: Id)
    requires EndsWith(a, tail) && 1 <= |tail| <= 2 && KeptOrSent(user, tail[0], id)
    ensures AmongLastTwo(a, user, id)
  {
    assert a[|a| - |tail|] == tail[0];
  }

  /** A message at most one from the end survives the summarization check
      among the last two; without compaction nothing changes. */
  lemma SummaryKeepsPosted(t: ChatSession, n: nat, user: Message, id: Id, summary: SummaryOutcome, now: Timestamp)
    requires n < |t.conv.messages| <= n + 2 && KeptOrSent(user, t.conv.messages[n], id)
    ensures AmongLastTwo(SummarizeIfNeeded(t, summary, now).session.conv.messages, user, id)
    ensures !Compacts(t, summary) ==> SummarizeIfNeeded(t, summary, now).session.conv.messages == t.conv.messages
  {
    var tail := t.conv.messages[n..];
    assert t.conv.messages == t.conv.messages[..n] + tail;
    SummarizeEndsWith(t, summary, now, t.conv.messages[..n], tail);
    EndsWithPosted(SummarizeIfNeeded(t, summary, now).session.conv.messages, tail, user, id);
  }

  /** With streaming on only the stream matters: the single call's answer
      never reaches the session. */
  lemma StreamingIgnoresReply(s: ChatSession, userId: Id, reply1: ReplyOutcome, reply2: ReplyOutcome,
                              stream: StreamOutcome, now: Timestamp)
    requires Synced(s) && IdsAtMost(s.conv.messages, userId) && s.useStreaming
    ensures RunTurn(s, userId, Transport(reply1, stream), now) == RunTurn(s, userId, Transport(reply2, stream), now)
  {
  }

  /** With streaming off only the single call matters: no stream is read. */
  lemma SingleCallIgnoresStream(s: ChatSession, userId: Id, reply: ReplyOutcome,
                                stream1: StreamOutcome, stream2: StreamOutcome, now: Timestamp)
    requires Synced(s) && IdsAtMost(s.conv.messages, userId) && !s.useStreaming
    ensures RunTurn(s, userId, Transport(reply, stream1), now) == RunTurn(s, userId, Transport(reply, stream2), now)
  {
  }

  /** Proof step: with streaming on, the turn is the streaming one. */
  lemma RunTurnStreams(s: ChatSession, userId: Id, transport: Transport, now: Timestamp)
    requires Synced(s) && IdsAtMost(s.conv.messages, userId)
    requires s.useStreaming
    ensures RunTurn(s, userId, transport, now) == StreamingTurn(s, userId, userId + 1, userId + 2, transport.stream, now)
  {
  }

  /** Posting the first message of an empty, untitled conversation gives
      it id 0 and names the conversation after it. */
  lemma FirstPost(s: ChatSession, text: string, now: Timestamp)
    requires Synced(s) && s.conv.messages == [] && (AllWhiteSpace(s.title) || s.title == DefaultTitle)
    requires |text| <= TitleLength
    ensures var posted := PostUserMessage(s, text, Sending, now);
      && posted.conv.messages == [Message(0, User, text, now, Sending, None)]
      && posted.title == text && posted.useStreaming == s.useStreaming
  {
    assert FreshId(s.conv.messages) == 0;
    assert TakesAutoTitle(s);
  }

  /** A completed stream with chunks after a lone user message leaves the
      question and the whole answer Sent, and cannot be summarized. */
  lemma FirstTurn(posted: ChatSession, transport: Transport, summary: SummaryOutcome, now: Timestamp)
    requires Synced(posted) && posted.useStreaming
    requires |posted.conv.messages| == 1 && posted.conv.messages[0].clientId == 0
    requires transport.stream.chunks != [] && transport.stream.end == StreamCompleted
    ensures var r := SummarizeIfNeeded(RunTurn(posted, 0, transport, now), summary, now).session;
      && r.conv.messages == [posted.conv.messages[0].(status := Sent),
                             Message(2, Assistant, Concat(transport.stream.chunks), now, Sent, None)]
      && r.title == posted.title && Synced(r)
  {
    var user := posted.conv.messages[0];
    RunTurnStreams(posted, 0, transport, now);
    assert MutateAll([user], 0, MarkSent) == [user.(status := Sent)];
    var turn := RunTurn(posted, 0, transport, now);
    assert turn.conv.messages == [user.(status := Sent), StreamingMessage(2, Concat(transport.stream.chunks), now).(status := Sent)];
    assert Candidates(turn.conv.messages) == [];
  }

  /** The first exchange of an empty, untitled conversation, streamed to
      completion: the question and the full answer end Sent, in that order,
      and the conversation is named after the question (at most 40
      characters here). No summarization can apply to two messages. */
  lemma FirstStreamedExchange(conv: Conversation, input: string, reply: ReplyOutcome, chunks: seq<string>,
                              summary: SummaryOutcome, openedAt: Timestamp, now: Timestamp)
    requires conv.messages == [] && (AllWhiteSpace(conv.title) || conv.title == DefaultTitle)
    requires !AllWhiteSpace(input) && |Trim(input)| <= TitleLength && chunks != []
    ensures var s := SetInput(Open(conv, openedAt), input);
      var r := Send(s, Sending, Transport(reply, StreamOutcome(chunks, StreamCompleted)), summary, now);
      && r.conv.messages == [Message(0, User, Trim(input), now, Sent, None),
                             Message(2, Assistant, Concat(chunks), now, Sent, None)]
      && r.title == Trim(input) && r.conv.title == Trim(input) && !r.busy
  {
    var s := SetInput(Open(conv, openedAt), input);
    var t := Transport(reply, StreamOutcome(chunks, StreamCompleted));
    SendSteps(s, Sending, t, summary, now);
    var posted := PostUserMessage(s, Trim(input), Sending, now);
    FirstPost(s, Trim(input), now);
    assert Turn(s, Trim(input), Sending, t, now) == RunTurn(posted, 0, t, now);
    FirstTurn(posted, t, summary, now);
  }

  lemma AppendPair(a: seq<Message>, x: Message, y: Message)
    ensures (a + [x]) + [y] == a + [x, y]
  {
  }

  /** What a send whose stream throws before any chunk appends: the user
      message in its initial state and the placeholder, failed with the
      exception's text. */
  function FailedExchange(s: ChatSession, transport: Transport, now: Timestamp): seq<Message>
    requires transport.stream.end.StreamThrew?
  {
    [Message(FreshId(s.conv.messages), User, Trim(s.input), now, Sending, None),
     FailedWith(TypingPlaceholder(FreshId(s.conv.messages) + 1, now), transport.stream.end.error)]
  }

  /** A streamed turn whose stream throws before any chunk leaves the
      placeholder, failed with the exception's text, after the history. */
  lemma TurnThrowsBeforeFirstChunk(posted: ChatSession, userId: Id, transport: Transport, now: Timestamp)
    requires Synced(posted) && IdsAtMost(posted.conv.messages, userId) && posted.useStreaming
    requires transport.stream.chunks == [] && transport.stream.end.StreamThrew?
    ensures RunTurn(posted, userId, transport, now).conv.messages
         == posted.conv.messages + [FailedWith(TypingPlaceholder(userId + 1, now), transport.stream.end.error)]
  {
    RunTurnStreams(posted, userId, transport, now);
  }

  /** A streamed turn cancelled after some chunks leaves the partial
      answer, still Streaming, after the history. */
  lemma TurnCancelledAfterChunks(posted: ChatSession, userId: Id, transport: Transport, now: Timestamp)
    requires Synced(posted) && IdsAtMost(posted.conv.messages, userId) && posted.useStreaming
    requires transport.stream.chunks != [] && transport.stream.end == StreamCancelled
    ensures RunTurn(posted, userId, transport, now).conv.messages
         == posted.conv.messages + [StreamingMessage(userId + 2, Concat(transport.stream.chunks), now)]
  {
    RunTurnStreams(posted, userId, transport, now);
  }

  /** The turn of a send whose stream fails before its first chunk appends
      the user message, left in its initial state, and the placeholder,
      failed with the exception's text. */
  lemma StreamFailsBeforeFirstChunk(s: ChatSession, transport: Transport, now: Timestamp)
    requires Synced(s) && s.useStreaming
    requires transport.stream.chunks == [] && transport.stream.end.StreamThrew?
    ensures Turn(s, Trim(s.input), Sending, transport, now).conv.messages == s.conv.messages + FailedExchange(s, transport, now)
  {
    var userId := FreshId(s.conv.messages);
    var posted := PostUserMessage(s, Trim(s.input), Sending, now);
    var user := Message(userId, User, Trim(s.input), now, Sending, None);
    assert posted.conv.messages == s.conv.messages + [user];
    assert Turn(s, Trim(s.input), Sending, transport, now) == RunTurn(posted, userId, transport, now);
    TurnThrowsBeforeFirstChunk(posted, userId, transport, now);
    var failed := FailedWith(TypingPlaceholder(userId + 1, now), transport.stream.end.error);
    assert Turn(s, Trim(s.input), Sending, transport, now).conv.messages == posted.conv.messages + [failed];
    AppendPair(s.conv.messages, user, failed);
    assert FailedExchange(s, transport, now) == [user, failed];
  }

  /** A history of at most ten messages is never summarized. */
  lemma ShortHistoryKept(t: ChatSession, summary: SummaryOutcome, now: Timestamp)
    requires |t.conv.messages| <= KeepRecentMessages
    ensures SummarizeIfNeeded(t, summary, now).session == t
  {
    assert Candidates(t.conv.messages) == [];
  }

  /** In a history of at most ten messages after the turn, nothing is
      summarized: the send leaves exactly what the turn produced. */
  lemma ShortSendKeepsTurn(s: ChatSession, userStatus: MessageStatus, transport: Transport,
                           summary: SummaryOutcome, now: Timestamp, tail: seq<Message>)
    requires Synced(s) && !AllWhiteSpace(s.input) && |s.conv.messages| + |tail| <= KeepRecentMessages
    requires Turn(s, Trim(s.input), userStatus, transport, now).conv.messages == s.conv.messages + tail
    ensures Send(s, userStatus, transport, summary, now).conv.messages == s.conv.messages + tail
  {
    SendSteps(s, userStatus, transport, summary, now);
    ShortHistoryKept(Turn(s, Trim(s.input), userStatus, transport, now), summary, now);
  }

  /** A short send whose stream fails before any chunk appends the user
      message, still in its initial state, and the failed placeholder. */
  lemma FailedSendAppends(s: ChatSession, t: Transport, summary: SummaryOutcome, now: Timestamp)
    requires Synced(s) && s.useStreaming && !AllWhiteSpace(s.input)
    requires |s.conv.messages| + 2 <= KeepRecentMessages
    requires t.stream.chunks == [] && t.stream.end.StreamThrew?
    ensures Send(s, Sending, t, summary, now).conv.messages == s.conv.messages + FailedExchange(s, t, now)
  {
    StreamFailsBeforeFirstChunk(s, t, now);
    ShortSendKeepsTurn(s, Sending, t, summary, now, FailedExchange(s, t, now));
  }

  /** The statuses a short failed send leaves: the history is kept, then
      the user message is still Sending and its placeholder Failed. */
  lemma FailedSendStatuses(s: ChatSession, t: Transport, summary: SummaryOutcome, now: Timestamp)
    requires Synced(s) && s.useStreaming && !AllWhiteSpace(s.input)
    requires |s.conv.messages| + 2 <= KeepRecentMessages
    requires t.stream.chunks == [] && t.stream.end.StreamThrew?
    ensures var m, n := Send(s, Sending, t, summary, now).conv.messages, |s.conv.messages|;
      && |m| == n + 2 && m[..n] == s.conv.messages
      && m[n].status == Sending && m[n + 1].status == Failed
  {
    FailedSendAppends(s, t, summary, now);
  }

  /** A failed first send leaves one failed exchange, ready for the next
      input. */
  lemma FirstFailedSend(s: ChatSession, t: Transport, summary: SummaryOutcome, now: Timestamp, next: string)
    requires Synced(s) && s.conv.messages == [] && s.useStreaming && !AllWhiteSpace(s.input)
    requires t.stream.chunks == [] && t.stream.end.StreamThrew?
    ensures var s1 := SetInput(Send(s, Sending, t, summary, now), next);
      && Synced(s1) && s1.useStreaming && s1.input == next
      && |s1.conv.messages| == 2 && s1.conv.messages[0].status == Sending && s1.conv.messages[1].status == Failed
  {
    FailedSendStatuses(s, t, summary, now);
    var r1 := Send(s, Sending, t, summary, now);
    assert Synced(r1) && r1.useStreaming;
    assert SetInput(r1, next).conv == r1.conv;
  }

  /** A failed send after one failed exchange leaves a second one. */
  lemma SecondFailedSend(s: ChatSession, t: Transport, summary: SummaryOutcome, now: Timestamp)
    requires Synced(s) && s.useStreaming && !AllWhiteSpace(s.input)
    requires |s.conv.messages| == 2 && s.conv.messages[0].status == Sending && s.conv.messages[1].status == Failed
    requires t.stream.chunks == [] && t.stream.end.StreamThrew?
    ensures var m := Send(s, Sending, t, summary, now).conv.messages;
      && |m| == 4
      && m[0].status == Sending && m[2].status == Sending
      && m[1].status == Failed && m[3].status == Failed
  {
    FailedSendStatuses(s, t, summary, now);
    var m := Send(s, Sending, t, summary, now).conv.messages;
    assert m[0] == m[..2][0] && m[1] == m[..2][1];
  }

  /** With a Sending start, two sends whose streams fail before any chunk
      leave two user messages Sending at once, each followed by its failed
      placeholder. */
  lemma FailedTurnsLeaveUserMessagesSending(s: ChatSession, t1: Transport, t2: Transport, summary: SummaryOutcome,
                                            second: string, now1: Timestamp, now2: Timestamp)
    requires Synced(s) && s.conv.messages == [] && s.useStreaming
    requires !AllWhiteSpace(s.input) && !AllWhiteSpace(second)
    requires t1.stream.chunks == [] && t1.stream.end.StreamThrew?
    requires t2.stream.chunks == [] && t2.stream.end.StreamThrew?
    ensures var r1 := Send(s, Sending, t1, summary, now1);
      var r2 := Send(SetInput(r1, second), Sending, t2, summary, now2);
      && |r2.conv.messages| == 4
      && r2.conv.messages[0].status == Sending && r2.conv.messages[2].status == Sending
      && r2.conv.messages[1].status == Failed && r2.conv.messages[3].status == Failed
  {
    FirstFailedSend(s, t1, summary, now1, second);
    SecondFailedSend(SetInput(Send(s, Sending, t1, summary, now1), second), t2, summary, now2);
  }

  lemma SuffixOfAppend<T>(a: seq<T>, b: seq<T>, k: nat)
    requires k <= |b|
    ensures |a + b| >= k && (a + b)[|a + b| - k..] == b[|b| - k..]
  {
  }

  /** The most recent messages (up to ten) survive the summarization
      check unchanged and stay last. */
  lemma {:induction false} SummarizeKeepsRecent(s: ChatSession, outcome: SummaryOutcome, now: Timestamp, k: nat)
    requires k <= KeepRecentMessages && k <= |s.conv.messages|
    ensures var m := s.conv.messages;
      var after := SummarizeIfNeeded(s, outcome, now).session.conv.messages;
      |after| >= k && after[|after| - k..] == m[|m| - k..]
  {
    var m := s.conv.messages;
    if Compacts(s, outcome) {
      var cut := Cutoff(|m|);
      var older := WithoutStatus(m[..cut], Sent);
      assert Compacted(m) == older + m[cut..];
      SuffixOfAppend(older, m[cut..], k);
      assert m[cut..][|m| - cut - k..] == m[|m| - k..];
    }
  }

  /** `tail` is the last part of `msgs`. */
  predicate EndsWith(msgs: seq<Message>, tail: seq<Message>) {
    |msgs| >= |tail| && msgs[|msgs| - |tail|..] == tail
  }

  /** Up to ten messages that end the history still end it after the
      summarization check. */
  lemma SummarizeEndsWith(t: ChatSession, summary: SummaryOutcome, now: Timestamp, base: seq<Message>, tail: seq<Message>)
    requires t.conv.messages == base + tail && |tail| <= KeepRecentMessages
    ensures EndsWith(SummarizeIfNeeded(t, summary, now).session.conv.messages, tail)
  {
    SummarizeKeepsRecent(t, summary, now, |tail|);
    assert t.conv.messages[|t.conv.messages| - |tail|..] == tail;
  }

  /** Whatever the turn appends to a non-blank send's history survives the
      summarization check as the last messages, when it is at most ten. */
  lemma SendEndsWithTurn(s: ChatSession, userStatus: MessageStatus, transport: Transport,
                         summary: SummaryOutcome, now: Timestamp, tail: seq<Message>)
    requires Synced(s) && !AllWhiteSpace(s.input) && |tail| <= KeepRecentMessages
    requires Turn(s, Trim(s.input), userStatus, transport, now).conv.messages == s.conv.messages + tail
    ensures EndsWith(Send(s, userStatus, transport, summary, now).conv.messages, tail)
  {
    SendSteps(s, userStatus, transport, summary, now);
    SummarizeEndsWith(Turn(s, Trim(s.input), userStatus, transport, now), summary, now, s.conv.messages, tail);
  }

  /** What a send cancelled mid-stream leaves at the end of the history:
      the user message in its initial state and the partial answer, still
      Streaming. */
  function PartialExchange(s: ChatSession, transport: Transport, now: Timestamp): seq<Message> {
    [Message(FreshId(s.conv.messages), User, Trim(s.input), now, Sending, None),
     StreamingMessage(FreshId(s.conv.messages) + 2, Concat(transport.stream.chunks), now)]
  }

  /** The turn of a send cancelled after some chunks appends the user
      message, left in its initial state, and the partial answer, still
      Streaming; the placeholder is gone. */
  lemma CancelledStreamTurn(s: ChatSession, transport: Transport, now: Timestamp)
    requires Synced(s) && s.useStreaming
    requires transport.stream.chunks != [] && transport.stream.end == StreamCancelled
    ensures Turn(s, Trim(s.input), Sending, transport, now).conv.messages == s.conv.messages + PartialExchange(s, transport, now)
  {
    var userId := FreshId(s.conv.messages);
    var posted := PostUserMessage(s, Trim(s.input), Sending, now);
    var user := Message(userId, User, Trim(s.input), now, Sending, None);
    assert posted.conv.messages == s.conv.messages + [user];
    assert Turn(s, Trim(s.input), Sending, transport, now) == RunTurn(posted, userId, transport, now);
    TurnCancelledAfterChunks(posted, userId, transport, now);
    var partial := StreamingMessage(userId + 2, Concat(transport.stream.chunks), now);
    assert Turn(s, Trim(s.input), Sending, transport, now).conv.messages == posted.conv.messages + [partial];
    AppendPair(s.conv.messages, user, partial);
    assert PartialExchange(s, transport, now) == [user, partial];
  }

  /** Cancelling a stream after some chunks keeps the partial answer: the
      history ends with the user message, not marked Sent, and the streamed
      text in a message still marked Streaming. */
  lemma CancelledStreamKeepsPartialAnswer(s: ChatSession, transport: Transport, summary: SummaryOutcome, now: Timestamp)
    requires Synced(s) && s.useStreaming && !AllWhiteSpace(s.input)
    requires transport.stream.chunks != [] && transport.stream.end == StreamCancelled
    ensures EndsWith(Send(s, Sending, transport, summary, now).conv.messages, PartialExchange(s, transport, now))
  {
    CancelledStreamTurn(s, transport, now);
    SendEndsWithTurn(s, Sending, transport, summary, now, PartialExchange(s, transport, now));
  }
}

=== FILE: sorting.dfy ===
/** The stable ordering LINQ's `OrderBy` / `OrderByDescending` perform,
    as an insertion sort on an integer key. Stability is stated key by key:
    the elements sharing a key keep their original relative order. */
module StableSort {

  /** Keys are non-decreasing along `s`. */
  predicate SortedBy<T>(s: seq<T>, key: T -> int) {
    forall i, j :: 0 <= i < j < |s| ==> key(s[i]) <= key(s[j])
  }

  /** The elements of `s` whose key is `k`, in their order in `s`. */
  function WithKey<T>(s: seq<T>, key: T -> int, k: int): seq<T> {
    if s == [] then []
    else (if key(s[0]) == k then [s[0]] else []) + WithKey(s[1..], key, k)
  }

  lemma {:induction false} WithKeyAppend<T>(a: seq<T>, b: seq<T>, key: T -> int)
    ensures forall k :: WithKey(a + b, key, k) == WithKey(a, key, k) + WithKey(b, key, k)
  {
    if a == [] {
      assert a + b == b;
    } else {
      assert (a + b)[1..] == a[1..] + b;
      WithKeyAppend(a[1..], b, key);
    }
  }

  lemma WithKeySingleton<T>(x: T, key: T -> int)
    ensures forall k :: WithKey([x], key, k) == (if key(x) == k then [x] else [])
  {
    assert [x][1..] == [];
  }

  /** Places `x` after every element of `t` whose key is at most `x`'s. */
  function Insert<T>(t: seq<T>, x: T, key: T -> int): (r: seq<T>)
    ensures |r| == |t| + 1
    decreases |t|
  {
    if |t| == 0 then [x]
    else if key(t[|t| - 1]) <= key(x) then t + [x]
    else Insert(t[..|t| - 1], x, key) + [t[|t| - 1]]
  }

  lemma {:induction false} InsertMultiset<T>(t: seq<T>, x: T, key: T -> int)
    ensures multiset(Insert(t, x, key)) == multiset(t) + multiset{x}
    decreases |t|
  {
    if |t| > 0 && key(t[|t| - 1]) > key(x) {
      InsertMultiset(t[..|t| - 1], x, key);
      assert t == t[..|t| - 1] + [t[|t| - 1]];
    }
  }

  lemma {:induction false} InsertSorted<T>(t: seq<T>, x: T, key: T -> int)
    requires SortedBy(t, key)
    ensures SortedBy(Insert(t, x, key), key)
    decreases |t|
  {
    if |t| > 0 && key(t[|t| - 1]) > key(x) {
      var init, last := t[..|t| - 1], t[|t| - 1];
      var r' := Insert(init, x, key);
      InsertSorted(init, x, key);
      InsertMultiset(init, x, key);
      forall i | 0 <= i < |r'|
        ensures key(r'[i]) <= key(last)
      {
        assert r'[i] in multiset(r');
        if r'[i] != x {
          assert r'[i] in multiset(init);
        }
      }
    }
  }

  lemma {:induction false} InsertWithKey<T>(t: seq<T>, x: T, key: T -> int)
    ensures forall k :: WithKey(Insert(t, x, key), key, k) == WithKey(t, key, k) + (if key(x) == k then [x] else [])
    decreases |t|
  {
    WithKeySingleton(x, key);
    if |t| == 0 {
    } else if key(t[|t| - 1]) <= key(x) {
      WithKeyAppend(t, [x], key);
    } else {
      var init, last := t[..|t| - 1], t[|t| - 1];
      var r' := Insert(init, x, key);
      InsertWithKey(init, x, key);
      assert t == init + [last];
      WithKeyAppend(init, [last], key);
      WithKeyAppend(r', [last], key);
      WithKeySingleton(last, key);
    }
  }

  /** `OrderBy(key)`: a stable sort of `s` by `key`. */
  function SortBy<T>(s: seq<T>, key: T -> int): (r: seq<T>)
    ensures |r| == |s| && multiset(r) == multiset(s)
    ensures SortedBy(r, key)
    ensures forall k :: WithKey(r, key, k) == WithKey(s, key, k)
    decreases |s|
  {
    if s == [] then
      []
    else
      var init, last := s[..|s| - 1], s[|s| - 1];
      assert s == init + [last];
      WithKeyAppend(init, [last], key);
      WithKeySingleton(last, key);
      var sorted := SortBy(init, key);
      InsertMultiset(sorted, last, key);
      InsertSorted(sorted, last, key);
      InsertWithKey(sorted, last, key);
      Insert(sorted, last, key)
  }

  /** An element whose key is strictly below every other key is sorted
      first. */
  lemma UniqueMinimumFirst<T>(s: seq<T>, key: T -> int, p: nat)
    requires p < |s|
    requires forall j :: 0 <= j < |s| && j != p ==> key(s[p]) < key(s[j])
    ensures SortBy(s, key)[0] == s[p]
  {
    var r := SortBy(s, key);
    assert s[p] in multiset(r);
    var k :| 0 <= k < |r| && r[k] == s[p];
    assert r[0] in multiset(s);
    var z :| 0 <= z < |s| && s[z] == r[0];
    assert key(r[0]) <= key(r[k]);
  }

  /** An already ordered sequence is left exactly as it is. */
  lemma {:induction false} SortedIsUnchanged<T>(s: seq<T>, key: T -> int)
    requires SortedBy(s, key)
    ensures SortBy(s, key) == s
  {
    if s != [] {
      var init, last := s[..|s| - 1], s[|s| - 1];
      assert SortedBy(init, key) by {
        forall i, j | 0 <= i < j < |init|
          ensures key(init[i]) <= key(init[j])
        {
          assert init[i] == s[i] && init[j] == s[j];
        }
      }
      SortedIsUnchanged(init, key);
      if init != [] {
        assert init[|init| - 1] == s[|s| - 2];
      }
      assert Insert(init, last, key) == init + [last];
      assert s == init + [last];
    }
  }
}

=== FILE: store.dfy ===
/** The JSON file store: the whole collection of conversations lives in one
    file that every operation reads back in full, normalizing interrupted
    messages to Failed, and every write replaces in full. */
module ConversationStore {
  import opened Optional
  import opened Domain
  import StableSort

  /** The file's content as the deserializer sees it: `None` when the file
      does not exist or holds JSON `null`, else the stored list. */
  type StoreFile = Option<seq<Conversation>>

  /** The states an interrupted operation can leave behind. */
  predicate Transient(st: MessageStatus) {
    st == Sending || st == Typing || st == Streaming
  }

  /** Load-time repair of one message: a transient state becomes Failed;
      content and error text stay as stored. */
  function NormalizeMessage(m: Message): (r: Message)
    ensures !Transient(r.status)
    ensures r == m.(status := r.status)
    ensures Transient(m.status) <==> r.status != m.status
    ensures Transient(m.status) ==> r.status == Failed
    ensures !Transient(m.status) ==> r == m
  {
    if Transient(m.status) then m.(status := Failed) else m
  }

  /** No message of `c` is in a transient state. */
  predicate Normalized(c: Conversation) {
    forall i :: 0 <= i < |c.messages| ==> !Transient(c.messages[i].status)
  }

  /** Load-time repair of a conversation: every message repaired, in place. */
  function NormalizeConversation(c: Conversation): (r: Conversation)
    ensures Normalized(r)
    ensures r == c.(messages := r.messages) && |r.messages| == |c.messages|
    ensures forall i :: 0 <= i < |c.messages| ==> r.messages[i] == NormalizeMessage(c.messages[i])
  {
    c.(messages := seq(|c.messages|, i requires 0 <= i < |c.messages| => NormalizeMessage(c.messages[i])))
  }

  /** Repairing a repaired conversation changes nothing. */
  lemma NormalizeIdempotent(c: Conversation)
    ensures NormalizeConversation(NormalizeConversation(c)) == NormalizeConversation(c)
  {
    var n := NormalizeConversation(c);
    assert NormalizeConversation(n).messages == n.messages;
  }

  /** A conversation without transient messages is left as it is. */
  lemma NormalizedIsUnchanged(c: Conversation)
    requires Normalized(c)
    ensures NormalizeConversation(c) == c
  {
    assert NormalizeConversation(c).messages == c.messages;
  }

  /** Every read: the stored list with each conversation repaired, or the
      empty list when there is no file. */
  function LoadAll(f: StoreFile): (r: seq<Conversation>)
    ensures f.None? ==> r == []
    ensures f.Some? ==> |r| == |f.value| && forall i :: 0 <= i < |r| ==> r[i] == NormalizeConversation(f.value[i])
    ensures forall i :: 0 <= i < |r| ==> Normalized(r[i])
  {
    match f
    case None => []
    case Some(all) => seq(|all|, i requires 0 <= i < |all| => NormalizeConversation(all[i]))
  }

  /** Reading a file that holds what a read returned gives the same list. */
  lemma LoadAllIdempotent(f: StoreFile)
    ensures LoadAll(Some(LoadAll(f))) == LoadAll(f)
  {
    var all := LoadAll(f);
    forall i | 0 <= i < |all|
      ensures LoadAll(Some(all))[i] == all[i]
    {
      NormalizedIsUnchanged(all[i]);
    }
  }

  /** The position of the first conversation with `id`, as `FindIndex` and
      `FirstOrDefault` search. */
  function FirstIndex(all: seq<Conversation>, id: Id): (r: Option<nat>)
    ensures r.None? <==> forall j :: 0 <= j < |all| ==> all[j].id != id
    ensures r.Some? ==> r.value < |all| && all[r.value].id == id
    ensures r.Some? ==> forall j :: 0 <= j < r.value ==> all[j].id != id
  {
    if all == [] then None
    else if all[0].id == id then Some(0)
    else
      match FirstIndex(all[1..], id)
      case None => None
      case Some(i) => Some(i + 1)
  }

  /** The first position holding `id` is determined by those properties. */
  lemma FirstIndexUnique(all: seq<Conversation>, id: Id, i: nat)
    requires i < |all| && all[i].id == id
    requires forall j :: 0 <= j < i ==> all[j].id != id
    ensures FirstIndex(all, id) == Some(i)
  {
    var r := FirstIndex(all, id);
    if r.Some? && r.value != i {
      assert false;
    }
  }

  /** Two lists with the same ids position by position are searched alike. */
  lemma FirstIndexSameIds(a: seq<Conversation>, b: seq<Conversation>, id: Id)
    requires |a| == |b| && forall j :: 0 <= j < |a| ==> a[j].id == b[j].id
    ensures FirstIndex(a, id) == FirstIndex(b, id)
  {
    var r := FirstIndex(a, id);
    if r.Some? {
      FirstIndexUnique(b, id, r.value);
    }
  }

  /** `LoadConversationAsync`: the first stored conversation with `id`,
      repaired, or nothing. */
  function LoadConversation(f: StoreFile, id: Id): (r: Option<Conversation>)
    ensures r.None? <==> forall j :: 0 <= j < |LoadAll(f)| ==> LoadAll(f)[j].id != id
    ensures r.Some? ==> r.value.id == id && r.value in LoadAll(f) && Normalized(r.value)
    ensures r.Some? ==> FirstIndex(LoadAll(f), id).Some? && r.value == LoadAll(f)[FirstIndex(LoadAll(f), id).value]
  {
    var all := LoadAll(f);
    match FirstIndex(all, id)
    case None => None
    case Some(i) => Some(all[i])
  }

  /** What `SaveConversationAsync` writes for `c`: the conversation with its
      last-updated time set to the save time (the caller's object is
      updated in place as well). */
  function Saved(c: Conversation, now: Timestamp): Conversation {
    c.(lastUpdatedAt := now)
  }

  /** `SaveConversationAsync`: the repaired list, with the first
      conversation sharing `c`'s id replaced in place, or `c` appended when
      there is none; the file is then rewritten. */
  function Save(f: StoreFile, c: Conversation, now: Timestamp): (r: StoreFile)
    ensures r.Some?
    ensures var all := LoadAll(f);
      match FirstIndex(all, c.id)
      case Some(i) =>
        |r.value| == |all| && r.value[i] == Saved(c, now)
        && forall j :: 0 <= j < |all| && j != i ==> r.value[j] == all[j]
      case None =>
        r.value == all + [Saved(c, now)]
  {
    var all := LoadAll(f);
    match FirstIndex(all, c.id)
    case Some(i) => Some(all[i := Saved(c, now)])
    case None => Some(all + [Saved(c, now)])
  }

  /** Loading what was just saved gives the saved conversation back, with
      the save time and any interrupted message repaired. */
  lemma {:induction false} SaveThenLoad(f: StoreFile, c: Conversation, now: Timestamp)
    ensures LoadConversation(Save(f, c, now), c.id) == Some(NormalizeConversation(Saved(c, now)))
  {
    var all := LoadAll(f);
    var after := LoadAll(Save(f, c, now));
    match FirstIndex(all, c.id)
    case Some(i) =>
      FirstIndexUnique(after, c.id, i);
    case None =>
      FirstIndexUnique(after, c.id, |all|);
  }

  /** Saving one conversation leaves every other one loadable as before. */
  lemma {:induction false} SaveKeepsOthers(f: StoreFile, c: Conversation, now: Timestamp, id: Id)
    requires id != c.id
    ensures LoadConversation(Save(f, c, now), id) == LoadConversation(f, id)
  {
    var all := LoadAll(f);
    var after := LoadAll(Save(f, c, now));
    LoadAllIdempotent(f);
    match FirstIndex(all, c.id)
    case Some(i) =>
      FirstIndexSameIds(all, after, id);
      var r := FirstIndex(all, id);
      if r.Some? {
        assert r.value != i;
        NormalizedIsUnchanged(all[r.value]);
      }
    case None =>
      var r := FirstIndex(all, id);
      if r.Some? {
        FirstIndexUnique(after, id, r.value);
        NormalizedIsUnchanged(all[r.value]);
      } else {
        assert forall j :: 0 <= j < |after| ==> after[j].id != id by {
          forall j | 0 <= j < |after| ensures after[j].id != id {
            if j < |all| { assert after[j].id == all[j].id; }
          }
        }
      }
  }

  /** The stored conversations without `id`, in their order. */
  function WithoutId(all: seq<Conversation>, id: Id): (r: seq<Conversation>)
    ensures |r| <= |all|
  {
    if all == [] then []
    else (if all[0].id == id then [] else [all[0]]) + WithoutId(all[1..], id)
  }

  /** Exactly the conversations with another id remain. */
  lemma {:induction false} WithoutIdMembers(all: seq<Conversation>, id: Id)
    ensures forall x :: x in WithoutId(all, id) <==> x in all && x.id != id
  {
    if all != [] {
      WithoutIdMembers(all[1..], id);
      assert all == [all[0]] + all[1..];
    }
  }

  /** Filtering distributes over concatenation: each part is filtered on
      its own and the parts keep their order. */
  lemma {:induction false} WithoutIdAppend(a: seq<Conversation>, b: seq<Conversation>, id: Id)
    ensures WithoutId(a + b, id) == WithoutId(a, id) + WithoutId(b, id)
  {
    if a != [] {
      assert (a + b)[0] == a[0];
      assert (a + b)[1..] == a[1..] + b;
      WithoutIdAppend(a[1..], b, id);
    } else {
      assert a + b == b;
    }
  }

  /** A single conversation is dropped exactly when it has `id`. */
  lemma WithoutIdSingle(x: Conversation, id: Id)
    ensures WithoutId([x], id) == if x.id == id then [] else [x]
  {
    assert [x][1..] == [];
  }

  /** Without any conversation holding `id`, nothing is dropped. */
  lemma {:induction false} WithoutIdAbsent(all: seq<Conversation>, id: Id)
    requires forall j :: 0 <= j < |all| ==> all[j].id != id
    ensures WithoutId(all, id) == all
  {
    if all != [] {
      WithoutIdAbsent(all[1..], id);
    }
  }

  /** `DeleteConversationAsync`: every conversation with `id` is removed,
      the rest keep their order, and the file is rewritten. */
  function Delete(f: StoreFile, id: Id): (r: StoreFile)
    ensures r.Some? && |r.value| <= |LoadAll(f)|
    ensures forall x :: x in r.value <==> x in LoadAll(f) && x.id != id
    ensures (forall j :: 0 <= j < |LoadAll(f)| ==> LoadAll(f)[j].id != id) ==> r.value == LoadAll(f)
  {
    WithoutIdMembers(LoadAll(f), id);
    assert (forall j :: 0 <= j < |LoadAll(f)| ==> LoadAll(f)[j].id != id) ==> WithoutId(LoadAll(f), id) == LoadAll(f) by {
      if forall j :: 0 <= j < |LoadAll(f)| ==> LoadAll(f)[j].id != id {
        WithoutIdAbsent(LoadAll(f), id);
      }
    }
    Some(WithoutId(LoadAll(f), id))
  }

  /** Deleting from a list read as two parts deletes from each part and
      keeps the parts in order. */
  lemma DeleteSplits(f: StoreFile, id: Id, a: seq<Conversation>, b: seq<Conversation>)
    requires LoadAll(f) == a + b
    ensures Delete(f, id).value == WithoutId(a, id) + WithoutId(b, id)
  {
    WithoutIdAppend(a, b, id);
  }

  /** After a delete the conversation cannot be loaded; every other one
      loads as before. */
  lemma {:induction false} DeleteThenLoad(f: StoreFile, id: Id, other: Id)
    requires other != id
    ensures LoadConversation(Delete(f, id), id).None?
    ensures LoadConversation(Delete(f, id), other) == LoadConversation(f, other)
  {
    var all := LoadAll(f);
    var rest := WithoutId(all, id);
    LoadAllIdempotent(f);
    WithoutIdMembers(all, id);
    assert forall j :: 0 <= j < |rest| ==> rest[j] in all;
    forall j | 0 <= j < |rest|
      ensures LoadAll(Delete(f, id))[j] == rest[j]
    {
      NormalizedIsUnchanged(rest[j]);
    }
    assert LoadAll(Delete(f, id)) == rest;
    assert forall j :: 0 <= j < |rest| ==> rest[j].id != id by {
      forall j | 0 <= j < |rest| ensures rest[j].id != id {
        assert rest[j] in rest;
      }
    }
    WithoutIdFirst(all, id, other);
  }

  /** Searching a list with a given head: the head itself, or one past the
      position in the tail. */
  lemma FirstIndexCons(x: Conversation, tail: seq<Conversation>, id: Id)
    ensures FirstIndex([x] + tail, id) ==
      if x.id == id then Some(0)
      else match FirstIndex(tail, id)
           case None => None
           case Some(i) => Some(i + 1)
  {
    assert ([x] + tail)[1..] == tail;
  }

  /** After removing `id`, `other` is found exactly when it was found
      before, and at the same conversation. */
  predicate SameFirst(all: seq<Conversation>, id: Id, other: Id) {
    var r := FirstIndex(WithoutId(all, id), other);
    var s := FirstIndex(all, other);
    r.Some? == s.Some? && (r.Some? ==> WithoutId(all, id)[r.value] == all[s.value])
  }

  lemma DroppedHeadSameFirst(x: Conversation, tail: seq<Conversation>, id: Id, other: Id)
    requires x.id == id && other != id && SameFirst(tail, id, other)
    ensures SameFirst([x] + tail, id, other)
  {
    assert WithoutId([x] + tail, id) == WithoutId(tail, id) by {
      assert ([x] + tail)[1..] == tail;
    }
    FirstIndexCons(x, tail, other);
  }

  lemma KeptHeadSameFirst(x: Conversation, tail: seq<Conversation>, id: Id, other: Id)
    requires x.id != id && other != id && SameFirst(tail, id, other)
    ensures SameFirst([x] + tail, id, other)
  {
    var w := WithoutId(tail, id);
    assert WithoutId([x] + tail, id) == [x] + w by {
      assert ([x] + tail)[1..] == tail;
    }
    FirstIndexCons(x, tail, other);
    FirstIndexCons(x, w, other);
  }

  /** Removing `id` does not change which conversation with `other` comes first. */
  lemma {:induction false} WithoutIdFirst(all: seq<Conversation>, id: Id, other: Id)
    requires other != id
    ensures var r := FirstIndex(WithoutId(all, id), other);
      var s := FirstIndex(all, other);
      r.Some? == s.Some? && (r.Some? ==> WithoutId(all, id)[r.value] == all[s.value])
  {
    if all != [] {
      WithoutIdFirst(all[1..], id, other);
      assert all == [all[0]] + all[1..];
      if all[0].id == id {
        DroppedHeadSameFirst(all[0], all[1..], id, other);
      } else {
        KeptHeadSameFirst(all[0], all[1..], id, other);
      }
    }
  }

  /** The list row for a conversation. */
  function ToSummary(c: Conversation): (s: ConversationSummary)
    ensures s.id == c.id && s.title == c.title && s.mode == c.mode && s.lastUpdatedAt == c.lastUpdatedAt
  {
    ConversationSummary(c.id, c.title, c.mode, c.lastUpdatedAt)
  }

  function Rows(cs: seq<Conversation>): (r: seq<ConversationSummary>)
    ensures |r| == |cs| && forall i :: 0 <= i < |cs| ==> r[i] == ToSummary(cs[i])
  {
    seq(|cs|, i requires 0 <= i < |cs| => ToSummary(cs[i]))
  }

  lemma RowsAppend(a: seq<Conversation>, b: seq<Conversation>)
    ensures Rows(a + b) == Rows(a) + Rows(b)
  {
  }

  lemma RowsPrefix(t: seq<Conversation>)
    requires t != []
    ensures Rows(t) == Rows(t[..|t| - 1]) + [ToSummary(t[|t| - 1])]
  {
  }

  /** Listing commutes with inserting by recency. */
  lemma {:induction false} RowsInsert(t: seq<Conversation>, x: Conversation)
    ensures Rows(StableSort.Insert(t, x, Recency)) == StableSort.Insert(Rows(t), ToSummary(x), RowRecency)
    decreases |t|
  {
    if |t| > 0 {
      var init, last := t[..|t| - 1], t[|t| - 1];
      RowsPrefix(t);
      assert Rows(t)[..|t| - 1] == Rows(init) && Rows(t)[|t| - 1] == ToSummary(last);
      if Recency(last) <= Recency(x) {
        RowsAppend(t, [x]);
      } else {
        RowsInsert(init, x);
        RowsAppend(StableSort.Insert(init, x, Recency), [last]);
      }
    }
  }

  /** Listing commutes with sorting by recency: sorting the conversations
      and listing them gives the rows sorted by their own recency. */
  lemma {:induction false} RowsSortBy(s: seq<Conversation>)
    ensures Rows(StableSort.SortBy(s, Recency)) == StableSort.SortBy(Rows(s), RowRecency)
    decreases |s|
  {
    if s != [] {
      var init, last := s[..|s| - 1], s[|s| - 1];
      RowsPrefix(s);
      assert Rows(s)[..|s| - 1] == Rows(init) && Rows(s)[|s| - 1] == ToSummary(last);
      RowsSortBy(init);
      RowsInsert(StableSort.SortBy(init, Recency), last);
    }
  }

  /** Descending order of last update as an ascending key. */
  function Recency(c: Conversation): int {
    -c.lastUpdatedAt
  }

  function RowRecency(s: ConversationSummary): int {
    -s.lastUpdatedAt
  }

  /** The rows of the conversations updated at `t`, in their order. */
  lemma {:induction false} RowsWithKey(cs: seq<Conversation>, k: int)
    ensures Rows(StableSort.WithKey(cs, Recency, k)) == StableSort.WithKey(Rows(cs), RowRecency, k)
  {
    if cs != [] {
      RowsWithKey(cs[1..], k);
      var head := if Recency(cs[0]) == k then [cs[0]] else [];
      RowsAppend(head, StableSort.WithKey(cs[1..], Recency, k));
      assert Rows(cs)[1..] == Rows(cs[1..]);
    }
  }

  /** `GetSummariesAsync`: one row per stored conversation, most recently
      updated first; rows updated at the same time keep the file's order. */
  function GetSummaries(f: StoreFile): (r: seq<ConversationSummary>)
    ensures |r| == |LoadAll(f)|
    ensures multiset(r) == multiset(Rows(LoadAll(f)))
    ensures forall i, j :: 0 <= i < j < |r| ==> r[i].lastUpdatedAt >= r[j].lastUpdatedAt
    ensures forall k :: StableSort.WithKey(r, RowRecency, k) == Rows(StableSort.WithKey(LoadAll(f), Recency, k))
  {
    var all := LoadAll(f);
    var sorted := StableSort.SortBy(all, Recency);
    RowsSortBy(all);
    forall k ensures StableSort.WithKey(Rows(sorted), RowRecency, k) == Rows(StableSort.WithKey(all, Recency, k)) {
      RowsWithKey(all, k);
    }
    Rows(sorted)
  }

  /** A conversation saved later than every stored one heads the list. */
  lemma SavedLatestComesFirst(f: StoreFile, c: Conversation, now: Timestamp)
    requires forall j :: 0 <= j < |LoadAll(f)| ==> LoadAll(f)[j].lastUpdatedAt < now
    ensures var rows := GetSummaries(Save(f, c, now));
      |rows| > 0 && rows[0] == ToSummary(Saved(c, now))
  {
    var after := LoadAll(Save(f, c, now));
    var all := LoadAll(f);
    var pos := match FirstIndex(all, c.id) case Some(i) => i case None => |all|;
    assert after[pos] == NormalizeConversation(Saved(c, now));
    assert forall j :: 0 <= j < |after| && j != pos ==> Recency(after[pos]) < Recency(after[j]);
    StableSort.UniqueMinimumFirst(after, Recency, pos);
  }

  /** Every listed row can be loaded: its id belongs to a stored conversation. */
  lemma EverySummaryLoads(f: StoreFile)
    ensures forall j :: 0 <= j < |GetSummaries(f)| ==> LoadConversation(f, GetSummaries(f)[j].id).Some?
  {
    var all := LoadAll(f);
    var rows := GetSummaries(f);
    forall j | 0 <= j < |rows|
      ensures LoadConversation(f, rows[j].id).Some?
    {
      assert rows[j] in multiset(Rows(all));
      var k :| 0 <= k < |all| && Rows(all)[k] == rows[j];
      assert all[k].id == rows[j].id;
    }
  }
}

=== FILE: text.dfy ===
/** The .NET string helpers the chat client relies on: `char.IsWhiteSpace`,
    `string.IsNullOrWhiteSpace`, `Trim`, `TrimStart` and concatenation. */
module Text {
  import opened Optional

  /** `char.IsWhiteSpace`: the Unicode separators plus the control
      characters U+0009..U+000D, U+0085 and U+00A0. */
  predicate IsWhiteSpace(c: char) {
    var n := c as int;
    || (9 <= n <= 13) || n == 32 || n == 0x85 || n == 0xA0 || n == 0x1680
    || (0x2000 <= n <= 0x200A) || n == 0x2028 || n == 0x2029
    || n == 0x202F || n == 0x205F || n == 0x3000
  }

  /** `string.IsNullOrWhiteSpace` on a non-null string: empty or only white space. */
  predicate AllWhiteSpace(s: string) {
    forall i :: 0 <= i < |s| ==> IsWhiteSpace(s[i])
  }

  /** `string.IsNullOrWhiteSpace` on a nullable string. */
  predicate Blank(s: Option<string>) {
    s.None? || AllWhiteSpace(s.value)
  }

  /** `TrimStart()`: drops the leading white space and nothing else. */
  function TrimStart(s: string): (r: string)
    ensures |r| <= |s| && r == s[|s| - |r|..]
    ensures forall i :: 0 <= i < |s| - |r| ==> IsWhiteSpace(s[i])
    ensures r == [] || !IsWhiteSpace(r[0])
  {
    if |s| > 0 && IsWhiteSpace(s[0]) then TrimStart(s[1..]) else s
  }

  /** `TrimEnd()`: drops the trailing white space and nothing else. */
  function TrimEnd(s: string): (r: string)
    ensures |r| <= |s| && r == s[..|r|]
    ensures forall i :: |r| <= i < |s| ==> IsWhiteSpace(s[i])
    ensures r == [] || !IsWhiteSpace(r[|r| - 1])
  {
    if |s| > 0 && IsWhiteSpace(s[|s| - 1]) then TrimEnd(s[..|s| - 1]) else s
  }

  /** `r` is a middle part of `s` with only white space cut off either end. */
  predicate CutFrom(r: string, s: string) {
    exists i, j :: 0 <= i <= j <= |s| && r == s[i..j] && AllWhiteSpace(s[..i]) && AllWhiteSpace(s[j..])
  }

  /** `Trim()`: white space removed at both ends, and nothing else. */
  function Trim(s: string): (r: string)
    ensures r == [] || (!IsWhiteSpace(r[0]) && !IsWhiteSpace(r[|r| - 1]))
    ensures CutFrom(r, s)
  {
    TrimCuts(s);
    TrimEnd(TrimStart(s))
  }

  lemma TrimCuts(s: string)
    ensures CutFrom(TrimEnd(TrimStart(s)), s)
  {
    var t := TrimStart(s);
    CutBothEnds(s, |s| - |t|, t, TrimEnd(t));
  }

  /** Cutting white space off the front, then off the back of what is left,
      cuts a middle part of the original. */
  lemma CutBothEnds(s: string, i: nat, t: string, u: string)
    requires i <= |s| && t == s[i..] && forall k :: 0 <= k < i ==> IsWhiteSpace(s[k])
    requires |u| <= |t| && u == t[..|u|] && forall k :: |u| <= k < |t| ==> IsWhiteSpace(t[k])
    ensures CutFrom(u, s)
  {
    var j := i + |u|;
    assert u == s[i..j];
    assert s[j..] == t[|u|..];
    assert AllWhiteSpace(s[..i]) && AllWhiteSpace(s[j..]);
  }

  /** Trimming yields the empty string exactly for a blank string, so
      "trim, then test for empty" and `IsNullOrWhiteSpace` agree. */
  lemma TrimEmptyIffAllWhiteSpace(s: string)
    ensures Trim(s) == [] <==> AllWhiteSpace(s)
  {
    var t := TrimStart(s);
    if Trim(s) == [] {
      // a non-empty TrimStart result starts with a non-blank, which TrimEnd keeps
      assert t == [];
    } else {
      var r := Trim(s);
      assert r == t[..|r|];
      assert t == s[|s| - |t|..];
      assert s[|s| - |t|] == r[0];
    }
  }

  /** Concatenation of a sequence of strings (a `StringBuilder` fed in order). */
  function Concat(parts: seq<string>): string {
    if parts == [] then [] else parts[0] + Concat(parts[1..])
  }

  lemma {:induction false} ConcatAppend(a: seq<string>, b: seq<string>)
    ensures Concat(a + b) == Concat(a) + Concat(b)
  {
    if a == [] {
      assert a + b == b;
    } else {
      assert (a + b)[1..] == a[1..] + b;
      ConcatAppend(a[1..], b);
    }
  }
}

=== FILE: transport.dfy ===
/** The pure parts of the Azure OpenAI chat transport: configuration checks,
    the wire message sequence, reply assembly, failure messages, option
    selection by mode, stream chunk filtering and the summarization request.
    The remote client itself is represented by the outcomes it produces. */
module ChatTransport {
  import opened Optional
  import opened Text
  import opened Domain
  import StableSort
  import PromptBuilder
  import RetryPolicy

  /** The options the transport reads. Temperatures are floats and are not modelled. */
  datatype ServiceOptions = ServiceOptions(
    endpoint: Option<string>,
    deploymentName: Option<string>,
    apiKey: Option<string>,
    maxOutputTokens: int,
    explainMaxOutputTokens: int)

  datatype ConfigError = EndpointRequired | DeploymentNameRequired | ApiKeyRequired

  /** A constructed transport, ready to call the endpoint. */
  datatype ChatService = ChatService(options: ServiceOptions)

  /** Construction fails fast, checking endpoint, deployment name and API
      key in that order, before any client exists. */
  function NewChatService(o: ServiceOptions): (r: Result<ChatService, ConfigError>)
    ensures r.Ok? <==> !Blank(o.endpoint) && !Blank(o.deploymentName) && !Blank(o.apiKey)
    ensures r.Ok? ==> r.value.options == o
    ensures r == Err(EndpointRequired) <==> Blank(o.endpoint)
    ensures r == Err(DeploymentNameRequired) <==> !Blank(o.endpoint) && Blank(o.deploymentName)
    ensures r == Err(ApiKeyRequired) <==> !Blank(o.endpoint) && !Blank(o.deploymentName) && Blank(o.apiKey)
  {
    if Blank(o.endpoint) then Err(EndpointRequired)
    else if Blank(o.deploymentName) then Err(DeploymentNameRequired)
    else if Blank(o.apiKey) then Err(ApiKeyRequired)
    else Ok(ChatService(o))
  }

  /** A message as the chat SDK receives it. */
  datatype WireMessage = SystemWire(text: string) | UserWire(text: string) | AssistantWire(text: string)

  /** Role mapping for completions: the three roles one to one, any other role as User. */
  function ToWire(m: Message): (w: WireMessage)
    ensures w.text == m.content
    ensures w.SystemWire? <==> m.role == System
    ensures w.AssistantWire? <==> m.role == Assistant
  {
    match m.role
    case User => UserWire(m.content)
    case Assistant => AssistantWire(m.content)
    case System => SystemWire(m.content)
    case UnnamedRole(_) => UserWire(m.content)
  }

  function CreatedAt(m: Message): int { m.createdAt }

  /** `OrderBy(m => m.CreatedAt)`. */
  function Chronological(msgs: seq<Message>): (r: seq<Message>)
    ensures |r| == |msgs| && multiset(r) == multiset(msgs)
    ensures StableSort.SortedBy(r, CreatedAt)
    ensures forall t :: StableSort.WithKey(r, CreatedAt, t) == StableSort.WithKey(msgs, CreatedAt, t)
  {
    StableSort.SortBy(msgs, CreatedAt)
  }

  /** The wire sequence for a request: the instruction as a System turn iff
      it is not blank, then the messages in creation-time order (stable for
      equal times), each mapped by role. */
  function BuildChatMessages(req: PromptBuilder.ServiceConversation): (r: seq<WireMessage>)
    ensures var head := if Blank(Some(req.systemInstruction)) then 0 else 1;
      && |r| == |req.messages| + head
      && (head == 1 ==> r[0] == SystemWire(req.systemInstruction))
      && forall i :: 0 <= i < |req.messages| ==> r[head + i] == ToWire(Chronological(req.messages)[i])
  {
    var sorted := Chronological(req.messages);
    (if Blank(Some(req.systemInstruction)) then [] else [SystemWire(req.systemInstruction)])
      + seq(|sorted|, i requires 0 <= i < |sorted| => ToWire(sorted[i]))
  }

  /** When the request's messages are already in creation-time order (as a
      conversation's are), the wire messages follow the request one to one. */
  lemma ChronologicalRequestKeepsOrder(req: PromptBuilder.ServiceConversation)
    requires StableSort.SortedBy(req.messages, CreatedAt)
    ensures var head := if Blank(Some(req.systemInstruction)) then 0 else 1;
      forall i :: 0 <= i < |req.messages| ==> BuildChatMessages(req)[head + i] == ToWire(req.messages[i])
  {
    StableSort.SortedIsUnchanged(req.messages, CreatedAt);
    assert Chronological(req.messages) == req.messages;
    var head := if Blank(Some(req.systemInstruction)) then 0 else 1;
    var r := BuildChatMessages(req);
    forall i | 0 <= i < |req.messages|
      ensures r[head + i] == ToWire(req.messages[i])
    {
      assert r[head + i] == ToWire(Chronological(req.messages)[i]);
    }
  }

  /** A content part of a completion or of a streaming update. */
  datatype ContentPart = TextPart(text: Option<string>) | NonTextPart

  /** The text a sequence of parts contributes: only text parts with non-null text. */
  function TextsOf(parts: seq<ContentPart>): (r: seq<string>)
    ensures |r| <= |parts|
  {
    if parts == [] then []
    else
      (if parts[0].TextPart? && parts[0].text.Some? then [parts[0].text.value] else [])
        + TextsOf(parts[1..])
  }

  lemma {:induction false} TextsOfAppend(a: seq<ContentPart>, b: seq<ContentPart>)
    ensures TextsOf(a + b) == TextsOf(a) + TextsOf(b)
  {
    if a == [] {
      assert a + b == b;
    } else {
      assert (a + b)[1..] == a[1..] + b;
      TextsOfAppend(a[1..], b);
    }
  }

  /** What the non-streaming completion call produced. */
  datatype CompletionOutcome =
    | Completion(parts: seq<ContentPart>)
    | CallFailed(error: string)
    | CallCancelled

  /** The reply `SendAsync` hands back, or the cancellation it rethrows. */
  datatype ServiceReply = Returned(message: Message) | CancellationRethrown

  const NoValidResponse := "I didn't receive a valid response from the model."
  const CallError := "An error occurred while calling Azure OpenAI."
  const DetailsSeparator := "\n\nDetails: "

  /** A terminal failed assistant message whose error text is its content. */
  function BuildFailedMessage(message: string, details: Option<string>, id: Id, now: Timestamp): (m: Message)
    ensures m.role == Assistant && m.status == Failed
    ensures m.errorMessage == Some(m.content)
    ensures details.None? ==> m.content == message
    ensures details.Some? ==> m.content == message + DetailsSeparator + details.value
  {
    var full := if details.None? then message else message + DetailsSeparator + details.value;
    Message(id, Assistant, full, now, Failed, Some(full))
  }

  /** `SendAsync` after the call: the concatenated text parts as a Sent
      assistant message, a Failed "no valid response" message for blank
      text, a Failed message carrying the error for any other fault, and
      cancellation passed through. */
  function CompleteReply(outcome: CompletionOutcome, id: Id, now: Timestamp): (r: ServiceReply)
    ensures r.CancellationRethrown? <==> outcome.CallCancelled?
    ensures outcome.Completion? && !AllWhiteSpace(Concat(TextsOf(outcome.parts))) ==>
      r == Returned(Message(id, Assistant, Concat(TextsOf(outcome.parts)), now, Sent, None))
    ensures outcome.Completion? && AllWhiteSpace(Concat(TextsOf(outcome.parts))) ==>
      r.Returned? && r.message.status == Failed && r.message.content == NoValidResponse
    ensures outcome.CallFailed? ==>
      r.Returned? && r.message.status == Failed
      && r.message.content == CallError + DetailsSeparator + outcome.error
    ensures r.Returned? ==> r.message.role == Assistant && r.message.status in {Sent, Failed}
  {
    match outcome
    case CallCancelled => CancellationRethrown
    case CallFailed(e) => Returned(BuildFailedMessage(CallError, Some(e), id, now))
    case Completion(parts) =>
      var text := Concat(TextsOf(parts));
      if AllWhiteSpace(text) then Returned(BuildFailedMessage(NoValidResponse, None, id, now))
      else Returned(Message(id, Assistant, text, now, Sent, None))
  }

  /** How the retry-wrapped call surfaces in `SendAsync`: success yields the
      completion, a task cancellation (even an exhausted timeout) surfaces as
      cancellation, any other final failure as an error. */
  function CallOutcome(final: RetryPolicy.AttemptResult, parts: seq<ContentPart>, error: string): (o: CompletionOutcome)
    ensures o.CallCancelled? <==> final.TaskCanceled?
    ensures o.Completion? <==> final.Succeeded?
    ensures o.Completion? ==> o.parts == parts
    ensures o.CallFailed? ==> o.error == error
  {
    match final
    case Succeeded => Completion(parts)
    case TaskCanceled => CallCancelled
    case RequestFailed(_) => CallFailed(error)
    case OtherFault => CallFailed(error)
  }

  /** Four timeouts in a row exhaust the retries and reach the session as a
      cancellation, not as a failed message. */
  lemma ExhaustedTimeoutsLookLikeCancellation(parts: seq<ContentPart>, error: string, id: Id, now: Timestamp)
    ensures var results := [RetryPolicy.TaskCanceled, RetryPolicy.TaskCanceled, RetryPolicy.TaskCanceled, RetryPolicy.TaskCanceled];
      var e := RetryPolicy.Execute(results, [0, 0, 0]);
      e.calls == 4 && CompleteReply(CallOutcome(e.final, parts, error), id, now) == CancellationRethrown
  {
  }

  /** Output-token limit of a completion: the Explain value iff the mode is Explain. */
  function CompletionMaxOutputTokens(mode: ConversationMode, o: ServiceOptions): (n: int)
    ensures mode == Explain ==> n == o.explainMaxOutputTokens
    ensures mode != Explain ==> n == o.maxOutputTokens
  {
    if mode == Explain then o.explainMaxOutputTokens else o.maxOutputTokens
  }

  /** Output-token limit of a streaming call: always the default value. */
  function StreamMaxOutputTokens(mode: ConversationMode, o: ServiceOptions): (n: int)
    ensures n == o.maxOutputTokens
  {
    o.maxOutputTokens
  }

  /** Streaming and completion agree on the limit exactly outside Explain mode
      (or when both limits coincide). */
  lemma StreamLimitDiffersOnlyForExplain(mode: ConversationMode, o: ServiceOptions)
    ensures StreamMaxOutputTokens(mode, o) == CompletionMaxOutputTokens(mode, o)
      <==> (mode != Explain || o.explainMaxOutputTokens == o.maxOutputTokens)
  {
  }

  /** The chunks `StreamAsync` yields for a sequence of updates: the non-null
      text parts of each update, update by update, part by part. */
  function StreamChunks(updates: seq<seq<ContentPart>>): (chunks: seq<string>)
  {
    if updates == [] then [] else TextsOf(updates[0]) + StreamChunks(updates[1..])
  }

  function Flatten(updates: seq<seq<ContentPart>>): seq<ContentPart> {
    if updates == [] then [] else updates[0] + Flatten(updates[1..])
  }

  /** Streaming yields exactly the text parts a single completion holding
      all the updates' parts would concatenate, in the same order. */
  lemma {:induction false} StreamMatchesCompletion(updates: seq<seq<ContentPart>>)
    ensures StreamChunks(updates) == TextsOf(Flatten(updates))
    ensures Concat(StreamChunks(updates)) == Concat(TextsOf(Flatten(updates)))
  {
    if updates != [] {
      StreamMatchesCompletion(updates[1..]);
      TextsOfAppend(updates[0], Flatten(updates[1..]));
    }
  }

  const SummarizePrompt :=
    "You are summarizing an earlier part of a programming-focused conversation. "
    + "Write a concise summary that captures key questions, answers, and decisions, "
    + "in 4\U{2013}8 bullet points. Do not invent details."

  /** Role mapping for summarization: assistants stay assistants, every other role becomes User. */
  function ToSummaryWire(m: Message): (w: WireMessage)
    ensures w.text == m.content
    ensures w.AssistantWire? <==> m.role == Assistant
    ensures !w.SystemWire?
  {
    if m.role == Assistant then AssistantWire(m.content) else UserWire(m.content)
  }

  /** The summarization request: the fixed prompt, then the messages in
      creation-time order; no System turn but the first. */
  function SummarizeRequest(msgs: seq<Message>): (r: seq<WireMessage>)
    ensures |r| == |msgs| + 1 && r[0] == SystemWire(SummarizePrompt)
    ensures forall i :: 1 <= i < |r| ==> !r[i].SystemWire?
    ensures forall i :: 0 <= i < |msgs| ==> r[i + 1] == ToSummaryWire(Chronological(msgs)[i])
  {
    var sorted := Chronological(msgs);
    [SystemWire(SummarizePrompt)] + seq(|sorted|, i requires 0 <= i < |sorted| => ToSummaryWire(sorted[i]))
  }

  /** The summary text: the concatenated text parts, trimmed at both ends. */
  function SummaryText(parts: seq<ContentPart>): (s: string)
    ensures s == [] || (!IsWhiteSpace(s[0]) && !IsWhiteSpace(s[|s| - 1]))
    ensures s == [] <==> AllWhiteSpace(Concat(TextsOf(parts)))
    ensures CutFrom(s, Concat(TextsOf(parts)))
  {
    TrimEmptyIffAllWhiteSpace(Concat(TextsOf(parts)));
    Trim(Concat(TextsOf(parts)))
  }
}
